=== FILE: README.md ===
# Degree-audit core, modelled in Dafny

This project models the core of the gobbldygook area auditor. The auditor checks a student's transcript against an area-of-study specification: a major, minor, concentration or degree. The model covers five pieces of it.

- **Quota mini-language.** Actions such as `count >= 6` or `sum(credits) > 2` are read by a quote-aware tokenizer and a 1-or-3-token parser, and printed back by `Display`. This is `ActionLang` and `ActionShapes`.
- **Claim bookkeeping.** A map from class-lab id (clbid) to the set of claims on that course is threaded through `make_claim`. An attempt is bypassed when claimed courses are allowed, succeeds on a course's first claim, and otherwise must find a multicountable clause set that covers the earlier claims and still has an unused clause. Course solutions claim through it, their course rule standing for the clause `course == <course>`. This is `Claims`, `CourseRules` and `CourseSolutions`.
- **Assertion status and rank.** This covers:
  - operator-based classification into Done / NeedsMoreItems / FailedInvariant / Empty / Pending*;
  - the rank in [0, 1];
  - expected-value changes and `input_size_range`;
  - conditional assertions;
  - assertion loading checks;
  - requirement and query ranks and claims;
  - rule-result status predicates.

  This is `Assertions`, `AssertionLoading`, `Requirements`, `Queries` and `RuleResults`.
- **Static predicate and clause loading.** This is:
  - the `$and`/`$or`/`$not`/function dispatch of predicate expressions;
  - clause loading with `$if` and `$ifs`;
  - the choice of rule loader.

  This is `Predicates`, `ClauseLoading` and `RuleLoading`.
- **Tabular record projection** of course, conditional and query rules in the report formatter: `Formatting`, `CsvRecords` and `QueryRows`.

Shared modules:
- `Wrappers` holds `Option` and `Result`.
- `Strings` holds Rust and Python whitespace, trimming, `split`, and decimal digits.
- `Documents` holds the loaded YAML document node, Python truthiness, `dict.get`, iteration and the Python exception kinds.
- `Clauses` holds operators, result statuses and the clause tree.

Python dictionaries are sequences of entries with distinct keys, kept in insertion order. `Decimal` values are `real`. A raised exception is an `Err` carrying its Python class. The collaborators the core calls but does not define are function parameters:
- clause `is_subset`;
- `apply_operator`;
- `find_best_solution`;
- the `ctx.has_*` lookups and music proficiencies;
- `c.get_by_name`;
- the per-key clause value processors;
- `Operator(...)`;
- the float syntax of `Value::Float`;
- value exceptions and waivers;
- the formatter's course and assertion helpers.

## Model

| member | source | states |
|---|---|---|
| ActionLang.TokensAreClean | parser/src/action/mod.rs:107-139 | A double quote only toggles quoted mode and never reaches a token; every token is trimmed of whitespace at both ends |
| ActionLang.UnquotedTokensNonEmpty | parser/src/action/mod.rs:122-138 | Without quotes, whitespace only separates: no token is empty and none contains whitespace |
| ActionLang.QuotedBlankGivesEmptyToken | parser/src/action/mod.rs:117-136 | A quoted all-blank token `"  "` is trimmed to an empty token, so the tokenizer can emit an empty token |
| ActionLang.LeadingWhitespaceIgnored | parser/src/action/mod.rs:122-129 | Whitespace before the first token does not change the tokens |
| ActionLang.RepeatedWhitespaceIgnored | parser/src/action/mod.rs:122-129 | Outside quotes, a run of whitespace between tokens acts like one blank |
| ActionLang.TrailingWhitespaceIgnored | parser/src/action/mod.rs:122-138 | With every quote closed, trailing whitespace does not change the tokens |
| ActionLang.SplitLayout | parser/src/action/mod.rs:107-139 | Bare words and quoted texts separated by whitespace tokenize to the words and the edge-trimmed quoted texts, inner whitespace runs kept |
| ActionLang.ThreeWords | parser/src/action/mod.rs:311-312 | Three bare words separated by single blanks tokenize to exactly those words |
| ActionLang.ParseOperator | parser/src/action/mod.rs:179-189 | Accepted exactly for `<`, `<=`, `=`, `>`, `>=`, `!`, each reading back to its own spelling; anything else is `UnknownOperator` |
| ActionLang.OperatorRoundTrip | parser/src/action/mod.rs:179-203 | Parsing a displayed operator gives the operator back |
| ActionLang.ParseCommand | parser/src/action/mod.rs:280-291 | Accepted exactly when the trimmed text is a command name, which it then displays as; otherwise `UnknownCommand` |
| ActionLang.CommandRoundTrip | parser/src/action/mod.rs:280-304 | Parsing a displayed command gives the command back |
| ActionLang.ParseU64 | parser/src/action/mod.rs:219 | A `u64` is read exactly from an optional `+` and a non-empty run of decimal digits, leading zeros allowed, whose value is below 2^64; the result is the digits' value, and anything else is refused |
| ActionLang.U64RoundTrip | parser/src/action/mod.rs:216-242 | The decimal display of an integer reads back as that integer |
| ActionLang.ParseValue | parser/src/action/mod.rs:216-230 | Never fails; an integer exactly when u64 parsing succeeds, else a float when the float syntax accepts, else a command, else the text itself (never a command name) |
| ActionLang.ValueRoundTrip | parser/src/action/mod.rs:216-242 | Commands and integers survive display then parse |
| ActionLang.ParseAction | parser/src/action/mod.rs:78-104 | One token gives `lhs` alone, three tokens give `lhs op rhs` and fail exactly when the operator is unknown, any other count is `InvalidAction` |
| ActionLang.DisplayAction | parser/src/action/mod.rs:57-73 | An error exactly when one of op/rhs is present without the other; else the lhs alone, or `lhs op rhs` with single blanks |
| ActionLang.ShouldPluralize | parser/src/action/mod.rs:15-23 | Whether a printed requirement names its command in the plural. What this means for a written action is stated by ActionLang.PluralOfPrintedCount: `<command> <op> <n>` parses, and is plural exactly when n is not 1 |
| ActionLang.PluralOfPrintedCount | parser/src/action/mod.rs:15-104 | A printed `<command> <op> <n>` parses back, and the parsed action is plural exactly when n is not 1 |
| ActionLang.ActionRoundTrip | parser/src/action/mod.rs:57-104 | An action whose values are commands or integers displays without error and parses back to itself |
| ActionLang.CountAtLeastSix | parser/src/action/mod.rs:331-342 | `count >= 6` parses to the count command, at-least, the integer six |
| ActionLang.FlippedOperatorRejected | parser/src/action/mod.rs:448-452 | `a => b` fails with `UnknownOperator` |
| ActionShapes.FromFields | src/action/mod.rs:18-72 | A missing `op` or `rhs` field defaults to none; present fields are kept |
| ActionShapes.Display | src/action/mod.rs:34-50 | An error exactly for mixed presence of op/rhs; otherwise the command alone, or `lhs op rhs` |
| ActionShapes.DisplayAgrees | src/action/mod.rs:34-50 | The library's display agrees with the parser crate's display of the same action |
| ActionShapes.PrintedActionParses | src/action/mod.rs:34-50 | A library action with a canonical rhs prints to text the parser reads back as the same action |
| Claims.ApplicableKeepsFirstCovering | degreepath/context.py:149-230 | Narrowing to the sets that touch the new clause does not change the first set that covers all the clauses |
| Claims.CoveringSearch | degreepath/context.py:195-252 | With prior claims, the claim is allowed exactly when the first multicountable set covering every prior clause and the new one still has a clause no prior clause has used |
| Claims.MakeClaim | degreepath/context.py:94-259 | `None` and tuples raise `TypeError`. A bypass succeeds with no conflicts and no change. Otherwise failure happens exactly when the prior claims are not admitted. A failure leaves the map alone and reports the prior claims. A success records exactly the new claim under its clbid |
| Claims.MakeClaimKeepsBooks | degreepath/context.py:136-259 | Claims stay filed under their own clbid, no claim is ever removed, and at most the new claim is added |
| Claims.NoMulticountableClaimsOnce | degreepath/context.py:140-161 | Without multicountable sets no course ever carries two claims |
| Claims.RunKeepsBooks | degreepath/context.py:136-259 | Over any sequence of attempts the map stays well keyed and only grows |
| Claims.FailedAttemptsLeaveMapAlone | degreepath/context.py:234-237 | A run whose attempts all fail ends with the map it started with |
| Claims.IndexByKeepsLast | degreepath/context.py:29-39 | Indexing a transcript by a key keeps the last course with each key |
| Claims.WithTranscript | degreepath/context.py:29-39 | Course lookup is by course name, else shorthand, last occurrence winning; clbid lookup is by clbid; claims and sets are unchanged |
| Claims.ForcedCourseByClbid | degreepath/context.py:68-72 | Raises exactly when the clbid is unknown; otherwise the indexed course |
| Claims.ForcedCourseFromTranscript | degreepath/context.py:29-72 | After `with_transcript`, a forced lookup succeeds exactly for clbids on the transcript |
| Claims.SetClaims | degreepath/context.py:88-89 | The claims become the given map; everything else is kept |
| Claims.ResetClaims | degreepath/context.py:91-92 | No course has claims afterwards; everything else is kept |
| Claims.ClaimAfterReset | degreepath/context.py:91-146 | After a reset, a first claim succeeds and is the only claim on its course |
| CourseRules.IsEquivalentToClause | degreepath/base/course.py:34-48 | Never equivalent for a key other than `course` or an operator other than `==`/`in`; `==` compares with the course, `in` tests membership |
| CourseRules.CourseClauseEquivalent | degreepath/base/course.py:41-44 | `course == x` is equivalent exactly when x is the rule's course |
| CourseRules.ListedCourseEquivalent | degreepath/base/course.py:45-46 | `course in (...)` listing the rule's course is equivalent |
| CourseSolutions.FromRule | dp/solution/course.py:18-40 | `inserted` is the rule's flag or the argument; `forced`, `overridden` and the matched course are the arguments; other rule fields are copied |
| CourseSolutions.Audit | dp/solution/course.py:42-65 | Overridden, unmatched or from-claimed-but-unclaimed solutions make no claim. Otherwise exactly one claim is made, with `forced or allow_claimed`, and its outcome and bookkeeping are the result's. It raises `AssertionError` exactly when that claim fails on the from-claimed path |
| CourseSolutions.ClaimedOnlyAgainstClaims | dp/solution/course.py:42-65 | On the from-claimed path, assuming `has_claim` means the course has a prior claim and `make_claim` is the context's claim operation (see "## Left out"): a course nobody has claimed gives an unclaimed result and the same map; a claimed course with `forced` or `allow_claimed` gets a claim that succeeds without changing the map; otherwise, with no multicountable rules, the audit raises `AssertionError` |
| CourseSolutions.ClaimAsCourseRule | degreepath/context.py:120-138 | A course rule claims under `course == <its course>`; allowing claimed courses never fails nor changes the map |
| CourseSolutions.AuditAgainstClaims | dp/solution/course.py:42-65 | Against the real bookkeeping, a forced solution never fails and leaves the map alone; an unforced one on an unclaimed course records its claim |
| Assertions.Rank | dp/assertion_clause.py:237-251 | Raises exactly for an unresolved assertion that is neither done nor waived. Done or waived gives (1,1). Otherwise the maximum is 1 and the rank is at most 1, and it is 0 for `<`/`<=` or a zero expected. Otherwise the rank is `min(1, resolved / expected)`: either 1 with the quotient at least 1, or below 1 with rank × expected equal to the resolved value. For a positive expected, the rank is 1 exactly when the resolved value reaches the expected |
| Assertions.Classify | dp/assertion_clause.py:386-437 | Done exactly when the operator holds. NeedsMoreItems exactly for a failed `>` with a value in (0, expected], or a failed `>=`/`=` with a value in (0, expected). FailedInvariant exactly for a failed `<`/`<=`. Empty otherwise |
| Assertions.ClassifyAtLeast | dp/assertion_clause.py:386-437 | For `>=`: Done at or above the expected, NeedsMoreItems strictly between zero and it, else Empty; for `<=` above the bound, FailedInvariant |
| Assertions.ClassifiedRank | dp/assertion_clause.py:386-437 | A classified, resolved assertion always has a rank: (1,1) when done, (0,1) when failed. A NeedsMoreItems assertion ranks strictly between 0 and 1, except `>` with the value equal to the expected, which ranks (1,1) |
| Assertions.EvaluateWithCourses | dp/assertion_clause.py:440-493 | Unsatisfied: as for areas and items. Satisfied: Done under in-progress-as-pass, without in-progress courses, or when it holds without them. Otherwise PendingRegistered when a matched course is a future registration, else PendingCurrent for a current or incomplete course, else an assertion failure |
| Assertions.InProgressAsPassNeverPending | dp/assertion_clause.py:444-452 | With `treat_in_progress_as_pass` a satisfied assertion is Done |
| Assertions.PendingNeedsInProgress | dp/assertion_clause.py:444-476 | A pending status needs a satisfied assertion, an in-progress course, and failure without in-progress courses |
| Assertions.ChangeDiffFromSums | dp/assertion_clause.py:611-625 | The change loop adds the sum of active `+` amounts and subtracts the sum of active `-` amounts |
| Assertions.ChangeDiffIsSums | dp/assertion_clause.py:611-625 | `compute_change_diff` is the sum of active additions minus the sum of active subtractions |
| Assertions.InactiveChangeIgnored | dp/assertion_clause.py:611-625 | A change whose condition is not true contributes nothing, wherever it stands |
| Assertions.InputSizeRange | dp/assertion_clause.py:628-663 | Raises `TypeError` exactly for a non-integer expected or `in`/`not in`. Otherwise the sizes are strictly increasing and are exactly those that: equal the expected (or the maximum below it) for `=`; lie below or up to it for `<`/`<=`; lie from it (or past it) to the maximum for `>=`/`>`, or are the expected alone for `>=` with `at_most`; lie below or past it up to the maximum for `!=`. An unreachable lower bound gives the maximum alone |
| Assertions.ExactSize | dp/assertion_clause.py:631-635 | `=` yields the single size expected, or the maximum when that is smaller |
| Assertions.GreaterThanAtMaximum | dp/assertion_clause.py:644-648 | For `>` with the maximum equal to the expected, the one size offered is maximum + 1, past the maximum |
| Assertions.AtLeastWithinMaximum | dp/assertion_clause.py:631-648 | For `>=` with an integer expected, no size offered exceeds the maximum |
| Assertions.Branch | dp/assertion_clause.py:337-351 | A true condition picks `when_true`, a false one `when_false`, an unevaluated one nothing |
| Assertions.ConditionalStatus | dp/assertion_clause.py:337-343 | The picked branch's status, else Empty |
| Assertions.ConditionalRank | dp/assertion_clause.py:345-351 | The picked branch's rank, else (0,1); rank never above a maximum of 1 |
| Assertions.ConditionalMaxExpected | dp/assertion_clause.py:353-356 | The larger expected value of the branches present |
| Assertions.ConditionalInputSizeRange | dp/assertion_clause.py:358-363 | The picked branch's size range, or the true branch's when none is picked |
| Assertions.AuditAssertion | dp/assertion_clause.py:190-216 | An overridden assertion comes back unchanged. Otherwise only `evaluated`, `state`, `resolved` and `inserted_clbids` can differ from the input. A successful audit is evaluated and resolved, and records one clbid per insert, in order, each the clbid of its forced course. An unknown data type always raises `TypeError`. Every failure is a failing insert lookup, that `TypeError`, or the course evaluation's `AssertionError`. How the result ranks is stated by Assertions.AuditedAssertionRanks |
| Assertions.EvaluateAssertion | dp/assertion_clause.py:218-229 | Courses go through the in-progress-aware evaluation; areas, music performances and recitals through the plain classification; any other data type raises `TypeError` |
| Assertions.CoursesWithoutInProgress | dp/assertion_clause.py:218-229 | With no in-progress course, a course assertion is classified exactly as an area assertion |
| Assertions.FilterWhere | dp/assertion_clause.py:194-197 | Without a predicate every item is kept; with one, an item is in the result exactly when it is an input item the predicate accepts, and the result is no longer than the input |
| Assertions.FilterWhereAppend | dp/assertion_clause.py:194-197 | Filtering a concatenation filters each part and concatenates, and one item is kept exactly when accepted; so the result keeps accepted items in their order and with their multiplicity |
| Assertions.InsertedItems | dp/assertion_clause.py:199-204 | The forced lookups of the insert clbids, in order: they succeed exactly when every lookup does, and the first failing lookup's error is raised |
| Assertions.AuditedAssertionRanks | dp/assertion_clause.py:190-251 | An audited, non-overridden assertion is evaluated, has a rank, and is never left Waived, Pending or PendingApproval |
| Assertions.ConditionalAudit | dp/assertion_clause.py:317-329 | An unevaluated condition raises; otherwise only the picked branch is audited, over the same items, and everything else is kept |
| Assertions.AuditedConditionalStatus | dp/assertion_clause.py:317-343 | After auditing, the status is the audited branch's, or Empty with no branch |
| AssertionLoading.LoadExpectedValue | dp/assertion_clause.py:590-608 | A missing key raises `KeyError`. Lists, floats, tuples and mappings raise `TypeError`. Null, booleans and decimals fail the assertion. Text loads exactly when the constant it names is an integer, and then gives that integer. Integers are kept |
| AssertionLoading.OperatorKeys | dp/assertion_clause.py:538-541 | The operator keys are exactly the keys that name an operator |
| AssertionLoading.OptionalText | dp/assertion_clause.py:513-520 | Absent or null gives none, text is kept, any other value is refused |
| AssertionLoading.LoadChanges | dp/assertion_clause.py:547-551 | Succeeds exactly when every `$changes` entry loads, giving the loaded changes in order; otherwise the error is that of the first entry that fails, every earlier one having loaded |
| AssertionLoading.KeepOriginal | dp/assertion_clause.py:560-561 | `original` is dropped exactly when it is null or equals the expected value |
| AssertionLoading.LoadAssertionBody | dp/assertion_clause.py:538-587 | Loads exactly when there is one operator key naming an operator that is neither forbidden nor `in`/`not in`, no `$ifs`, a `$changes` mapping whose entries load, a loadable expected value and a boolean `at_most`. `$changes` must be a mapping whose entries load in order. The expected value is the loaded value plus those changes, unless a value exception replaces it. `original` is kept only when it differs. `at_most` and `treat_in_progress_as_pass` are as written, and the `where` predicate, message and label are the ones given. The assertion starts empty, unevaluated, unresolved and with nothing inserted, overridden when its path is waived |
| AssertionLoading.LoadSingleAssertion | dp/assertion_clause.py:496-587 | A non-mapping raises `AttributeError`. A non-null `where` that fails to load raises its error first. The mapping needs an `assert` key holding a single action for the data type. `message` and `label` must be text or null, else `AssertionError`. A missing `assert` raises `KeyError`, a non-mapping one `AttributeError`, and one that is not a single action `AssertionError`. Otherwise the result is exactly the body loaded under the path extended by `.assert`, with the `where` specification |
| AssertionLoading.WrittenAssertionLoads | dp/assertion_clause.py:496-587 | A written `{assert: {<action>: <body>}}`, whose body has one operator key naming a known, allowed operator and holding the integer `n`, and no `$ifs`, `$changes` or `at_most`, loads when no value exception applies: its key is the action, its path is extended by `.assert`, its operator is that one, `n` is the expected value with no original kept, and it has no changes, no `where`, message or label, and `at_most` false |
| AssertionLoading.WhereSpec | dp/assertion_clause.py:508-511 | No predicate exactly when `where` is absent or null |
| AssertionLoading.LoadConditional | dp/assertion_clause.py:280-301 | Loads exactly when `$if` is present and its condition loads, `$then` is present and loads, and `$else` is null, absent or loads; a missing `$then` raises `KeyError`, and the condition's or `$then`'s error propagates. The branches load under `/t` and `/f`, and a null or absent `$else` gives no false branch |
| AssertionLoading.LoadAssertion | dp/assertion_clause.py:94-109 | A non-mapping raises. A mapping with `$if` gives exactly what loading it as a conditional gives, and any other mapping exactly what loading it as a plain assertion gives |
| AssertionLoading.LoadedAssertionBeforeAudit | dp/assertion_clause.py:496-587 | A freshly loaded assertion has no rank yet, and a waived one survives its audit unchanged |
| Requirements.Status | dp/base/requirement.py:35-42 | The base status without a result, PendingApproval when audited, otherwise the child's status |
| Requirements.Rank | dp/base/requirement.py:44-59 | Audited and waived gives (1,1), no result (0,1); a passing child gains 1 on both sides, any other keeps its pair |
| Requirements.RankWithinMax | dp/base/requirement.py:44-59 | Rank never exceeds maximum when the child's never does |
| Requirements.RankBoost | dp/base/requirement.py:51-59 | A passing, unaudited child's pair is raised by exactly 1 on both sides; otherwise it is returned as it is |
| Requirements.IsAlwaysDisjoint | dp/base/requirement.py:61-68 | An explicit `disjoint: true` decides; otherwise the child, or the base without a result |
| Requirements.IsNeverDisjoint | dp/base/requirement.py:70-77 | An explicit `disjoint: false` decides; otherwise the child, or the base without a result |
| Requirements.ExplicitDisjointDecides | dp/base/requirement.py:61-77 | An explicit flag fixes its own question and leaves the other one as without the flag |
| Requirements.RequirementClaims | dp/base/requirement.py:82-86 | Empty when audited or without a result, otherwise the child's claims |
| Requirements.ClaimsForGpa | dp/base/requirement.py:88-92 | Non-empty only in the GPA, with a result, not audited; then the child's GPA claims |
| Requirements.GpaClaimsAreClaims | dp/base/requirement.py:82-92 | Every GPA claim is a claim of the requirement |
| Queries.MaxRank | degreepath/base/query.py:72-73 | 0 without assertions; the number of assertions when each counts 1 |
| Queries.AllOnesSum | degreepath/base/query.py:72-73 | Summing maximum ranks of 1 gives the number of assertions |
| Queries.SumMaxRankAppend | degreepath/base/query.py:72-73 | The maximum rank of two lists of assertions is the sum of theirs |
| Queries.SumMaxRankNonNegative | degreepath/base/query.py:72-73 | Non-negative maximum ranks sum to a non-negative maximum |
| Queries.InProgress | degreepath/base/query.py:75-85 | The query's in-progress flag. What it means for a query is stated by Queries.BaseQueryInProgress (at the base rank only an in-progress course or assertion counts) and Queries.InProgressMonotone (matching more courses or adding assertions never ends it) |
| Queries.InProgressMonotone | degreepath/base/query.py:72-85 | Matching more courses or adding assertions (with non-negative maximum ranks) never ends being in progress |
| Queries.BaseQueryInProgress | degreepath/base/query.py:69-85 | With the base rank of 0, in progress only through a course or an assertion |
| Queries.OnlyFailedClaims | degreepath/base/query.py:60-61 | The base query reports no failed claims |
| Queries.ToDict | degreepath/base/query.py:45-64 | The dictionary lists the assertions and `inserted` in order, the given claims, and no failures |
| RuleResults.FailWith | parser/src/audit/rule_result.rs:26-32 | Status `Fail`, the given detail, no reservations; it is a failure and not a pass |
| RuleResults.PassFailExclusive | parser/src/audit/rule_result.rs:34-58 | Pass exactly for `Pass`, fail exactly for `Fail`, never both, and neither for `Skipped` or `Pending` |
| Predicates.FunctionNamed | dp/conditional_expression.py:52-58 | The six function names, each naming its own function; no other name is a function |
| Predicates.FunctionNameRoundTrip | dp/conditional_expression.py:52-58 | Every function is found again by its name |
| Predicates.EvaluatePredicateFunction | dp/conditional_expression.py:228-248 | All five static functions ask the matching student fact with the argument; `requirement-is-satisfied` raises `TypeError` |
| Predicates.Load | dp/conditional_expression.py:251-278 | `$and`, then `$or`, then `$not`, then one function, else `TypeError`. A compound needs exactly one key. The value of `$and`/`$or` must be a list, else `AssertionError`; the children are the loaded list items in order, the first failing item's error raised; their results fold with all/any, `None` counting as false. `$not` loads its value as the child, whose error propagates, and copies the child's result. Static functions are decided, others stay `None`. Text and lists raise `AttributeError`, other non-mappings `TypeError` |
| Predicates.CheckAsWrittenConstant | dp/conditional_expression.py:101-170 | As the code checks them, a `$not` never holds and a `$and` never fails to hold |
| Predicates.CheckAllMeansEvery | dp/conditional_expression.py:101-102 | The intended `$and` check holds exactly when every child's check does |
| Predicates.CheckAnyMeansSome | dp/conditional_expression.py:136-137 | The intended `$or` check holds exactly when some child's check does |
| Predicates.StaticChecks | dp/conditional_expression.py:224-248 | An expression over static functions always checks without raising |
| Predicates.NotOfMissingCourse | dp/conditional_expression.py:169-170 | `$not` of a course not taken holds as intended but not as written |
| Predicates.Evaluate | dp/conditional_expression.py:98-225 | The corrected `evaluate`: the same expression, its result replaced by the intended check's answer; raises when the check does |
| Predicates.EvaluateAsWritten | dp/conditional_expression.py:98-225 | The program's `evaluate`: raises exactly when its check does; otherwise only the result changes, `$not` always gives false and `$and` always true, and a single function agrees with the corrected version |
| Predicates.LoadedResultIsChecked | dp/conditional_expression.py:76-208 | For static expressions without `$not`, the result decided while loading equals the later check |
| ClauseLoading.NormalizeKey | dp/load_clause.py:16-20 | `subjects`, `attribute` and `gereq` become `subject`, `attributes` and `gereqs`; other keys are unchanged |
| ClauseLoading.NormalizeKeyIdempotent | dp/load_clause.py:16-20 | Normalising twice is normalising once |
| ClauseLoading.ConditionArgument | dp/load_clause.py:172-185 | Without a `(` the argument lookup raises `IndexError`; an argument never contains `(` |
| ClauseLoading.EvalCondition | dp/load_clause.py:166-191 | An unknown key raises `TypeError`, a known one without context fails its assertion, and a known one otherwise asks the student's area codes or proficiencies |
| ClauseLoading.EvalConditions | dp/load_clause.py:163-191 | Every condition is evaluated; the result holds exactly when all of them hold, and the first failure is the one raised |
| ClauseLoading.ActionAmount | dp/load_clause.py:196-201 | Succeeds exactly for text `+ <amount>` with a decimal amount, which it returns. A non-text action raises `AttributeError`, text without a blank `ValueError`, a mode other than `+` `TypeError`, and an amount that is not a decimal `InvalidOperation` |
| ClauseLoading.EntryAmount | dp/load_clause.py:162-201 | An entry adds nothing unless all its conditions hold, then its action's amount |
| ClauseLoading.DiffFrom | dp/load_clause.py:159-203 | The sum succeeds exactly when every entry does |
| ClauseLoading.ComputeSingleClauseDiff | dp/load_clause.py:159-203 | A non-mapping raises `AttributeError`; otherwise the entries' sum |
| ClauseLoading.DiffFromAppend | dp/load_clause.py:162-203 | One more entry adds its own amount or raises its own error |
| ClauseLoading.NothingApplies | dp/load_clause.py:193-203 | When no entry's conditions hold the diff is 0 |
| ClauseLoading.OperatorKeys | dp/load_clause.py:111 | Exactly the keys starting with `$` other than `$ifs` |
| ClauseLoading.AddDiff | dp/load_clause.py:124-125 | Integers, booleans and decimals become the decimal sum; anything else raises `TypeError` |
| ClauseLoading.Normalize | dp/load_clause.py:117-121 | Lists become tuples and floats become decimals |
| ClauseLoading.LoadSingleClause | dp/load_clause.py:98-156 | The value must be a mapping with exactly one operator key. An unknown operator raises `ValueError`, a forbidden one `AssertionError`. The clause is pending under the normalised key. Its verbatim value is the written one, lists as tuples and floats as decimals, plus the `$ifs` diff when that is non-zero. Its expected value is the verbatim one with constants resolved and processed for the key, element by element for `in`/`not in`. `at_most`, `label` and `treat_in_progress_as_pass` are as written. Once the operator is known and allowed, a `$ifs` error, an unaddable value (`TypeError`), a disallowed type (`AssertionError`) and a processing error are raised in that order; past them it loads exactly when an `in`/`not in` value is iterable, the expected value is present and `at_most` is a boolean |
| ClauseLoading.SingleClauseFromEntries | dp/load_clause.py:98-156 | A mapping with one known, allowed operator key holding an integer, no `$ifs`, `at_most`, `label` or in-progress flag, under an unprocessed key, loads as exactly that pending comparison |
| ClauseLoading.WrittenSingleClauseLoads | dp/load_clause.py:98-156 | A written `{<op>: n}` under an unprocessed key loads as the pending comparison of the normalised key with `n` |
| ClauseLoading.WrittenClauseLoads | dp/load_clause.py:23-156 | The same `{<key>: {<op>: n}}` loads through `load_clause` as that single clause, with or without boolean clauses allowed |
| ClauseLoading.KeepLoaded | dp/load_clause.py:83-95 | Succeeds exactly when every child does, raising the first failure; the clauses are the children's, in order, with `None`s dropped |
| ClauseLoading.KeptCons | dp/load_clause.py:83-95 | The clauses kept from a list are the first child's, then those kept from the rest |
| ClauseLoading.KeptFromResults | dp/load_clause.py:83-95 | Every kept clause came from some child that loaded it |
| ClauseLoading.KeptEmpty | dp/load_clause.py:83-95 | Nothing is kept exactly when every child gave `None` or failed |
| ClauseLoading.LoadClause | dp/load_clause.py:23-80 | Non-mappings raise. `$and`/`$or` are refused without boolean clauses and must be the only key; their children are those `LoadChildren` gives for the value, an error propagating and no children raising `AssertionError`. `$if` needs context; a failing solution or a missing `$then` raises; `$then` and a truthy `$else` are both loaded before the choice, so either one's error propagates; past them a passing solution gives the `$then` clause, and any other the `$else` clause, or none without `$else`. Otherwise exactly one key makes the single clause `LoadSingleClause` gives for it. Without boolean clauses only single clauses come back, and no forbidden operator ever does |
| ClauseLoading.LoadChildren | dp/load_clause.py:83-95 | A non-iterable raises `TypeError`; a list or tuple gives what keeping the loaded items gives; loaded children keep the no-forbidden-operator and single-clause guarantees |
| RuleLoading.FirstAccepting | degreepath/load_rule.py:18-28 | The first kind in order that accepts the document, or none |
| RuleLoading.ChooseLoader | degreepath/load_rule.py:13-30 | With emphases: a count rule, asserted loadable. Otherwise the first of course, query, count, reference that accepts. None accepting raises `ValueError` |
| RuleLoading.LoadRule | degreepath/load_rule.py:13-30 | The chosen loader's result, or the choice's error; with emphases the count loader is given them, and any other kind is loaded without |
| RuleLoading.NeverRequirement | degreepath/load_rule.py:10-30 | A requirement is never chosen |
| RuleLoading.EarliestKindWins | degreepath/load_rule.py:18-28 | A course reading wins over a query, which wins over a count |
| CsvRecords.ClaimedCourse | formatter/src/rule/course.rs:87-91 | The first claim's course if the transcript has it; none without claims |
| CsvRecords.CourseRecord | formatter/src/rule/course.rs:81-108 | One pair headed by the course. A resolved course shows its description even when waived. Otherwise `<waived>` under an inherited or own waiver, a blank for Empty, else the status name |
| CsvRecords.OnlyFirstClaimCounts | formatter/src/rule/course.rs:87-91 | Claims after the first never change the record |
| CsvRecords.OwnWaiverSuffices | formatter/src/rule/conditional.rs:59-79 | A waived rule exports the same whether or not a waiver is inherited |
| CsvRecords.Record | formatter/src/rule/conditional.rs:59-79 | A course rule's record is its own. A conditional's is `("cond","?")`, then every record of the true branch, then every record of the false branch if there is one, both branches exported under the inherited waiver or the conditional's own |
| CsvRecords.UnwaivedRecordFollowsPieces | formatter/src/rule/conditional.rs:59-79 | In a tree with no waived rule, the export is, position by position, `("cond","?")` for each conditional and each course rule's own record under the inherited flag, in tree order with both branches |
| CsvRecords.UnwaivedCourseShowsStatus | formatter/src/rule/conditional.rs:59-79 | In such a tree, exported without an inherited waiver, an unresolved course shows its status, never `<waived>` |
| CsvRecords.Requirements | formatter/src/rule/course.rs:110-112 | A course rule has no requirements |
| CsvRecords.HeadersFollowOutline | formatter/src/rule/conditional.rs:65-74 | The headers are `cond` per conditional and the course per course rule, both branches in order, whatever the condition, student or waiver |
| CsvRecords.WaiverReachesEveryCourse | formatter/src/rule/conditional.rs:59-79 | Under a waiver every unresolved course in the tree exports as `<waived>` |
| CsvRecords.ConditionalRequirements | formatter/src/rule/conditional.rs:81-91 | The true branch's requirements, then the false branch's, if any |
| CsvRecords.ClosedTreeHasNoRequirements | formatter/src/rule/course.rs:110-112 | A tree of course and conditional rules has no requirements |
| QueryRows.FirstQualifying | formatter/src/rule/query.rs:192-198 | The first assertion that is course-or-credit and at-least, if any |
| QueryRows.GetRow | formatter/src/rule/query.rs:187-203 | Empty with no qualifying assertion; otherwise the first one's row under the inherited-or-own waiver |
| QueryRows.LaterAssertionsIgnored | formatter/src/rule/query.rs:198 | Assertions after the first qualifying one never change the row |
| QueryRows.QueryRequirements | formatter/src/rule/query.rs:205-207 | A query rule has no requirements |
| QueryRows.LargestCount | formatter/src/rule/query.rs:83-89 | At least every assertion's size and equal to one of them; 0 without assertions |
| QueryRows.BelowIrreflexive | formatter/src/rule/query.rs:71-74 | No clbid sorts before itself in the set's string order |
| QueryRows.BelowTransitive | formatter/src/rule/query.rs:71-74 | The string order is transitive |
| QueryRows.BelowTotal | formatter/src/rule/query.rs:71-74 | Of two different clbids one sorts first |
| QueryRows.Insert | formatter/src/rule/query.rs:71-74 | Inserting into an ordered set keeps it strictly ordered and adds exactly the element |
| QueryRows.InsertAll | formatter/src/rule/query.rs:73-74 | Extending an ordered set keeps it strictly ordered and adds exactly the elements |
| QueryRows.KnownClbids | formatter/src/rule/query.rs:71-74 | Strictly ordered, and exactly the claim clbids and the assertions' clbids |
| QueryRows.SortedHasNoDuplicates | formatter/src/rule/query.rs:71-77 | The known clbids repeat nothing |
| QueryRows.ClaimedCourses | formatter/src/rule/query.rs:70-80 | The transcript's course for each known clbid in order; none (a panic) exactly when a clbid is missing |

## Left out

- Value::Float parsing and its two-decimal display are a parameter (`FloatSyntax`). Floats are therefore outside the action round trip.
- Rust `u64` overflow is modelled as parsing failure above 2^64 − 1. Rust's `char::is_whitespace` and Python's `str.strip` are modelled by their code-point lists.
- Not modelled, because these are printing and deserialisation rather than behaviour:
  - the `print::Print` and `to_prose` implementations;
  - the `option_*` serde helpers.
- Clause `is_subset` and `apply_operator` are parameters. So are `find_best_solution` together with `QueryRule.load` (for `$if`), `c.get_by_name`, the grade / credits / gpa value processors and `str_to_grade_points`.
- The student lookups `has_area_code`, `has_course` and the music proficiencies are parameters.
- The count, course, query and reference rule loaders are parameters of `RuleLoading.LoadRule`, because their code is not part of this model.
- `make_claim`'s "no prior claims" branches inside the multicountable search cannot be reached once prior claims exist, so they are not modelled separately. Logging and debug toggles are left out.
- `completed_courses` (degreepath/context.py:77-78) recurses into itself forever and is not modelled. `find_course`, `find_course_by_clbid` and `has_course` are plain lookups in the maps Claims.WithTranscript builds. The transcript filters `find_other_courses` and `find_all_courses` are not modelled, because no modelled operation uses them.
- `Assertion.waive` (dp/assertion_clause.py:181-188) sets a `status` field the class does not have (its field is `state`), and it is not modelled. Waiving reaches the model through the `waived` parameter of loading.
- `evaluate_with_courses` ends in a branch the code marks unreachable. It cannot be taken once the preceding assertion holds, so the model has no branch for it.
- Decimal context precision is not modelled: `Decimal` values are exact reals. `Decimal(str(f))` of a float is taken as the float's value.
- The formatter's rule status type is not part of this model. Only `Waived` (the one status `is_waived` accepts) and `Empty` are distinguished, and any other status carries its printed name.
- The formatter's assertion helpers are fields or parameters: `get_row`, `get_size`, `get_clbids`, `is_course_or_credit`, `is_at_least`. Only course, conditional and query records are modelled. Other rule kinds carry their own record function.
- CourseSolutions.ClaimAsCourseRule, CourseSolutions.AuditAgainstClaims and CourseSolutions.ClaimedOnlyAgainstClaims assume that the `ctx.make_claim(course=, path=, allow_claimed=)` called at dp/solution/course.py:55 is degreepath/context.py's `make_claim`, with the course rule standing for the clause `course == <course>`. They also assume that `ctx.has_claim(clbid=)` at dp/solution/course.py:51 holds exactly when the claims map has a prior claim on that clbid; degreepath/context.py does not define `has_claim`. The context that course solutions use is not part of this model.
- ActionShapes.DisplayAgrees and ActionShapes.PrintedActionParses assume that the main crate's `Command` and `Operator` (src/action/command.rs and src/action/operator.rs) are the parser crate's, as modelled in `ActionLang`, and that its `Value` (`crate::value::SingleValue`, re-exported at src/action/mod.rs:10) is `ActionLang.Value`. Those files are not part of this model.
- ActionLang.ParseValue and ActionLang.ShouldPluralize: the `Value::Float` payload is a `real`, so the NaN and infinities that Rust's `f64` parsing accepts ("NaN", "inf") cannot be represented. What they would parse to, and that `NaN != 1.0` pluralises, is not modelled.
- Assertions.AuditAssertion: the clause library's computation (`apply_clause_to_assertion_*`) is the `apply` parameter of the audit environment. `resolved_items` and `resolved_clbids` are not recorded. The `where` predicate's `apply` and the insert-exception lookup are parameters too.
- AssertionLoading.LoadSingleAssertion: `load_predicate` for the `where` key is the `whereError` parameter. Only its failure is modelled; the loaded predicate is kept as its specification and applied through the audit environment.
- Python dictionaries with repeated keys cannot occur and are not modelled: entries are assumed to have distinct keys, so the number of keys is the number of entries.

## Findings

| source | as written | input that shows it | evidently intended | confidence | as-written member | corrected member |
|---|---|---|---|---|---|---|
| dp/conditional_expression.py:101-170 | `check` of `$and`/`$or`/`$not` tests the truthiness of the object `evaluate()` returns, which is always true: `$and` holds once its children evaluate, `$or` once a first child does, `$not` never (Predicates.CheckAsWrittenConstant) | `{$not: {has-course: X}}` for a student without course X: `check` gives false (Predicates.NotOfMissingCourse) | combine the children's own check results: all, any, negation (Predicates.CheckAllMeansEvery, Predicates.CheckAnyMeansSome; used by Predicates.Evaluate) | not executed | Predicates.CheckAsWritten | Predicates.Check |

=== FILE: action.dfy ===
/**
 * The quota mini-language of the Rust parser crate: a quote-aware
 * tokenizer, the one-or-three-token `Action` parser with its operator,
 * command and value tables, and the `Display` printers that invert them.
 *
 * `Value::Float` parsing and its two-decimal display are the standard
 * library's; they enter the model as the two functions of a `FloatSyntax`.
 */
module ActionLang {

  import opened Wrappers
  import opened Strings

  datatype Operator = LessThan | LessThanEqualTo | EqualTo | GreaterThan | GreaterThanEqualTo | NotEqualTo

  datatype Command = Count | Sum | Average | Minimum | Maximum

  const U64_LIMIT: nat := 0x1_0000_0000_0000_0000

  /** The values a Rust `u64` can hold. */
  type U64 = n: nat | n < U64_LIMIT

  datatype Value = Cmd(command: Command) | Str(text: string) | Integer(n: U64) | Float(f: real)

  datatype Action = Action(lhs: Value, op: Option<Operator>, rhs: Option<Value>)

  datatype ParseError = InvalidAction | UnknownOperator | UnknownCommand

  /** `fmt::Error`, the only failure a `Display` implementation reports. */
  datatype FmtError = FmtError

  /** Rust's `f64` parser and its `{:.2}` formatter, which the model does not reimplement. */
  datatype FloatSyntax = FloatSyntax(parse: string -> Option<real>, show: real -> string)

  // ----- tokenizer ------------------------------------------------------

  /** The loop state of `split_action_str`: quoted mode, the token being built, the tokens so far. */
  datatype ScanState = ScanState(inStr: bool, current: string, collected: seq<string>)

  const Start := ScanState(false, [], [])

  /** One iteration of the character loop. */
  function Step(st: ScanState, ch: char): ScanState
  {
    if ch == '"' then st.(inStr := !st.inStr)
    else if st.inStr then st.(current := st.current + [ch])
    else if IsRustWhitespace(ch) then
      if |st.current| > 0 then ScanState(false, [], st.collected + [RustTrim(st.current)])
      else st
    else st.(current := st.current + [ch])
  }

  function Run(st: ScanState, s: string): ScanState
    decreases |s|
  {
    if |s| == 0 then st else Run(Step(st, s[0]), s[1..])
  }

  /** What the function does after the loop: push the pending token, if any. */
  function Finish(st: ScanState): seq<string>
  {
    if |st.current| > 0 then st.collected + [RustTrim(st.current)] else st.collected
  }

  /** `split_action_str`. */
  function SplitActionStr(s: string): seq<string>
  {
    Finish(Run(Start, s))
  }

  lemma {:induction false} RunAppend(st: ScanState, a: string, b: string)
    ensures Run(st, a + b) == Run(Run(st, a), b)
    decreases |a|
  {
    if |a| > 0 {
      assert (a + b)[1..] == a[1..] + b;
      RunAppend(Step(st, a[0]), a[1..], b);
    } else {
      assert a + b == b;
    }
  }

  predicate TokenClean(t: string)
  {
    '"' !in t && (t == [] || (!IsRustWhitespace(t[0]) && !IsRustWhitespace(t[|t| - 1])))
  }

  lemma TrimmedIsClean(cur: string)
    requires '"' !in cur
    ensures TokenClean(RustTrim(cur))
  {
    var i, j := TrimSlice(cur, IsRustWhitespace);
    var r := RustTrim(cur);
    assert forall k :: 0 <= k < |r| ==> r[k] == cur[i + k];
  }

  ghost predicate ScanInv(st: ScanState)
  {
    '"' !in st.current && forall k :: 0 <= k < |st.collected| ==> TokenClean(st.collected[k])
  }

  lemma {:induction false} RunKeepsScanInv(st: ScanState, s: string)
    requires ScanInv(st)
    ensures ScanInv(Run(st, s))
    decreases |s|
  {
    if |s| > 0 {
      if s[0] != '"' && !st.inStr && IsRustWhitespace(s[0]) && |st.current| > 0 {
        TrimmedIsClean(st.current);
      }
      RunKeepsScanInv(Step(st, s[0]), s[1..]);
    }
  }

  /**
   * A double quote only toggles quoted mode and never reaches a token, and
   * every token is trimmed of whitespace at both ends.
   */
  lemma TokensAreClean(s: string)
    ensures forall k :: 0 <= k < |SplitActionStr(s)| ==> TokenClean(SplitActionStr(s)[k])
  {
    RunKeepsScanInv(Start, s);
    var st := Run(Start, s);
    if |st.current| > 0 {
      TrimmedIsClean(st.current);
    }
  }

  predicate NoWhitespace(t: string)
  {
    forall i :: 0 <= i < |t| ==> !IsRustWhitespace(t[i])
  }

  lemma CleanWordTrim(t: string)
    requires NoWhitespace(t)
    ensures RustTrim(t) == t
  {
    TrimOfCleanWord(t, IsRustWhitespace);
  }

  ghost predicate PlainInv(st: ScanState)
  {
    && !st.inStr
    && NoWhitespace(st.current)
    && forall k :: 0 <= k < |st.collected| ==> |st.collected[k]| > 0 && NoWhitespace(st.collected[k])
  }

  lemma StepKeepsPlainInv(st: ScanState, ch: char)
    requires PlainInv(st) && ch != '"'
    ensures PlainInv(Step(st, ch))
  {
    if IsRustWhitespace(ch) {
      if |st.current| > 0 {
        CleanWordTrim(st.current);
        assert Step(st, ch) == ScanState(false, [], st.collected + [st.current]);
      } else {
        assert Step(st, ch) == st;
      }
    } else {
      assert Step(st, ch) == st.(current := st.current + [ch]);
    }
  }

  lemma {:induction false} RunKeepsPlainInv(st: ScanState, s: string)
    requires PlainInv(st) && '"' !in s
    ensures PlainInv(Run(st, s))
    decreases |s|
  {
    if |s| > 0 {
      assert s[0] in s;
      StepKeepsPlainInv(st, s[0]);
      assert '"' !in s[1..] by {
        forall i | 0 <= i < |s[1..]| ensures s[1..][i] != '"' { assert s[1..][i] == s[i + 1]; }
      }
      RunKeepsPlainInv(Step(st, s[0]), s[1..]);
    }
  }

  /**
   * Without quotes, whitespace only separates: no token is empty and no
   * token contains whitespace.
   */
  lemma UnquotedTokensNonEmpty(s: string)
    requires '"' !in s
    ensures forall k :: 0 <= k < |SplitActionStr(s)| ==>
              |SplitActionStr(s)[k]| > 0 && NoWhitespace(SplitActionStr(s)[k])
  {
    RunKeepsPlainInv(Start, s);
    var st := Run(Start, s);
    if |st.current| > 0 {
      CleanWordTrim(st.current);
    }
  }

  /** Quoted text that is all whitespace is trimmed to nothing, so the tokenizer CAN emit an empty token. */
  lemma QuotedBlankGivesEmptyToken()
    ensures SplitActionStr("\"  \"") == [""]
  {
    var s := "\"  \"";
    var st1 := Step(Start, s[0]);
    assert st1 == ScanState(true, [], []);
    var st2 := Step(st1, s[1]);
    var st3 := Step(st2, s[2]);
    var st4 := Step(st3, s[3]);
    assert st4 == ScanState(false, "  ", []);
    assert Run(Start, s) == Run(st4, s[4..]) by {
      assert s[1..][1..][1..][1..] == s[4..];
    }
    assert RustTrim("  ") == [] by {
      assert IsRustWhitespace(' ');
    }
  }

  lemma {:induction false} RunWhitespaceOnFresh(st: ScanState, ws: string)
    requires !st.inStr && st.current == []
    requires AllSatisfy(ws, IsRustWhitespace)
    ensures Run(st, ws) == st
    decreases |ws|
  {
    if |ws| > 0 {
      RunWhitespaceOnFresh(Step(st, ws[0]), ws[1..]);
    }
  }

  /** Leading whitespace is ignored. */
  lemma LeadingWhitespaceIgnored(ws: string, s: string)
    requires AllSatisfy(ws, IsRustWhitespace)
    ensures SplitActionStr(ws + s) == SplitActionStr(s)
  {
    RunAppend(Start, ws, s);
    RunWhitespaceOnFresh(Start, ws);
  }

  /** A non-empty run of whitespace outside quotes acts like a single blank. */
  lemma {:induction false} RunWhitespaceRun(st: ScanState, ws: string)
    requires !st.inStr && |ws| > 0
    requires AllSatisfy(ws, IsRustWhitespace)
    ensures Run(st, ws) == Run(st, " ")
  {
    var st1 := Step(st, ws[0]);
    assert st1 == Step(st, ' ');
    assert st1.current == [] && !st1.inStr;
    RunWhitespaceOnFresh(st1, ws[1..]);
    assert Run(st, " ") == Run(st1, []);
  }

  /** Repeated whitespace between tokens is ignored. */
  lemma RepeatedWhitespaceIgnored(a: string, ws: string, b: string)
    requires !Run(Start, a).inStr
    requires |ws| > 0 && AllSatisfy(ws, IsRustWhitespace)
    ensures SplitActionStr(a + ws + b) == SplitActionStr(a + " " + b)
  {
    RunAppend(Start, a + ws, b);
    RunAppend(Start, a, ws);
    RunAppend(Start, a + " ", b);
    RunAppend(Start, a, " ");
    RunWhitespaceRun(Run(Start, a), ws);
  }

  /** Trailing whitespace is ignored once every quote is closed. */
  lemma TrailingWhitespaceIgnored(s: string, ws: string)
    requires !Run(Start, s).inStr
    requires AllSatisfy(ws, IsRustWhitespace)
    ensures SplitActionStr(s + ws) == SplitActionStr(s)
  {
    RunAppend(Start, s, ws);
    var st := Run(Start, s);
    if |ws| > 0 {
      RunWhitespaceRun(st, ws);
      var st1 := Step(st, ' ');
      assert Run(st, " ") == Run(st1, []);
    }
  }

  // ----- a layout of tokens, and what the tokenizer makes of it ---------

  /** One token as written: a bare word, or text between double quotes. */
  datatype Atom = Bare(word: string) | Quoted(text: string)

  predicate AtomOk(a: Atom)
  {
    match a
    case Bare(w) => |w| > 0 && '"' !in w && NoneSatisfy(w, IsRustWhitespace)
    case Quoted(q) => |q| > 0 && '"' !in q
  }

  function Render(a: Atom): string
  {
    match a
    case Bare(w) => w
    case Quoted(q) => "\"" + q + "\""
  }

  /** The token the source intends for an atom: quoted text loses only its edge whitespace. */
  function TokenOf(a: Atom): string
  {
    match a
    case Bare(w) => w
    case Quoted(q) => RustTrim(q)
  }

  function Inner(a: Atom): string
  {
    match a
    case Bare(w) => w
    case Quoted(q) => q
  }

  /** Atoms each followed by its gap of whitespace. */
  function Layout(atoms: seq<Atom>, gaps: seq<string>): string
    requires |gaps| == |atoms|
  {
    if atoms == [] then [] else Render(atoms[0]) + gaps[0] + Layout(atoms[1..], gaps[1..])
  }

  function Tokens(atoms: seq<Atom>): (r: seq<string>)
    ensures |r| == |atoms|
    ensures forall k :: 0 <= k < |atoms| ==> r[k] == TokenOf(atoms[k])
  {
    if atoms == [] then [] else [TokenOf(atoms[0])] + Tokens(atoms[1..])
  }

  /** Every gap is whitespace, and all but the last are non-empty. */
  predicate GapsOk(gaps: seq<string>)
  {
    forall k :: 0 <= k < |gaps| ==>
      AllSatisfy(gaps[k], IsRustWhitespace) && (k < |gaps| - 1 ==> |gaps[k]| > 0)
  }

  lemma {:induction false} RunWord(st: ScanState, w: string)
    requires '"' !in w
    requires st.inStr || NoneSatisfy(w, IsRustWhitespace)
    ensures Run(st, w) == st.(current := st.current + w)
    decreases |w|
  {
    if |w| > 0 {
      assert st.current + w == (st.current + [w[0]]) + w[1..];
      RunWord(Step(st, w[0]), w[1..]);
    }
  }

  lemma RunAtom(acc: seq<string>, a: Atom)
    requires AtomOk(a)
    ensures Run(ScanState(false, [], acc), Render(a)) == ScanState(false, Inner(a), acc)
  {
    var st := ScanState(false, [], acc);
    match a
    case Bare(w) =>
      RunWord(st, w);
    case Quoted(q) =>
      var open := ScanState(true, [], acc);
      RunAppend(st, "\"", q + "\"");
      RunAppend(open, q, "\"");
      RunWord(open, q);
      assert "\"" + q + "\"" == "\"" + (q + "\"");
  }

  lemma AtomToken(a: Atom)
    requires AtomOk(a)
    ensures TokenOf(a) == RustTrim(Inner(a))
  {
    if a.Bare? {
      TrimOfCleanWord(a.word, IsRustWhitespace);
    }
  }

  /** An atom followed by a non-empty gap becomes one finished token. */
  lemma AtomThenGap(acc: seq<string>, a: Atom, gap: string)
    requires AtomOk(a)
    requires |gap| > 0 && AllSatisfy(gap, IsRustWhitespace)
    ensures Run(ScanState(false, [], acc), Render(a) + gap) == ScanState(false, [], acc + [TokenOf(a)])
  {
    var mid := ScanState(false, Inner(a), acc);
    RunAppend(ScanState(false, [], acc), Render(a), gap);
    RunAtom(acc, a);
    RunWhitespaceRun(mid, gap);
    AtomToken(a);
    assert Run(mid, " ") == Run(Step(mid, ' '), []);
  }

  /** The last atom, followed by a possibly empty gap, is pushed by the final step. */
  lemma AtomAtEnd(acc: seq<string>, a: Atom, gap: string)
    requires AtomOk(a)
    requires AllSatisfy(gap, IsRustWhitespace)
    ensures Finish(Run(ScanState(false, [], acc), Render(a) + gap)) == acc + [TokenOf(a)]
  {
    if |gap| > 0 {
      AtomThenGap(acc, a, gap);
    } else {
      assert Render(a) + gap == Render(a);
      RunAtom(acc, a);
      AtomToken(a);
    }
  }

  lemma {:induction false} LayoutTokens(acc: seq<string>, atoms: seq<Atom>, gaps: seq<string>)
    requires |gaps| == |atoms|
    requires forall k :: 0 <= k < |atoms| ==> AtomOk(atoms[k])
    requires GapsOk(gaps)
    ensures Finish(Run(ScanState(false, [], acc), Layout(atoms, gaps))) == acc + Tokens(atoms)
    decreases |atoms|
  {
    if |atoms| == 1 {
      assert Layout(atoms, gaps) == Render(atoms[0]) + gaps[0];
      AtomAtEnd(acc, atoms[0], gaps[0]);
    } else if |atoms| > 1 {
      var a := atoms[0];
      var rest := Layout(atoms[1..], gaps[1..]);
      assert Layout(atoms, gaps) == (Render(a) + gaps[0]) + rest;
      RunAppend(ScanState(false, [], acc), Render(a) + gaps[0], rest);
      AtomThenGap(acc, a, gaps[0]);
      assert GapsOk(gaps[1..]) by {
        forall k | 0 <= k < |gaps[1..]|
          ensures AllSatisfy(gaps[1..][k], IsRustWhitespace) && (k < |gaps[1..]| - 1 ==> |gaps[1..][k]| > 0)
        {
          assert gaps[1..][k] == gaps[k + 1];
        }
      }
      LayoutTokens(acc + [TokenOf(a)], atoms[1..], gaps[1..]);
      assert Tokens(atoms) == [TokenOf(a)] + Tokens(atoms[1..]);
    }
  }

  /**
   * The tokenizer recovers the written tokens: bare words verbatim, quoted
   * text verbatim up to whitespace at its edges (inner whitespace runs are
   * kept), with any whitespace before, between and after the tokens ignored.
   */
  lemma SplitLayout(lead: string, atoms: seq<Atom>, gaps: seq<string>)
    requires AllSatisfy(lead, IsRustWhitespace)
    requires |gaps| == |atoms|
    requires forall k :: 0 <= k < |atoms| ==> AtomOk(atoms[k])
    requires GapsOk(gaps)
    ensures SplitActionStr(lead + Layout(atoms, gaps)) == Tokens(atoms)
  {
    LeadingWhitespaceIgnored(lead, Layout(atoms, gaps));
    LayoutTokens([], atoms, gaps);
  }

  // ----- operator, command and value tables -----------------------------

  function ShowOperator(op: Operator): string
  {
    match op
    case LessThan => "<"
    case LessThanEqualTo => "<="
    case EqualTo => "="
    case GreaterThan => ">"
    case GreaterThanEqualTo => ">="
    case NotEqualTo => "!"
  }

  /** `Operator::from_str`: exactly the six spellings, anything else is `UnknownOperator`. */
  function ParseOperator(s: string): (r: Result<Operator, ParseError>)
    ensures r.Ok? <==> s in {"<", "<=", "=", ">", ">=", "!"}
    ensures r.Ok? ==> ShowOperator(r.value) == s
    ensures r.Err? ==> r.error == UnknownOperator
  {
    if s == "<" then Ok(LessThan)
    else if s == "<=" then Ok(LessThanEqualTo)
    else if s == "=" then Ok(EqualTo)
    else if s == ">" then Ok(GreaterThan)
    else if s == ">=" then Ok(GreaterThanEqualTo)
    else if s == "!" then Ok(NotEqualTo)
    else Err(UnknownOperator)
  }

  lemma OperatorRoundTrip(op: Operator)
    ensures ParseOperator(ShowOperator(op)) == Ok(op)
  {
  }

  function ShowCommand(c: Command): string
  {
    match c
    case Count => "count"
    case Sum => "sum"
    case Average => "average"
    case Minimum => "minimum"
    case Maximum => "maximum"
  }

  predicate IsCommandName(s: string)
  {
    s in {"count", "sum", "average", "minimum", "maximum"}
  }

  /** `Command::from_str`, which trims its input first. */
  function ParseCommand(s: string): (r: Result<Command, ParseError>)
    ensures r.Ok? <==> IsCommandName(RustTrim(s))
    ensures r.Ok? ==> ShowCommand(r.value) == RustTrim(s)
    ensures r.Err? ==> r.error == UnknownCommand
  {
    var t := RustTrim(s);
    if t == "count" then Ok(Count)
    else if t == "sum" then Ok(Sum)
    else if t == "average" then Ok(Average)
    else if t == "minimum" then Ok(Minimum)
    else if t == "maximum" then Ok(Maximum)
    else Err(UnknownCommand)
  }

  lemma CommandRoundTrip(c: Command)
    ensures ParseCommand(ShowCommand(c)) == Ok(c)
  {
    TrimOfCleanWord(ShowCommand(c), IsRustWhitespace);
  }

  /** Rust's `u64::from_str`: an optional `+`, at least one ASCII digit, a value below 2^64. */
  function ParseU64(s: string): (r: Option<U64>)
    ensures r.Some? ==> exists d :: (s == d || s == "+" + d) && |d| > 0 && AllDigits(d) && DigitsValue(d) == r.value
    ensures forall d :: (s == d || s == "+" + d) && |d| > 0 && AllDigits(d) && DigitsValue(d) < U64_LIMIT ==>
                          r == Some(DigitsValue(d))
  {
    var d := if |s| > 0 && s[0] == '+' then s[1..] else s;
    forall d' | (s == d' || s == "+" + d') && |d'| > 0 && AllDigits(d')
      ensures d' == d
    {
      if s == "+" + d' {
        assert s[1..] == d';
      } else {
        assert s[0] == d'[0];
        assert s[0] != '+';
      }
    }
    if |d| > 0 && AllDigits(d) && DigitsValue(d) < U64_LIMIT then
      assert s == d || s == "+" + d;
      Some(DigitsValue(d))
    else None
  }

  /** `Value::from_str`: never fails; tries u64, then float, then a command keyword, else keeps the string. */
  function ParseValue(s: string, fs: FloatSyntax): (r: Value)
    ensures r.Integer? <==> ParseU64(s).Some?
    ensures r.Integer? ==> r.n == ParseU64(s).value
    ensures r.Float? <==> ParseU64(s).None? && fs.parse(s).Some?
    ensures r.Float? ==> r.f == fs.parse(s).value
    ensures r.Cmd? ==> ShowCommand(r.command) == RustTrim(s)
    ensures r.Str? ==> r.text == s && !IsCommandName(RustTrim(s))
  {
    match ParseU64(s)
    case Some(n) => Integer(n)
    case None =>
      match fs.parse(s)
      case Some(f) => Float(f)
      case None =>
        match ParseCommand(s)
        case Ok(c) => Cmd(c)
        case Err(_) => Str(s)
  }

  function ShowValue(v: Value, fs: FloatSyntax): string
  {
    match v
    case Cmd(c) => ShowCommand(c)
    case Str(t) => t
    case Integer(n) => NatToString(n)
    case Float(f) => fs.show(f)
  }

  // ----- actions --------------------------------------------------------

  /** `Action::from_str`. */
  function ParseAction(s: string, fs: FloatSyntax): (r: Result<Action, ParseError>)
    ensures var t := SplitActionStr(s);
            && (|t| != 1 && |t| != 3 ==> r == Err(InvalidAction))
            && (|t| == 1 ==> r == Ok(Action(ParseValue(t[0], fs), None, None)))
            && (|t| == 3 ==> (r.Ok? <==> ParseOperator(t[1]).Ok?))
            && (|t| == 3 && r.Ok? ==>
                  r.value == Action(ParseValue(t[0], fs), Some(ParseOperator(t[1]).value), Some(ParseValue(t[2], fs))))
    ensures r.Err? ==> r.error != UnknownCommand
  {
    var t := SplitActionStr(s);
    if |t| == 1 then Ok(Action(ParseValue(t[0], fs), None, None))
    else if |t| == 3 then
      match ParseOperator(t[1])
      case Ok(op) => Ok(Action(ParseValue(t[0], fs), Some(op), Some(ParseValue(t[2], fs))))
      case Err(e) => Err(e)
    else Err(InvalidAction)
  }

  /** `Display for Action`: the lhs alone, or `lhs op rhs`; an operator without a value (or the reverse) is an error. */
  function DisplayAction(a: Action, fs: FloatSyntax): (r: Result<string, FmtError>)
    ensures r.Err? <==> a.op.Some? != a.rhs.Some?
    ensures r.Ok? && a.op.None? ==> r.value == ShowValue(a.lhs, fs)
    ensures r.Ok? && a.op.Some? ==>
              r.value == ShowValue(a.lhs, fs) + " " + ShowOperator(a.op.value) + " " + ShowValue(a.rhs.value, fs)
  {
    match (a.op, a.rhs)
    case (None, None) => Ok(ShowValue(a.lhs, fs))
    case (Some(op), Some(rhs)) => Ok(ShowValue(a.lhs, fs) + " " + ShowOperator(op) + " " + ShowValue(rhs, fs))
    case _ => Err(FmtError)
  }

  /** `Action::should_pluralize`: false exactly for a missing or non-numeric rhs, `Integer(1)` and `Float(1.0)`. */
  function ShouldPluralize(a: Action): (r: bool)
    ensures !r <==> (|| a.rhs.None?
                     || (!a.rhs.value.Integer? && !a.rhs.value.Float?)
                     || a.rhs.value == Integer(1)
                     || a.rhs.value == Float(1.0))
  {
    match a.rhs
    case Some(Integer(n)) => n != 1
    case Some(Float(f)) => f != 1.0
    case _ => false
  }

  // ----- round trips -----------------------------------------------------

  /**
   * A printed count reads back with its plurality: `<command> <op> <n>`
   * parses, and the action it gives is plural exactly when `n` is not one.
   */
  lemma PluralOfPrintedCount(c: Command, op: Operator, n: U64, fs: FloatSyntax)
    requires RejectsCommandNames(fs)
    ensures ParseAction(ShowCommand(c) + " " + ShowOperator(op) + " " + NatToString(n), fs).Ok?
    ensures ShouldPluralize(ParseAction(ShowCommand(c) + " " + ShowOperator(op) + " " + NatToString(n), fs).value) <==> n != 1
  {
    var a := Action(Cmd(c), Some(op), Some(Integer(n)));
    ActionRoundTrip(a, fs);
    assert DisplayAction(a, fs).value == ShowCommand(c) + " " + ShowOperator(op) + " " + NatToString(n);
  }

  /** The float parser is only asked about strings it does not read as a number; command words are not numbers. */
  predicate RejectsCommandNames(fs: FloatSyntax)
  {
    forall c: Command :: fs.parse(ShowCommand(c)).None?
  }

  /** Values whose printed form reads back as the same value. */
  predicate Canonical(v: Value)
  {
    v.Cmd? || v.Integer?
  }

  lemma U64RoundTrip(n: U64)
    ensures ParseU64(NatToString(n)) == Some(n)
  {
    NatToStringRoundTrip(n);
  }

  lemma ValueRoundTrip(v: Value, fs: FloatSyntax)
    requires Canonical(v) && RejectsCommandNames(fs)
    ensures ParseValue(ShowValue(v, fs), fs) == v
  {
    match v
    case Integer(n) => U64RoundTrip(n);
    case Cmd(c) =>
      var s := ShowCommand(c);
      assert !IsDigit(s[0]) && s[0] != '+';
      assert ParseU64(s).None?;
      CommandRoundTrip(c);
  }

  function AtomOfValue(v: Value, fs: FloatSyntax): Atom
  {
    Bare(ShowValue(v, fs))
  }

  /** Lower-case letters and digits are neither whitespace nor quotes. */
  lemma AlnumWordIsAtom(w: string)
    requires |w| > 0
    requires forall i :: 0 <= i < |w| ==> ('a' <= w[i] <= 'z') || IsDigit(w[i])
    ensures AtomOk(Bare(w))
  {
  }

  lemma CanonicalAtomOk(v: Value, fs: FloatSyntax)
    requires Canonical(v)
    ensures AtomOk(AtomOfValue(v, fs))
  {
    var w := ShowValue(v, fs);
    match v
    case Integer(n) =>
      AlnumWordIsAtom(w);
    case Cmd(c) =>
      assert forall i :: 0 <= i < |w| ==> 'a' <= w[i] <= 'z';
      AlnumWordIsAtom(w);
  }

  lemma OperatorAtomOk(op: Operator)
    ensures AtomOk(Bare(ShowOperator(op)))
  {
  }

  /** Three bare words separated by single blanks tokenize to those three words. */
  lemma ThreeWords(x: string, y: string, z: string)
    requires AtomOk(Bare(x)) && AtomOk(Bare(y)) && AtomOk(Bare(z))
    ensures SplitActionStr(x + " " + y + " " + z) == [x, y, z]
  {
    var atoms := [Bare(x), Bare(y), Bare(z)];
    LayoutOfThree(x, y, z);
    SplitLayout([], atoms, [" ", " ", ""]);
    assert Tokens(atoms) == [x, y, z];
  }

  lemma OneWord(x: string)
    requires AtomOk(Bare(x))
    ensures SplitActionStr(x) == [x]
  {
    assert x == [] + Layout([Bare(x)], [""]);
    SplitLayout([], [Bare(x)], [""]);
  }

  /**
   * An action whose sides are commands or integers prints to a string that
   * parses back to the same action. Floats are excluded because their
   * display keeps only two decimals.
   */
  lemma ActionRoundTrip(a: Action, fs: FloatSyntax)
    requires a.op.Some? == a.rhs.Some?
    requires Canonical(a.lhs) && (a.rhs.Some? ==> Canonical(a.rhs.value))
    requires RejectsCommandNames(fs)
    ensures DisplayAction(a, fs).Ok?
    ensures ParseAction(DisplayAction(a, fs).value, fs) == Ok(a)
  {
    var x := ShowValue(a.lhs, fs);
    CanonicalAtomOk(a.lhs, fs);
    ValueRoundTrip(a.lhs, fs);
    if a.op.None? {
      OneWord(x);
    } else {
      var y := ShowOperator(a.op.value);
      var z := ShowValue(a.rhs.value, fs);
      OperatorAtomOk(a.op.value);
      CanonicalAtomOk(a.rhs.value, fs);
      ValueRoundTrip(a.rhs.value, fs);
      OperatorRoundTrip(a.op.value);
      ThreeWords(x, y, z);
    }
  }

  lemma LayoutOfThree(x: string, y: string, z: string)
    ensures x + " " + y + " " + z == [] + Layout([Bare(x), Bare(y), Bare(z)], [" ", " ", ""])
  {
    var atoms := [Bare(x), Bare(y), Bare(z)];
    var gaps := [" ", " ", ""];
    assert Layout(atoms[2..], gaps[2..]) == z;
    assert Layout(atoms[1..], gaps[1..]) == y + " " + z;
  }

  /** `count >= 6` is the count command, at-least, the integer six. */
  lemma CountAtLeastSix(s: string, fs: FloatSyntax)
    requires s == "count >= 6"
    requires RejectsCommandNames(fs)
    ensures ParseAction(s, fs) == Ok(Action(Cmd(Count), Some(GreaterThanEqualTo), Some(Integer(6))))
  {
    CountTokens();
    CountPieces(fs);
  }

  lemma CountPieces(fs: FloatSyntax)
    requires RejectsCommandNames(fs)
    ensures ParseValue("count", fs) == Cmd(Count) && ParseValue("6", fs) == Integer(6)
    ensures ParseOperator(">=") == Ok(GreaterThanEqualTo)
  {
    CountWord(fs);
    SixWord(fs);
    OperatorRoundTrip(GreaterThanEqualTo);
  }

  lemma CountTokens()
    ensures SplitActionStr("count >= 6") == ["count", ">=", "6"]
  {
    assert "count >= 6" == "count" + " " + ">=" + " " + "6";
    assert AtomOk(Bare("count")) && AtomOk(Bare(">=")) && AtomOk(Bare("6"));
    ThreeWords("count", ">=", "6");
  }

  lemma CountWord(fs: FloatSyntax)
    requires RejectsCommandNames(fs)
    ensures ParseValue("count", fs) == Cmd(Count)
  {
    assert ShowCommand(Count) == "count";
    assert fs.parse(ShowCommand(Count)).None?;
    assert !IsDigit('c');
    assert ParseU64("count").None?;
    CommandRoundTrip(Count);
  }

  lemma SixWord(fs: FloatSyntax)
    ensures ParseValue("6", fs) == Integer(6)
  {
    assert IsDigit('6') && DigitValue('6') == 6;
    assert AllDigits("6") && DigitsValue("6") == 6;
  }

  /** A flipped operator such as `=>` is not an operator, so the whole action fails. */
  lemma FlippedOperatorRejected(fs: FloatSyntax)
    ensures ParseAction("a => b", fs) == Err(UnknownOperator)
  {
    FlippedTokens();
    assert ParseOperator("=>") == Err(UnknownOperator);
  }

  lemma FlippedTokens()
    ensures SplitActionStr("a => b") == ["a", "=>", "b"]
  {
    assert "a => b" == "a" + " " + "=>" + " " + "b";
    assert AtomOk(Bare("a")) && AtomOk(Bare("=>")) && AtomOk(Bare("b"));
    ThreeWords("a", "=>", "b");
  }
}

=== FILE: action_shapes.dfy ===
/**
 * The `Action` shapes of the main crate: an `Action` whose left side is
 * always a command, and an `LhsValueAction` whose left side may be any
 * value. Their operator and command types are the ones of `ActionLang`;
 * the crate's own value type is not part of this model, so its display is
 * a parameter.
 */
module ActionShapes {

  import opened Wrappers
  import AL = ActionLang

  datatype Action<V> = Action(lhs: AL.Command, op: Option<AL.Operator>, rhs: Option<V>)

  datatype LhsValueAction<V> = LhsValueAction(lhs: V, op: Option<AL.Operator>, rhs: Option<V>)

  /**
   * Building an `LhsValueAction` from a document: `op` and `rhs` fall back
   * to `None` when their fields are absent.
   */
  function FromFields<V>(lhs: V, op: Option<Option<AL.Operator>>, rhs: Option<Option<V>>): (r: LhsValueAction<V>)
    ensures r.lhs == lhs
    ensures op.None? ==> r.op.None?
    ensures rhs.None? ==> r.rhs.None?
    ensures op.Some? ==> r.op == op.value
    ensures rhs.Some? ==> r.rhs == rhs.value
  {
    LhsValueAction(lhs, if op.Some? then op.value else None, if rhs.Some? then rhs.value else None)
  }

  /** `Display for Action`: the command alone, or `lhs op rhs` with single blanks; mixed presence is `fmt::Error`. */
  function Display<V>(a: Action<V>, show: V -> string): (r: Result<string, AL.FmtError>)
    ensures r.Err? <==> a.op.Some? != a.rhs.Some?
    ensures a.op.None? && a.rhs.None? ==> r == Ok(AL.ShowCommand(a.lhs))
    ensures a.op.Some? && a.rhs.Some? ==>
              r == Ok(AL.ShowCommand(a.lhs) + " " + AL.ShowOperator(a.op.value) + " " + show(a.rhs.value))
  {
    match (a.op, a.rhs)
    case (None, None) => Ok(AL.ShowCommand(a.lhs))
    case (Some(op), Some(rhs)) => Ok(AL.ShowCommand(a.lhs) + " " + AL.ShowOperator(op) + " " + show(rhs))
    case _ => Err(AL.FmtError)
  }

  /** The same action seen by the parser crate, whose left side is a general value. */
  function Widen(a: Action<AL.Value>): (r: AL.Action)
    ensures r.lhs.Cmd? && r.lhs.command == a.lhs
  {
    AL.Action(AL.Cmd(a.lhs), a.op, a.rhs)
  }

  /** Both crates print an action the same way. */
  lemma DisplayAgrees(a: Action<AL.Value>, fs: AL.FloatSyntax)
    ensures Display(a, v => AL.ShowValue(v, fs)) == AL.DisplayAction(Widen(a), fs)
  {
  }

  /**
   * What this crate prints, the parser crate reads back as the same action,
   * when the right side is a command or an integer.
   */
  lemma PrintedActionParses(a: Action<AL.Value>, fs: AL.FloatSyntax)
    requires a.op.Some? == a.rhs.Some?
    requires a.rhs.Some? ==> AL.Canonical(a.rhs.value)
    requires AL.RejectsCommandNames(fs)
    ensures Display(a, v => AL.ShowValue(v, fs)).Ok?
    ensures AL.ParseAction(Display(a, v => AL.ShowValue(v, fs)).value, fs) == Ok(Widen(a))
  {
    DisplayAgrees(a, fs);
    AL.ActionRoundTrip(Widen(a), fs);
  }
}

=== FILE: assertion_loading.dfy ===
/**
 * Loading assertions from an area specification. The constants table, the
 * action tables, the operator names, the predicate loader and the
 * exceptions registered for a path belong to the rest of the auditor and
 * are given here as an environment of functions.
 */
module AssertionLoading {

  import opened Wrappers
  import opened Documents
  import opened Clauses
  import opened Assertions

  datatype LoadEnv = LoadEnv(
    /** `Constants.get_by_name`: the value a named constant stands for. */
    getByName: string -> Data,
    /** Whether a key names an action for the given kind of data. */
    isAction: (DataType, string) -> bool,
    /** `Operator(k)` for the keys `Operator.is_operator` accepts. */
    operatorOf: string -> Option<Operator>,
    /** `ValueChange.load` for one `$changes` entry: its condition and its action text. */
    loadChange: (string, Data) -> Result<ValueChange, PyError>,
    /** The evaluated result of a loaded predicate expression. */
    loadCondition: Data -> Result<Option<bool>, PyError>,
    /** A value exception registered for a path. */
    valueOverride: seq<string> -> Option<real>,
    /** Whether a waive exception is registered for a path. */
    waived: seq<string> -> bool,
    /** The error `load_predicate` raises for a `where` specification of this kind of data, if it raises. */
    whereError: (DataType, Data) -> Option<PyError>)

  /**
   * `load_expected_value`: the expected value must be an integer, or the
   * name of a constant that is one; lists, floats and other collections are
   * rejected. The original written value is returned alongside.
   */
  function LoadExpectedValue(value: seq<Entry>, key: string, getByName: string -> Data): (r: Result<(int, Data), PyError>)
    ensures !HasKey(value, key) ==> r == Err(KeyError)
    ensures HasKey(value, key) ==> var written := Get(value, key).value;
      && (written.List? || written.Float? ==> r == Err(TypeError))
      && (written.Tuple? || written.Dict? ==> r == Err(TypeError))
      && (written.Int? ==> r == Ok((written.i, written)))
      && (written.Str? ==> (getByName(written.s).Int? <==> r.Ok?))
      && (written.Str? && r.Ok? ==> r.value.0 == getByName(written.s).i)
      && (r.Ok? ==> r.value.1 == written && (written.Int? || written.Str?))
      && (written.Null? || written.Bool? || written.Decimal? ==> r == Err(AssertionError))
  {
    match Get(value, key)
    case None => Err(KeyError)
    case Some(written) =>
      if written.List? || written.Float? then Err(TypeError)
      else
        var expected := if written.Str? then getByName(written.s) else written;
        if !written.Str? && (written.Tuple? || written.Dict?) then Err(TypeError)
        else if expected.Int? then Ok((expected.i, written))
        else Err(AssertionError)
  }

  /** The keys of a mapping that name operators, in order. */
  function OperatorKeys(entries: seq<Entry>, operatorOf: string -> Option<Operator>): (r: seq<string>)
    ensures forall k :: k in r <==> HasKey(entries, k) && operatorOf(k).Some?
  {
    if |entries| == 0 then []
    else
      var rest := OperatorKeys(entries[1..], operatorOf);
      assert forall k :: HasKey(entries, k) <==> entries[0].key == k || HasKey(entries[1..], k) by {
        forall k ensures HasKey(entries, k) <==> entries[0].key == k || HasKey(entries[1..], k) {
          if HasKey(entries, k) && entries[0].key != k {
            var i :| 0 <= i < |entries| && entries[i].key == k;
            assert entries[1..][i - 1].key == k;
          }
          if HasKey(entries[1..], k) {
            var i :| 0 <= i < |entries[1..]| && entries[1..][i].key == k;
            assert entries[i + 1].key == k;
          }
        }
      }
      if operatorOf(entries[0].key).Some? then [entries[0].key] + rest else rest
  }

  /** An optional text field: absent or null is `None`, text is kept, anything else is refused. */
  function OptionalText(entries: seq<Entry>, k: string): (r: Result<Option<string>, PyError>)
    ensures r.Err? <==> HasKey(entries, k) && !Get(entries, k).value.Null? && !Get(entries, k).value.Str?
    ensures r.Err? ==> r.error == AssertionError
    ensures r == Ok(None) <==> !HasKey(entries, k) || Get(entries, k).value.Null?
    ensures r.Ok? && r.value.Some? ==> Get(entries, k) == Some(Str(r.value.value))
  {
    match GetOr(entries, k, Null)
    case Null => Ok(None)
    case Str(s) => Ok(Some(s))
    case _ => Err(AssertionError)
  }

  /** Loading every `$changes` entry in order; the first failure stops the load. */
  function LoadChanges(entries: seq<Entry>, loadChange: (string, Data) -> Result<ValueChange, PyError>)
    : (r: Result<seq<ValueChange>, PyError>)
    ensures r.Ok? ==> |r.value| == |entries| &&
                      forall i :: 0 <= i < |entries| ==> loadChange(entries[i].key, entries[i].value) == Ok(r.value[i])
    ensures r.Ok? <==> forall i :: 0 <= i < |entries| ==> loadChange(entries[i].key, entries[i].value).Ok?
    ensures r.Err? ==> exists i :: 0 <= i < |entries| && loadChange(entries[i].key, entries[i].value) == Err(r.error) &&
                                   forall j :: 0 <= j < i ==> loadChange(entries[j].key, entries[j].value).Ok?
  {
    if |entries| == 0 then Ok([])
    else
      match loadChange(entries[0].key, entries[0].value)
      case Err(e) => Err(e)
      case Ok(c) =>
        assert forall j :: 1 <= j < |entries| ==> entries[j] == entries[1..][j - 1];
        match LoadChanges(entries[1..], loadChange)
        case Err(e) =>
          ghost var i :| 0 <= i < |entries[1..]| && loadChange(entries[1..][i].key, entries[1..][i].value) == Err(e) &&
                         forall j :: 0 <= j < i ==> loadChange(entries[1..][j].key, entries[1..][j].value).Ok?;
          assert entries[i + 1] == entries[1..][i];
          Err(e)
        case Ok(cs) => Ok([c] + cs)
  }

  /** `original` is dropped when the expected value equals it. */
  function KeepOriginal(expected: real, original: Data): (r: Data)
    ensures r == Null <==> original == Null || (original.Int? && original.i as real == expected)
    ensures r != Null ==> r == original
  {
    if original.Int? && original.i as real == expected then Null else original
  }

  /**
   * The body of an assertion: the mapping under its action key. It must
   * hold exactly one operator key; `in` and `not in` are always forbidden,
   * the retired `$ifs` is refused, and the expected value is the loaded one
   * plus the applied changes unless a value exception replaces it.
   */
  function LoadAssertionBody(value: seq<Entry>, key: string, path: seq<string>, dataType: DataType, forbid: set<Operator>,
                             where: Option<Data>, message: Option<string>, caption: Option<string>, env: LoadEnv)
    : (r: Result<Assertion, PyError>)
    ensures |OperatorKeys(value, env.operatorOf)| != 1 ==> r == Err(AssertionError)
    ensures HasKey(value, "$ifs") ==> r.Err?
    ensures !GetOr(value, "$changes", Dict([])).Dict? && r.Err? ==> r.error in {AssertionError, AttributeError}
    ensures r.Ok? ==> var a := r.value;
      && a.path == path && a.key == key && a.dataType == dataType && a.where == where
      && a.state == Empty && !a.evaluated && a.resolved.None? && a.insertedClbids == []
      && a.message == message && a.caption == caption
      && GetOr(value, "at_most", Bool(false)) == Bool(a.atMost)
      && a.treatInProgressAsPass == GetOr(value, "treat_in_progress_as_pass", Bool(false))
      && GetOr(value, "$changes", Dict([])).Dict?
      && LoadChanges(GetOr(value, "$changes", Dict([])).entries, env.loadChange) == Ok(a.changes)
      && a.operator !in forbid && a.operator !in {In, NotIn}
      && |OperatorKeys(value, env.operatorOf)| == 1
      && Some(a.operator) == env.operatorOf(OperatorKeys(value, env.operatorOf)[0])
      && a.overridden == env.waived(path)
      && (a.original.Int? ==> a.original.i as real != a.expected)
      && (env.valueOverride(path).Some? ==> a.expected == env.valueOverride(path).value)
      && LoadExpectedValue(value, OperatorKeys(value, env.operatorOf)[0], env.getByName).Ok?
      && (env.valueOverride(path).None? ==>
            a.expected == LoadExpectedValue(value, OperatorKeys(value, env.operatorOf)[0], env.getByName).value.0 as real +
                          ChangeDiff(a.changes))
      && a.original == KeepOriginal(a.expected, LoadExpectedValue(value, OperatorKeys(value, env.operatorOf)[0], env.getByName).value.1)
    ensures var ops := OperatorKeys(value, env.operatorOf);
            r.Ok? <==>
              && |ops| == 1
              && (forall o :: o in forbid + {In, NotIn} ==> env.operatorOf(ops[0]) != Some(o))
              && !HasKey(value, "$ifs")
              && GetOr(value, "$changes", Dict([])).Dict?
              && LoadChanges(GetOr(value, "$changes", Dict([])).entries, env.loadChange).Ok?
              && LoadExpectedValue(value, ops[0], env.getByName).Ok?
              && GetOr(value, "at_most", Bool(false)).Bool?
  {
    var ops := OperatorKeys(value, env.operatorOf);
    if |ops| != 1 then Err(AssertionError)
    else
      assert ops[0] in ops;
      var operator := env.operatorOf(ops[0]).value;
      if operator in forbid + {In, NotIn} then Err(AssertionError)
      else if HasKey(value, "$ifs") then Err(AssertionError)
      else
        match GetOr(value, "$changes", Dict([]))
        case Dict(changeEntries) =>
          (match LoadChanges(changeEntries, env.loadChange)
           case Err(e) => Err(e)
           case Ok(changes) =>
             match LoadExpectedValue(value, ops[0], env.getByName)
             case Err(e) => Err(e)
             case Ok((loaded, original)) =>
               var expected :=
                 if env.valueOverride(path).Some? then env.valueOverride(path).value
                 else loaded as real + ChangeDiff(changes);
               match GetOr(value, "at_most", Bool(false))
               case Bool(atMost) =>
                 Ok(Assertion(path, Empty, dataType, where, key, operator, expected, KeepOriginal(expected, original),
                              changes, atMost, message, caption,
                              GetOr(value, "treat_in_progress_as_pass", Bool(false)),
                              false, env.waived(path), None, []))
               case _ => Err(AssertionError))
        case _ => Err(AttributeError)
  }

  /**
   * `load_single_assertion`: an optional `where` predicate, loaded first,
   * optional text `message` and `label`, and an `assert` mapping with one
   * action key, naming an action for this kind of data and holding the
   * assertion's body.
   */
  function LoadSingleAssertion(data: Data, path: seq<string>, dataType: DataType, forbid: set<Operator>, env: LoadEnv)
    : (r: Result<Assertion, PyError>)
    ensures !data.Dict? ==> r == Err(AttributeError)
    ensures data.Dict? && !HasKey(data.entries, "assert") ==> r.Err?
    ensures data.Dict? && WhereSpec(data.entries).Some? && env.whereError(dataType, WhereSpec(data.entries).value).Some? ==>
              r == Err(env.whereError(dataType, WhereSpec(data.entries).value).value)
    ensures r.Ok? ==> data.Dict? && HasKey(data.entries, "assert")
    ensures r.Ok? ==> var body := Get(data.entries, "assert").value;
      && body.Dict? && |body.entries| == 1 && body.entries[0].value.Dict?
      && env.isAction(dataType, body.entries[0].key)
      && (WhereSpec(data.entries).Some? ==> env.whereError(dataType, WhereSpec(data.entries).value).None?)
      && OptionalText(data.entries, "message").Ok? && OptionalText(data.entries, "label").Ok?
      && r == LoadAssertionBody(body.entries[0].value.entries, body.entries[0].key, path + [".assert"], dataType, forbid,
                                WhereSpec(data.entries),
                                OptionalText(data.entries, "message").value, OptionalText(data.entries, "label").value, env)
    ensures data.Dict? && !(WhereSpec(data.entries).Some? && env.whereError(dataType, WhereSpec(data.entries).value).Some?) ==>
              && (OptionalText(data.entries, "message").Err? || OptionalText(data.entries, "label").Err? ==> r == Err(AssertionError))
              && (OptionalText(data.entries, "message").Ok? && OptionalText(data.entries, "label").Ok? ==>
                    && (!HasKey(data.entries, "assert") ==> r == Err(KeyError))
                    && (HasKey(data.entries, "assert") ==> var body := Get(data.entries, "assert").value;
                          && (!body.Dict? ==> r == Err(AttributeError))
                          && var single := body.Dict? && |body.entries| == 1 && env.isAction(dataType, body.entries[0].key) &&
                                           body.entries[0].value.Dict?;
                          && (body.Dict? && !single ==> r == Err(AssertionError))
                          && (body.Dict? && single ==>
                                r == LoadAssertionBody(body.entries[0].value.entries, body.entries[0].key, path + [".assert"],
                                                       dataType, forbid, WhereSpec(data.entries),
                                                       OptionalText(data.entries, "message").value,
                                                       OptionalText(data.entries, "label").value, env))))
  {
    if !data.Dict? then Err(AttributeError)
    else if WhereSpec(data.entries).Some? && env.whereError(dataType, WhereSpec(data.entries).value).Some? then
      Err(env.whereError(dataType, WhereSpec(data.entries).value).value)
    else
      match OptionalText(data.entries, "message")
      case Err(e) => Err(e)
      case Ok(message) =>
      match OptionalText(data.entries, "label")
      case Err(e) => Err(e)
      case Ok(caption) =>
      match Get(data.entries, "assert")
      case None => Err(KeyError)
      case Some(body) =>
      if !body.Dict? then Err(AttributeError)
      else if |body.entries| != 1 then Err(AssertionError)
      else if !env.isAction(dataType, body.entries[0].key) then Err(AssertionError)
      else if !body.entries[0].value.Dict? then Err(AssertionError)
      else LoadAssertionBody(body.entries[0].value.entries, body.entries[0].key, path + [".assert"], dataType, forbid,
                             WhereSpec(data.entries), message, caption, env)
  }

  /** The `where` key of an assertion: absent or null means there is none. */
  function WhereSpec(entries: seq<Entry>): (r: Option<Data>)
    ensures r.None? <==> GetOr(entries, "where", Null) == Null
    ensures r.Some? ==> Get(entries, "where") == Some(r.value)
  {
    if GetOr(entries, "where", Null) == Null then None else Some(GetOr(entries, "where", Null))
  }

  /** A loaded assertion: a plain one or a conditional one. */
  datatype SomeAssertion = Plain(assertion: Assertion) | Conditional(conditional: ConditionalAssertion)

  /** `ConditionalAssertion.load`: both branches load under their own path; a null or absent `$else` gives no false branch. */
  function LoadConditional(data: seq<Entry>, path: seq<string>, dataType: DataType, forbid: set<Operator>, env: LoadEnv)
    : (r: Result<ConditionalAssertion, PyError>)
    ensures !HasKey(data, "$if") ==> r == Err(KeyError)
    ensures r.Ok? ==> r.value.path == path
    ensures r.Ok? ==> HasKey(data, "$then") && LoadSingleAssertion(Get(data, "$then").value, path + ["/t"], dataType, forbid, env) == Ok(r.value.whenTrue)
    ensures r.Ok? ==> (r.value.whenFalse.None? <==> GetOr(data, "$else", Null) == Null)
    ensures r.Ok? && r.value.whenFalse.Some? ==>
              HasKey(data, "$else") && LoadSingleAssertion(Get(data, "$else").value, path + ["/f"], dataType, forbid, env) == Ok(r.value.whenFalse.value)
    ensures HasKey(data, "$if") && env.loadCondition(Get(data, "$if").value).Err? ==> r == Err(env.loadCondition(Get(data, "$if").value).error)
    ensures HasKey(data, "$if") && env.loadCondition(Get(data, "$if").value).Ok? ==>
              && (!HasKey(data, "$then") ==> r == Err(KeyError))
              && (HasKey(data, "$then") && LoadSingleAssertion(Get(data, "$then").value, path + ["/t"], dataType, forbid, env).Err? ==>
                    r == Err(LoadSingleAssertion(Get(data, "$then").value, path + ["/t"], dataType, forbid, env).error))
    ensures r.Ok? <==>
              && HasKey(data, "$if") && env.loadCondition(Get(data, "$if").value).Ok?
              && HasKey(data, "$then") && LoadSingleAssertion(Get(data, "$then").value, path + ["/t"], dataType, forbid, env).Ok?
              && (GetOr(data, "$else", Null) == Null ||
                  LoadSingleAssertion(GetOr(data, "$else", Null), path + ["/f"], dataType, forbid, env).Ok?)
    ensures r.Ok? ==> r.value.condition == env.loadCondition(Get(data, "$if").value).value
  {
    match Get(data, "$if")
    case None => Err(KeyError)
    case Some(cond) =>
      match env.loadCondition(cond)
      case Err(e) => Err(e)
      case Ok(condition) =>
        match Get(data, "$then")
        case None => Err(KeyError)
        case Some(thenData) =>
          match LoadSingleAssertion(thenData, path + ["/t"], dataType, forbid, env)
          case Err(e) => Err(e)
          case Ok(whenTrue) =>
            var elseData := GetOr(data, "$else", Null);
            if elseData == Null then Ok(ConditionalAssertion(path, condition, whenTrue, None))
            else
              match LoadSingleAssertion(elseData, path + ["/f"], dataType, forbid, env)
              case Err(e) => Err(e)
              case Ok(whenFalse) => Ok(ConditionalAssertion(path, condition, whenTrue, Some(whenFalse)))
  }

  /** `Assertion.load`: a mapping with `$if` is a conditional assertion, any other mapping a plain one. */
  function LoadAssertion(data: Data, path: seq<string>, dataType: DataType, forbid: set<Operator>, env: LoadEnv)
    : (r: Result<SomeAssertion, PyError>)
    ensures !data.Dict? ==> r == Err(Exception)
    ensures data.Dict? && HasKey(data.entries, "$if") ==> r.Ok? ==> r.value.Conditional?
    ensures data.Dict? && !HasKey(data.entries, "$if") ==> r.Ok? ==> r.value.Plain?
    ensures r.Ok? ==> match r.value
                      case Plain(a) => a.operator !in forbid + {In, NotIn}
                      case Conditional(c) => c.whenTrue.operator !in forbid + {In, NotIn}
    ensures data.Dict? && HasKey(data.entries, "$if") ==>
              var c := LoadConditional(data.entries, path, dataType, forbid, env);
              (r.Ok? <==> c.Ok?) && (r.Ok? ==> r.value == Conditional(c.value)) && (r.Err? ==> r.error == c.error)
    ensures data.Dict? && !HasKey(data.entries, "$if") ==>
              var a := LoadSingleAssertion(data, path, dataType, forbid, env);
              (r.Ok? <==> a.Ok?) && (r.Ok? ==> r.value == Plain(a.value)) && (r.Err? ==> r.error == a.error)
  {
    if !data.Dict? then Err(Exception)
    else if HasKey(data.entries, "$if") then
      match LoadConditional(data.entries, path, dataType, forbid, env)
      case Ok(c) => Ok(Conditional(c))
      case Err(e) => Err(e)
    else
      match LoadSingleAssertion(data, path, dataType, forbid, env)
      case Ok(a) => Ok(Plain(a))
      case Err(e) => Err(e)
  }

  /**
   * A freshly loaded assertion has not been resolved, so asking for its rank
   * is an assertion failure; a waived one is returned unchanged by its audit.
   */
  lemma LoadedAssertionBeforeAudit<T>(data: Data, path: seq<string>, dataType: DataType, forbid: set<Operator>, env: LoadEnv,
                                         items: seq<T>, auditEnv: AuditEnv<T>)
    requires LoadSingleAssertion(data, path, dataType, forbid, env).Ok?
    ensures Rank(LoadSingleAssertion(data, path, dataType, forbid, env).value) == Err(AssertionError)
    ensures env.waived(path + [".assert"]) ==>
              AuditAssertion(LoadSingleAssertion(data, path, dataType, forbid, env).value, items, auditEnv) ==
              LoadSingleAssertion(data, path, dataType, forbid, env)
  {
  }

  /**
   * A plain written assertion `{assert: {<action>: {<op>: n}}}`, with an
   * integer expected value, no changes and no exceptions, loads to an
   * assertion that carries back exactly what was written: the action, the
   * operator, the expected value n, no changes, not `at_most`, and no
   * predicate, message or label.
   */
  lemma WrittenAssertionLoads(action: string, value: seq<Entry>, k: string, op: Operator, n: int,
                              path: seq<string>, dataType: DataType, forbid: set<Operator>, env: LoadEnv)
    requires env.isAction(dataType, action)
    requires OperatorKeys(value, env.operatorOf) == [k] && env.operatorOf(k) == Some(op) && op !in forbid + {In, NotIn}
    requires Get(value, k) == Some(Int(n))
    requires !HasKey(value, "$ifs") && !HasKey(value, "$changes") && !HasKey(value, "at_most")
    requires env.valueOverride(path + [".assert"]).None?
    ensures var r := LoadSingleAssertion(Dict([Entry("assert", Dict([Entry(action, Dict(value))]))]), path, dataType, forbid, env);
            && r.Ok?
            && r.value.key == action && r.value.path == path + [".assert"] && r.value.operator == op
            && r.value.expected == n as real && r.value.original == Null
            && r.value.changes == [] && !r.value.atMost
            && r.value.where.None? && r.value.message.None? && r.value.caption.None?
  {
    var entries := [Entry("assert", Dict([Entry(action, Dict(value))]))];
    assert Get(entries, "assert") == Some(Dict([Entry(action, Dict(value))]));
    assert !HasKey(entries, "where") && !HasKey(entries, "message") && !HasKey(entries, "label");
    assert LoadChanges([], env.loadChange) == Ok([]);
    assert ChangeDiff([]) == 0.0;
    forall o | o in forbid + {In, NotIn} ensures env.operatorOf(k) != Some(o) {
    }
  }
}

=== FILE: assertions.dfy ===
/**
 * Assertions: a comparison of a computed quantity against an expected
 * value, how an assertion is classified once its value is computed, how it
 * ranks, which input sizes the solver should try for it, and the
 * conditional assertion that picks one of two assertions. The quantity
 * itself is computed by the clause library and compared by `apply_operator`;
 * both results are inputs here.
 */
module Assertions {

  import opened Wrappers
  import opened Documents
  import opened Clauses

  /** What kind of items an assertion counts. */
  datatype DataType = Course | Area | MusicPerformance | Recital | OtherType(name: string)

  datatype ChangeMode = Add | Subtract

  /** A conditional change of the expected value; `condition` is the loaded predicate's result. */
  datatype ValueChange = ValueChange(mode: ChangeMode, condition: Option<bool>, amount: real)

  datatype Assertion = Assertion(
    path: seq<string>,
    state: ResultStatus,
    dataType: DataType,
    /** The `where` predicate's specification, when there is one; `apply` decides which items it keeps. */
    where: Option<Data>,
    key: string,
    operator: Operator,
    expected: real,
    original: Data,
    changes: seq<ValueChange>,
    atMost: bool,
    message: Option<string>,
    caption: Option<string>,
    treatInProgressAsPass: Data,
    evaluated: bool,
    overridden: bool,
    resolved: Option<real>,
    insertedClbids: seq<string>)

  // ----- rank -----

  function Min(a: real, b: real): real { if a <= b then a else b }

  /** Dividing by a positive number keeps the comparison with it. */
  lemma RatioAgainstOne(x: real, e: real)
    requires e != 0.0
    ensures e > 0.0 ==> (x / e >= 1.0 <==> x >= e)
    ensures e > 0.0 ==> (x / e > 0.0 <==> x > 0.0)
    ensures e > 0.0 ==> (x / e < 1.0 <==> x < e)
  {
    if e < 0.0 { return; }
    var q := x / e;
    assert q * e == x;
    if q >= 1.0 {
      assert q * e >= 1.0 * e;
    } else {
      assert q * e < 1.0 * e;
    }
    if q > 0.0 {
      assert q * e > 0.0;
    } else {
      assert q * e <= 0.0 * e;
    }
  }

  /**
   * `rank`: a satisfied or waived assertion ranks (1, 1); otherwise the
   * assertion must have been resolved, an upper-bound assertion ranks 0, and
   * any other ranks by how far its value has come toward a nonzero expected
   * value, capped at 1. The maximum is always 1.
   */
  function Rank(a: Assertion): (r: Result<(real, real), PyError>)
    ensures r.Err? <==> a.state !in {Done, Waived} && a.resolved.None?
    ensures r.Err? ==> r.error == AssertionError
    ensures r.Ok? ==> r.value.1 == 1.0 && r.value.0 <= 1.0
    ensures a.state in {Done, Waived} ==> r == Ok((1.0, 1.0))
    ensures r.Ok? && a.state !in {Done, Waived} && a.operator in {LessThan, LessThanOrEqualTo} ==> r.value.0 == 0.0
    ensures r.Ok? && a.state !in {Done, Waived} && a.expected == 0.0 ==> r.value.0 == 0.0
    ensures r.Ok? && a.state !in {Done, Waived} && a.expected > 0.0 && a.resolved.value >= 0.0 ==> 0.0 <= r.value.0
    ensures r.Ok? && a.state !in {Done, Waived} && a.operator !in {LessThan, LessThanOrEqualTo} && a.expected > 0.0 ==>
              (r.value.0 == 1.0 <==> a.resolved.value >= a.expected)
    ensures r.Ok? && a.state !in {Done, Waived} && a.operator !in {LessThan, LessThanOrEqualTo} && a.expected != 0.0 ==>
              (r.value.0 == 1.0 && a.resolved.value / a.expected >= 1.0) ||
              (r.value.0 < 1.0 && r.value.0 * a.expected == a.resolved.value)
  {
    if a.state in {Done, Waived} then Ok((1.0, 1.0))
    else if a.resolved.None? then Err(AssertionError)
    else if a.operator in {LessThan, LessThanOrEqualTo} then Ok((0.0, 1.0))
    else if a.expected != 0.0 then
      RatioAgainstOne(a.resolved.value, a.expected);
      assert (a.resolved.value / a.expected) * a.expected == a.resolved.value;
      Ok((Min(1.0, a.resolved.value / a.expected), 1.0))
    else Ok((0.0, 1.0))
  }

  /** `max_expected` of a plain assertion. */
  function MaxExpected(a: Assertion): real { a.expected }

  // ----- classification -----

  /** The operator failed, but some items were found and more would help. */
  predicate NeedsMore(op: Operator, value: real, expected: real)
  {
    (op == GreaterThan && 0.0 < value <= expected) ||
    (op in {GreaterThanOrEqualTo, EqualTo} && 0.0 < value < expected)
  }

  /**
   * The status of an area or item assertion, given its computed value and
   * whether the operator held: `evaluate_with_areas` and
   * `evaluate_with_items` are the same case analysis.
   */
  function Classify(op: Operator, value: real, expected: real, holds: bool): (r: ResultStatus)
    ensures r == Done <==> holds
    ensures r == NeedsMoreItems <==> !holds && NeedsMore(op, value, expected)
    ensures r == FailedInvariant <==> !holds && op in {LessThan, LessThanOrEqualTo}
    ensures r == Empty <==> !holds && !NeedsMore(op, value, expected) && op !in {LessThan, LessThanOrEqualTo}
  {
    if holds then Done
    else if op == GreaterThan && 0.0 < value <= expected then NeedsMoreItems
    else if op == GreaterThanOrEqualTo && 0.0 < value < expected then NeedsMoreItems
    else if op == EqualTo && 0.0 < value < expected then NeedsMoreItems
    else if op in {LessThan, LessThanOrEqualTo} then FailedInvariant
    else Empty
  }

  /** The comparison `apply_operator` performs on numbers. */
  predicate Compare(value: real, op: Operator, expected: real)
  {
    match op
    case LessThan => value < expected
    case LessThanOrEqualTo => value <= expected
    case GreaterThan => value > expected
    case GreaterThanOrEqualTo => value >= expected
    case EqualTo => value == expected
    case NotEqualTo => value != expected
    case In => false
    case NotIn => false
  }

  /**
   * With numeric comparison, an at-least assertion is done at or above its
   * target, needs more items strictly between zero and the target, and is
   * empty with nothing found; an upper bound that is not met fails its
   * invariant.
   */
  lemma ClassifyAtLeast(value: real, expected: real)
    ensures Classify(GreaterThanOrEqualTo, value, expected, Compare(value, GreaterThanOrEqualTo, expected)) ==
            if value >= expected then Done else if value > 0.0 then NeedsMoreItems else Empty
    ensures Classify(LessThanOrEqualTo, value, expected, Compare(value, LessThanOrEqualTo, expected)) ==
            if value <= expected then Done else FailedInvariant
  {
  }

  /**
   * A classified assertion's rank: done ranks 1, an unmet upper bound 0, and
   * one that needs more items ranks strictly between, except for `>` with
   * exactly the expected value, which already ranks 1.
   */
  lemma ClassifiedRank(a: Assertion, value: real, holds: bool)
    requires a.state == Classify(a.operator, value, a.expected, holds) && a.resolved == Some(value)
    ensures Rank(a).Ok?
    ensures holds ==> Rank(a).value == (1.0, 1.0)
    ensures a.state == FailedInvariant ==> Rank(a).value == (0.0, 1.0)
    ensures a.state == NeedsMoreItems && !(a.operator == GreaterThan && value == a.expected) ==>
              0.0 < Rank(a).value.0 < 1.0
    ensures a.state == NeedsMoreItems && a.operator == GreaterThan && value == a.expected ==> Rank(a).value == (1.0, 1.0)
  {
    if a.state == NeedsMoreItems {
      assert 0.0 < value <= a.expected;
      RatioAgainstOne(value, a.expected);
    }
  }

  /** The in-progress facts of a course the assertion's value was computed from. */
  datatype CourseFlags = CourseFlags(inProgress: bool, thisTerm: bool, future: bool, incomplete: bool)

  predicate AnyInProgress(cs: seq<CourseFlags>) { exists i :: 0 <= i < |cs| && cs[i].inProgress }
  predicate AnyThisTerm(cs: seq<CourseFlags>) { exists i :: 0 <= i < |cs| && cs[i].thisTerm }
  predicate AnyFuture(cs: seq<CourseFlags>) { exists i :: 0 <= i < |cs| && cs[i].future }
  predicate AnyIncomplete(cs: seq<CourseFlags>) { exists i :: 0 <= i < |cs| && cs[i].incomplete }

  /**
   * `evaluate_with_courses`: a satisfied assertion is done when in-progress
   * courses count as passing, or when it still holds without them
   * (`holdsWithoutIp`); otherwise it is pending on the current term, or on a
   * future registration when any matched course is one. An in-progress
   * course that is neither is an assertion failure. An unsatisfied
   * assertion is classified as for areas.
   */
  function EvaluateWithCourses(a: Assertion, value: real, matched: seq<CourseFlags>, holds: bool, holdsWithoutIp: bool)
    : (r: Result<ResultStatus, PyError>)
    ensures !holds ==> r == Ok(Classify(a.operator, value, a.expected, false))
    ensures holds && (Truthy(a.treatInProgressAsPass) || !AnyInProgress(matched) || holdsWithoutIp) ==> r == Ok(Done)
    ensures r.Err? <==> holds && !Truthy(a.treatInProgressAsPass) && AnyInProgress(matched) && !holdsWithoutIp &&
                        !AnyThisTerm(matched) && !AnyFuture(matched) && !AnyIncomplete(matched)
    ensures r.Err? ==> r.error == AssertionError
    ensures r == Ok(PendingCurrent) <==>
              holds && !Truthy(a.treatInProgressAsPass) && AnyInProgress(matched) && !holdsWithoutIp &&
              (AnyThisTerm(matched) || AnyIncomplete(matched)) && !AnyFuture(matched)
    ensures r == Ok(PendingRegistered) <==>
              holds && !Truthy(a.treatInProgressAsPass) && AnyInProgress(matched) && !holdsWithoutIp && AnyFuture(matched)
  {
    if holds then
      var hasIp := AnyInProgress(matched);
      var holdsNoIp := if hasIp then holdsWithoutIp else true;
      if Truthy(a.treatInProgressAsPass) || holdsNoIp then Ok(Done)
      else
        var enrolled := AnyThisTerm(matched);
        var registered := AnyFuture(matched);
        var incomplete := AnyIncomplete(matched);
        if !(enrolled || registered || incomplete) then Err(AssertionError)
        // the source's final `unreachable` branch cannot be taken once the assertion above holds
        else if (enrolled || incomplete) && !registered then Ok(PendingCurrent)
        else Ok(PendingRegistered)
    else Ok(Classify(a.operator, value, a.expected, false))
  }

  /** Treating in-progress courses as passing never leaves a satisfied assertion pending. */
  lemma InProgressAsPassNeverPending(a: Assertion, value: real, matched: seq<CourseFlags>, holdsWithoutIp: bool)
    requires Truthy(a.treatInProgressAsPass)
    ensures EvaluateWithCourses(a, value, matched, true, holdsWithoutIp) == Ok(Done)
  {
  }

  /** A pending status always comes from a satisfied assertion over some in-progress course. */
  lemma PendingNeedsInProgress(a: Assertion, value: real, matched: seq<CourseFlags>, holds: bool, holdsWithoutIp: bool)
    requires EvaluateWithCourses(a, value, matched, holds, holdsWithoutIp) in {Ok(PendingCurrent), Ok(PendingRegistered)}
    ensures holds && AnyInProgress(matched) && !holdsWithoutIp
  {
  }

  // ----- change arithmetic -----

  /** The total of the applied changes of one mode: those whose condition is true. */
  function SumOf(changes: seq<ValueChange>, mode: ChangeMode): real
  {
    if |changes| == 0 then 0.0
    else (if changes[0].mode == mode && changes[0].condition == Some(true) then changes[0].amount else 0.0) +
         SumOf(changes[1..], mode)
  }

  /** `compute_change_diff`'s loop: the running difference after the remaining changes. */
  function ChangeDiffFrom(changes: seq<ValueChange>, diff: real): real
  {
    if |changes| == 0 then diff
    else
      var c := changes[0];
      var next := if c.condition != Some(true) then diff
                  else if c.mode == Add then diff + c.amount
                  else diff - c.amount;
      ChangeDiffFrom(changes[1..], next)
  }

  /** `compute_change_diff`: the difference the changes make to an expected value. */
  function ChangeDiff(changes: seq<ValueChange>): real
  {
    ChangeDiffFrom(changes, 0.0)
  }

  lemma {:induction false} ChangeDiffFromSums(changes: seq<ValueChange>, diff: real)
    ensures ChangeDiffFrom(changes, diff) == diff + SumOf(changes, Add) - SumOf(changes, Subtract)
  {
    if |changes| > 0 {
      var c := changes[0];
      var next := if c.condition != Some(true) then diff
                  else if c.mode == Add then diff + c.amount
                  else diff - c.amount;
      ChangeDiffFromSums(changes[1..], next);
    }
  }

  /** The difference is everything added minus everything subtracted, over the changes whose condition holds. */
  lemma ChangeDiffIsSums(changes: seq<ValueChange>)
    ensures ChangeDiff(changes) == SumOf(changes, Add) - SumOf(changes, Subtract)
  {
    ChangeDiffFromSums(changes, 0.0);
  }

  /** A change whose condition is false or unevaluated makes no difference, wherever it sits. */
  lemma {:induction false} InactiveChangeIgnored(before: seq<ValueChange>, c: ValueChange, after: seq<ValueChange>, mode: ChangeMode)
    requires c.condition != Some(true)
    ensures SumOf(before + [c] + after, mode) == SumOf(before + after, mode)
  {
    if |before| == 0 {
      assert before + [c] + after == [c] + after;
      assert ([c] + after)[1..] == after;
      assert before + after == after;
    } else {
      InactiveChangeIgnored(before[1..], c, after, mode);
      assert (before + [c] + after)[1..] == before[1..] + [c] + after;
      assert (before + after)[1..] == before[1..] + after;
    }
  }

  // ----- input sizes -----

  /** Python's `range(lo, hi)`. */
  function Range(lo: int, hi: int): (r: seq<int>)
    ensures |r| == if hi <= lo then 0 else hi - lo
    ensures forall i :: 0 <= i < |r| ==> r[i] == lo + i
    ensures forall x :: x in r <==> lo <= x < hi
    decreases hi - lo
  {
    if hi <= lo then [] else [lo] + Range(lo + 1, hi)
  }

  function MaxInt(a: int, b: int): int { if a >= b then a else b }

  predicate IsInteger(x: real) { x == x.Floor as real }

  /**
   * `input_size_range`: the numbers of items worth trying for an assertion
   * when at most `maximum` are available. Sizes come out in increasing order;
   * an exact count (or an at-least with `at_most`) tries just the target, an
   * unreachable lower bound tries `maximum` alone, `!=` tries everything up
   * to `maximum` but the target, and upper bounds try everything from zero
   * up to them, whatever `maximum` is.
   */
  function InputSizeRange(a: Assertion, maximum: int): (r: Result<seq<int>, PyError>)
    ensures r.Err? <==> !IsInteger(a.expected) || a.operator in {In, NotIn}
    ensures r.Err? ==> r.error == TypeError
    ensures r.Ok? ==> var e := a.expected.Floor; forall x ::
      (x in r.value <==>
        match a.operator
        case EqualTo => (if maximum < e then x == maximum else x == e)
        case GreaterThanOrEqualTo =>
          if a.atMost then (if maximum < e then x == maximum else x == e)
          else if maximum < e then x == maximum else e <= x <= MaxInt(e, maximum)
        case GreaterThan => if maximum < e then x == maximum else e < x <= MaxInt(e + 1, maximum)
        case NotEqualTo => (0 <= x < e) || (e < x <= MaxInt(e, maximum))
        case LessThan => 0 <= x < e
        case LessThanOrEqualTo => 0 <= x <= e
        case _ => false)
    ensures r.Ok? ==> forall i, j :: 0 <= i < j < |r.value| ==> r.value[i] < r.value[j]
  {
    var e := a.expected.Floor;
    if !IsInteger(a.expected) then Err(TypeError)
    else
      match a.operator
      case EqualTo => ExactSize(e, maximum)
      case GreaterThanOrEqualTo =>
        if a.atMost then ExactSize(e, maximum)
        else if maximum < e then Ok([maximum])
        else Ok(Range(e, MaxInt(e + 1, maximum + 1)))
      case NotEqualTo =>
        var r := Range(0, e) + Range(e + 1, MaxInt(e + 1, maximum + 1));
        assert forall x :: x in r <==> x in Range(0, e) || x in Range(e + 1, MaxInt(e + 1, maximum + 1));
        Ok(r)
      case GreaterThan =>
        if maximum < e then Ok([maximum]) else Ok(Range(e + 1, MaxInt(e + 2, maximum + 1)))
      case LessThan => Ok(Range(0, e))
      case LessThanOrEqualTo => Ok(Range(0, e + 1))
      case _ => Err(TypeError)
  }

  /** The sizes tried for an exact target: the target, or `maximum` when the target is out of reach. */
  function ExactSize(e: int, maximum: int): (r: Result<seq<int>, PyError>)
    ensures r.Ok? && |r.value| == 1
    ensures r.value[0] == if maximum < e then maximum else e
  {
    if maximum < e then Ok([maximum]) else Ok(Range(e, e + 1))
  }

  /**
   * For `>` with exactly `expected` items available, the one size tried is
   * `expected + 1`, more items than there are.
   */
  lemma GreaterThanAtMaximum(a: Assertion, maximum: int)
    requires a.operator == GreaterThan && IsInteger(a.expected) && maximum == a.expected.Floor
    ensures InputSizeRange(a, maximum) == Ok([maximum + 1])
  {
    var e := a.expected.Floor;
    assert MaxInt(e + 2, maximum + 1) == e + 2;
    var r := Range(e + 1, e + 2);
    assert |r| == 1 && r[0] == maximum + 1;
    assert r == [maximum + 1];
  }

  /** With `>=`, no size tried exceeds what is available. */
  lemma AtLeastWithinMaximum(a: Assertion, maximum: int)
    requires a.operator == GreaterThanOrEqualTo && IsInteger(a.expected)
    ensures InputSizeRange(a, maximum).Ok?
    ensures forall i :: 0 <= i < |InputSizeRange(a, maximum).value| ==> InputSizeRange(a, maximum).value[i] <= maximum
  {
    var r := InputSizeRange(a, maximum).value;
    forall i | 0 <= i < |r| ensures r[i] <= maximum {
      assert r[i] in r;
    }
  }

  // ----- conditional assertions -----

  /** An assertion that applies `whenTrue` or `whenFalse` depending on its loaded condition. */
  datatype ConditionalAssertion = ConditionalAssertion(
    path: seq<string>,
    condition: Option<bool>,
    whenTrue: Assertion,
    whenFalse: Option<Assertion>)

  /** The branch in force: the true branch on a true condition, the false branch on a false one, if there is one. */
  function Branch(c: ConditionalAssertion): (r: Option<Assertion>)
    ensures c.condition == Some(true) ==> r == Some(c.whenTrue)
    ensures c.condition == Some(false) ==> r == c.whenFalse
    ensures c.condition.None? ==> r.None?
  {
    if c.condition == Some(true) then Some(c.whenTrue)
    else if c.condition == Some(false) && c.whenFalse.Some? then c.whenFalse
    else None
  }

  /** `ConditionalAssertion.status`: the branch's status, or `Empty` without one. */
  function ConditionalStatus(c: ConditionalAssertion): (r: ResultStatus)
    ensures Branch(c).Some? ==> r == Branch(c).value.state
    ensures Branch(c).None? ==> r == Empty
  {
    if c.condition == Some(true) then c.whenTrue.state
    else if c.condition == Some(false) && c.whenFalse.Some? then c.whenFalse.value.state
    else Empty
  }

  /** `ConditionalAssertion.rank`: the branch's rank, or (0, 1) without one. */
  function ConditionalRank(c: ConditionalAssertion): (r: Result<(real, real), PyError>)
    ensures Branch(c).Some? ==> r == Rank(Branch(c).value)
    ensures Branch(c).None? ==> r == Ok((0.0, 1.0))
    ensures r.Ok? ==> r.value.0 <= r.value.1 == 1.0
  {
    if c.condition == Some(true) then Rank(c.whenTrue)
    else if c.condition == Some(false) && c.whenFalse.Some? then Rank(c.whenFalse.value)
    else Ok((0.0, 1.0))
  }

  /** `ConditionalAssertion.max_expected`: the larger of the two branches' expected values. */
  function ConditionalMaxExpected(c: ConditionalAssertion): (r: real)
    ensures r >= c.whenTrue.expected
    ensures c.whenFalse.Some? ==> r >= c.whenFalse.value.expected
    ensures r == c.whenTrue.expected || (c.whenFalse.Some? && r == c.whenFalse.value.expected)
  {
    if c.whenFalse.Some? then
      (if c.whenTrue.expected >= c.whenFalse.value.expected then c.whenTrue.expected else c.whenFalse.value.expected)
    else c.whenTrue.expected
  }

  /** `ConditionalAssertion.input_size_range`: the branch's sizes, the true branch's when there is no branch in force. */
  function ConditionalInputSizeRange(c: ConditionalAssertion, maximum: int): (r: Result<seq<int>, PyError>)
    ensures Branch(c).Some? ==> r == InputSizeRange(Branch(c).value, maximum)
    ensures Branch(c).None? ==> r == InputSizeRange(c.whenTrue, maximum)
  {
    if c.condition == Some(true) then InputSizeRange(c.whenTrue, maximum)
    else if c.condition == Some(false) && c.whenFalse.Some? then InputSizeRange(c.whenFalse.value, maximum)
    else InputSizeRange(c.whenTrue, maximum)
  }

  // ----- auditing -----

  /**
   * What `apply_clause_to_assertion_with_*` computes for an assertion over
   * some items: the quantity, the in-progress facts of the matched courses,
   * whether `apply_operator` holds for the quantity, and whether it still
   * holds over the items that are not in progress.
   */
  datatype Applied = Applied(value: real, matched: seq<CourseFlags>, holds: bool, holdsWithoutIp: bool)

  /** `Assertion.evaluate`: courses, areas and the other item kinds each have their evaluation; any other kind raises. */
  function EvaluateAssertion(a: Assertion, applied: Applied): (r: Result<ResultStatus, PyError>)
    ensures a.dataType.OtherType? ==> r == Err(TypeError)
    ensures a.dataType in {Area, MusicPerformance, Recital} ==>
              r == Ok(Classify(a.operator, applied.value, a.expected, applied.holds))
    ensures a.dataType == Course ==>
              r == EvaluateWithCourses(a, applied.value, applied.matched, applied.holds, applied.holdsWithoutIp)
  {
    match a.dataType
    case Course => EvaluateWithCourses(a, applied.value, applied.matched, applied.holds, applied.holdsWithoutIp)
    case Area => Ok(Classify(a.operator, applied.value, a.expected, applied.holds))
    case MusicPerformance => Ok(Classify(a.operator, applied.value, a.expected, applied.holds))
    case Recital => Ok(Classify(a.operator, applied.value, a.expected, applied.holds))
    case OtherType(_) => Err(TypeError)
  }

  /** Without in-progress courses, a course assertion is classified exactly as an area assertion is. */
  lemma CoursesWithoutInProgress(a: Assertion, applied: Applied)
    requires a.dataType == Course && !AnyInProgress(applied.matched)
    ensures EvaluateAssertion(a, applied) == Ok(Classify(a.operator, applied.value, a.expected, applied.holds))
  {
  }

  /** The collaborators of an audit, over items of type `T`. */
  datatype AuditEnv<!T> = AuditEnv(
    /** Whether a `where` predicate keeps an item. */
    applyWhere: (Data, T) -> bool,
    /** The clbids of the insert exceptions registered for a path. */
    insertsFor: seq<string> -> seq<string>,
    /** `ctx.forced_course_by_clbid`. */
    forcedCourse: string -> Result<T, PyError>,
    clbidOf: T -> string,
    /** The clause library's computation over the items. */
    apply: (Assertion, seq<T>) -> Applied)

  /** The items a `where` predicate keeps, in their order; without a predicate, all of them. */
  function FilterWhere<T(==)>(data: seq<T>, where: Option<Data>, applyWhere: (Data, T) -> bool): (r: seq<T>)
    ensures where.None? ==> r == data
    ensures where.Some? ==> forall i :: 0 <= i < |r| ==> r[i] in data && applyWhere(where.value, r[i])
    ensures where.Some? ==> forall j :: 0 <= j < |data| && applyWhere(where.value, data[j]) ==> data[j] in r
    ensures |r| <= |data|
  {
    if where.None? || |data| == 0 then data
    else
      var rest := FilterWhere(data[1..], where, applyWhere);
      assert forall j :: 1 <= j < |data| ==> data[j] == data[1..][j - 1];
      if applyWhere(where.value, data[0]) then [data[0]] + rest else rest
  }

  /**
   * Filtering keeps order and multiplicity: the filter of a concatenation is
   * the concatenation of the filters, and one item is kept exactly when the
   * predicate accepts it.
   */
  lemma {:induction false} FilterWhereAppend<T>(a: seq<T>, b: seq<T>, where: Option<Data>, applyWhere: (Data, T) -> bool)
    ensures FilterWhere(a + b, where, applyWhere) == FilterWhere(a, where, applyWhere) + FilterWhere(b, where, applyWhere)
    ensures forall x :: FilterWhere([x], where, applyWhere) == if where.None? || applyWhere(where.value, x) then [x] else []
    decreases |a|
  {
    forall x ensures FilterWhere([x], where, applyWhere) == if where.None? || applyWhere(where.value, x) then [x] else [] {
      assert [x][1..] == [];
    }
    if where.Some? && |a| > 0 {
      assert (a + b)[0] == a[0];
      assert (a + b)[1..] == a[1..] + b;
      FilterWhereAppend(a[1..], b, where, applyWhere);
    } else if where.Some? {
      assert a + b == b;
    }
  }

  /** Each inserted clbid looked up in order; the first lookup that raises stops the audit. */
  function InsertedItems<T(==)>(clbids: seq<string>, forcedCourse: string -> Result<T, PyError>): (r: Result<seq<T>, PyError>)
    ensures r.Ok? <==> forall i :: 0 <= i < |clbids| ==> forcedCourse(clbids[i]).Ok?
    ensures r.Ok? ==> |r.value| == |clbids| && forall i :: 0 <= i < |clbids| ==> forcedCourse(clbids[i]) == Ok(r.value[i])
    ensures r.Err? ==> exists i :: 0 <= i < |clbids| && forcedCourse(clbids[i]) == Err(r.error) &&
                                   forall j :: 0 <= j < i ==> forcedCourse(clbids[j]).Ok?
  {
    if |clbids| == 0 then Ok([])
    else
      match forcedCourse(clbids[0])
      case Err(e) => Err(e)
      case Ok(x) =>
        assert forall j :: 1 <= j < |clbids| ==> clbids[j] == clbids[1..][j - 1];
        match InsertedItems(clbids[1..], forcedCourse)
        case Err(e) => Err(e)
        case Ok(xs) => Ok([x] + xs)
  }

  /**
   * `Assertion.audit_and_resolve`: an overridden assertion is returned as it
   * is. Any other is evaluated over the items its `where` keeps followed by
   * the inserted courses, and comes back evaluated, with the status and the
   * quantity found and the clbids that were inserted.
   */
  function AuditAssertion<T(==)>(a: Assertion, data: seq<T>, env: AuditEnv<T>): (r: Result<Assertion, PyError>)
    ensures a.overridden ==> r == Ok(a)
    ensures !a.overridden && InsertedItems(env.insertsFor(a.path), env.forcedCourse).Err? ==>
              r == Err(InsertedItems(env.insertsFor(a.path), env.forcedCourse).error)
    ensures !a.overridden && InsertedItems(env.insertsFor(a.path), env.forcedCourse).Ok? ==>
              var inserted := InsertedItems(env.insertsFor(a.path), env.forcedCourse).value;
              var applied := env.apply(a, FilterWhere(data, a.where, env.applyWhere) + inserted);
              (r.Err? <==> EvaluateAssertion(a, applied).Err?) &&
              (r.Err? ==> r.error == EvaluateAssertion(a, applied).error) &&
              (r.Ok? ==> r.value == a.(evaluated := true, state := EvaluateAssertion(a, applied).value,
                                       resolved := Some(applied.value),
                                       insertedClbids := seq(|inserted|, i requires 0 <= i < |inserted| => env.clbidOf(inserted[i]))))
    ensures r.Ok? ==> r.value == a.(evaluated := r.value.evaluated, state := r.value.state, resolved := r.value.resolved,
                                    insertedClbids := r.value.insertedClbids)
    ensures r.Ok? && !a.overridden ==>
              r.value.evaluated && r.value.resolved.Some? && |r.value.insertedClbids| == |env.insertsFor(a.path)| &&
              forall i :: 0 <= i < |env.insertsFor(a.path)| ==>
                env.forcedCourse(env.insertsFor(a.path)[i]).Ok? &&
                r.value.insertedClbids[i] == env.clbidOf(env.forcedCourse(env.insertsFor(a.path)[i]).value)
    ensures !a.overridden && a.dataType.OtherType? ==> r.Err?
    ensures r.Err? ==>
              && !a.overridden
              && ((exists i :: 0 <= i < |env.insertsFor(a.path)| && env.forcedCourse(env.insertsFor(a.path)[i]) == Err(r.error))
                  || (a.dataType.OtherType? && r.error == TypeError)
                  || (a.dataType == Course && r.error == AssertionError))
  {
    if a.overridden then Ok(a)
    else
      match InsertedItems(env.insertsFor(a.path), env.forcedCourse)
      case Err(e) => Err(e)
      case Ok(inserted) =>
        var applied := env.apply(a, FilterWhere(data, a.where, env.applyWhere) + inserted);
        match EvaluateAssertion(a, applied)
        case Err(e) => Err(e)
        case Ok(status) =>
          Ok(a.(evaluated := true, state := status, resolved := Some(applied.value),
                insertedClbids := seq(|inserted|, i requires 0 <= i < |inserted| => env.clbidOf(inserted[i]))))
  }

  /**
   * An assertion that was audited rather than overridden can be ranked, and
   * its status is one the evaluation assigns: never waived or awaiting
   * approval, nor left merely pending.
   */
  lemma AuditedAssertionRanks<T>(a: Assertion, data: seq<T>, env: AuditEnv<T>)
    requires !a.overridden && AuditAssertion(a, data, env).Ok?
    ensures AuditAssertion(a, data, env).value.evaluated
    ensures Rank(AuditAssertion(a, data, env).value).Ok?
    ensures AuditAssertion(a, data, env).value.state !in {Waived, Pending, PendingApproval}
  {
    var inserted := InsertedItems(env.insertsFor(a.path), env.forcedCourse).value;
    var applied := env.apply(a, FilterWhere(data, a.where, env.applyWhere) + inserted);
    var status := EvaluateAssertion(a, applied).value;
    assert status == Classify(a.operator, applied.value, a.expected, applied.holds) ||
           status in {PendingCurrent, PendingRegistered, Done};
  }

  /**
   * `ConditionalAssertion.audit_and_resolve`: only the branch in force is
   * audited, a false condition without a false branch leaves the assertion
   * as it is, and an unevaluated condition raises.
   */
  function ConditionalAudit<T(==)>(c: ConditionalAssertion, data: seq<T>, env: AuditEnv<T>)
    : (r: Result<ConditionalAssertion, PyError>)
    ensures r.Err? <==> c.condition.None? || (Branch(c).Some? && AuditAssertion(Branch(c).value, data, env).Err?)
    ensures c.condition.None? ==> r == Err(Exception)
    ensures r.Ok? ==> r.value.condition == c.condition && r.value.path == c.path
    ensures r.Ok? && c.condition == Some(true) ==>
              r.value.whenTrue == AuditAssertion(c.whenTrue, data, env).value && r.value.whenFalse == c.whenFalse
    ensures r.Ok? && c.condition == Some(false) ==> r.value.whenTrue == c.whenTrue
    ensures r.Ok? && c.condition == Some(false) && c.whenFalse.Some? ==>
              r.value.whenFalse == Some(AuditAssertion(c.whenFalse.value, data, env).value)
    ensures r.Ok? && c.condition == Some(false) && c.whenFalse.None? ==> r.value == c
  {
    match c.condition
    case Some(true) =>
      (match AuditAssertion(c.whenTrue, data, env)
       case Ok(t) => Ok(c.(whenTrue := t))
       case Err(e) => Err(e))
    case Some(false) =>
      if c.whenFalse.Some? then
        match AuditAssertion(c.whenFalse.value, data, env)
        case Ok(f) => Ok(c.(whenFalse := Some(f)))
        case Err(e) => Err(e)
      else Ok(c)
    case None => Err(Exception)
  }

  /** After an audit, the conditional assertion reports the status of the branch that was audited. */
  lemma {:induction false} AuditedConditionalStatus<T>(c: ConditionalAssertion, data: seq<T>, env: AuditEnv<T>)
    requires ConditionalAudit(c, data, env).Ok?
    ensures Branch(c).Some? ==>
              ConditionalStatus(ConditionalAudit(c, data, env).value) == AuditAssertion(Branch(c).value, data, env).value.state
    ensures Branch(c).None? ==> ConditionalStatus(ConditionalAudit(c, data, env).value) == Empty
  {
    var r := ConditionalAudit(c, data, env).value;
    assert Branch(r).Some? == Branch(c).Some?;
  }
}

=== FILE: claims.dfy ===
/**
 * The requirement context's claim bookkeeping: which course has been
 * counted by which rule, and whether a further rule may count it again.
 * The claims map is threaded through every attempt as state in and state
 * out. Whether one clause is a subset of another is decided by the clause
 * library, which is a parameter here.
 */
module Claims {

  import opened Wrappers
  import opened Documents
  import opened Clauses

  /** The parts of a transcript entry the context looks at. */
  datatype CourseInstance = CourseInstance(crsid: string, clbid: string, course: string, shorthand: string)

  /** A record that the rule at `claimantPath` counted the course `clbid` under `value`. */
  datatype Claim = Claim(crsid: string, clbid: string, claimantPath: seq<string>, value: Clause)

  type ClaimMap = map<string, set<Claim>>

  datatype ClaimAttempt = ClaimAttempt(claim: Claim, conflictWith: set<Claim>, failed: bool)

  /**
   * What a claim is made under: a clause, a course rule (which carries its
   * own `allow_claimed` flag), or one of the two values that are refused.
   */
  datatype Claimant =
    | ClauseArg(clause: Clause)
    | CourseRuleArg(course: string, allowClaimed: bool)
    | NoneArg
    | TupleArg

  /** The requirement context, without the areas and exceptions it also carries. */
  datatype Context = Context(
    transcript: seq<CourseInstance>,
    courseLookup: map<string, CourseInstance>,
    clbidLookup: map<string, CourseInstance>,
    multicountable: seq<seq<Clause>>,
    claims: ClaimMap)

  // ----- the claims map -----

  /** The claims recorded for a clbid; a missing key reads as no claims. */
  function Prior(m: ClaimMap, clbid: string): set<Claim>
  {
    if clbid in m then m[clbid] else {}
  }

  /** The map with `claim` added under `clbid`. */
  function Record(m: ClaimMap, clbid: string, claim: Claim): (r: ClaimMap)
    ensures Prior(r, clbid) == Prior(m, clbid) + {claim}
    ensures forall k :: k != clbid ==> Prior(r, k) == Prior(m, k)
  {
    m[clbid := Prior(m, clbid) + {claim}]
  }

  function ClauseValues(claims: set<Claim>): (r: set<Clause>)
    ensures forall c :: c in claims ==> c.value in r
    ensures forall v :: v in r ==> exists c :: c in claims && c.value == v
  {
    set c | c in claims :: c.value
  }

  // ----- multicountable clause sets -----

  /** Some member of `cs` is a subset of `clause`. */
  predicate Touches(cs: seq<Clause>, clause: Clause, isSubset: (Clause, Clause) -> bool)
  {
    exists i :: 0 <= i < |cs| && isSubset(cs[i], clause)
  }

  /** Every clause of `clauses` is touched by `cs`. */
  predicate CoversAll(cs: seq<Clause>, clauses: set<Clause>, isSubset: (Clause, Clause) -> bool)
  {
    forall p :: p in clauses ==> Touches(cs, p, isSubset)
  }

  /** The multicountable sets that apply to `clause`, in declaration order. */
  function Applicable(sets: seq<seq<Clause>>, clause: Clause, isSubset: (Clause, Clause) -> bool): (r: seq<seq<Clause>>)
    ensures forall s :: s in r ==> s in sets && Touches(s, clause, isSubset)
    ensures forall s :: s in sets && Touches(s, clause, isSubset) ==> s in r
  {
    if |sets| == 0 then []
    else if Touches(sets[0], clause, isSubset) then [sets[0]] + Applicable(sets[1..], clause, isSubset)
    else Applicable(sets[1..], clause, isSubset)
  }

  /** The first set, in declaration order, that covers all of `clauses`. */
  function FirstCovering(sets: seq<seq<Clause>>, clauses: set<Clause>, isSubset: (Clause, Clause) -> bool): (r: Option<seq<Clause>>)
    ensures r.None? <==> forall i :: 0 <= i < |sets| ==> !CoversAll(sets[i], clauses, isSubset)
    ensures r.Some? ==> exists i :: 0 <= i < |sets| && sets[i] == r.value && CoversAll(sets[i], clauses, isSubset) &&
                                    forall j :: 0 <= j < i ==> !CoversAll(sets[j], clauses, isSubset)
  {
    if |sets| == 0 then None
    else if CoversAll(sets[0], clauses, isSubset) then Some(sets[0])
    else
      var r := FirstCovering(sets[1..], clauses, isSubset);
      assert forall i :: 1 <= i < |sets| ==> sets[i] == sets[1..][i - 1];
      r
  }

  /** No clause of `used` has `c` as a subset. */
  predicate Fresh(c: Clause, used: set<Clause>, isSubset: (Clause, Clause) -> bool)
  {
    forall p :: p in used ==> !isSubset(c, p)
  }

  /** Some member of `cs` is fresh with respect to `used`. */
  predicate HasFresh(cs: seq<Clause>, used: set<Clause>, isSubset: (Clause, Clause) -> bool)
  {
    exists i :: 0 <= i < |cs| && Fresh(cs[i], used, isSubset)
  }

  /** The members of a set that no prior clause has already used. */
  function Unused(cs: seq<Clause>, used: set<Clause>, isSubset: (Clause, Clause) -> bool): (r: seq<Clause>)
    ensures forall c :: c in r ==> c in cs && Fresh(c, used, isSubset)
    ensures forall c :: c in cs && Fresh(c, used, isSubset) ==> c in r
  {
    if |cs| == 0 then []
    else if exists p :: p in used && isSubset(cs[0], p) then Unused(cs[1..], used, isSubset)
    else [cs[0]] + Unused(cs[1..], used, isSubset)
  }

  /**
   * Filtering out the sets that do not apply to the new clause does not
   * change which set is chosen: a set that covers the new clause applies.
   */
  lemma {:induction false} ApplicableKeepsFirstCovering(sets: seq<seq<Clause>>, clause: Clause, clauses: set<Clause>,
                                                        isSubset: (Clause, Clause) -> bool)
    requires clause in clauses
    ensures FirstCovering(Applicable(sets, clause, isSubset), clauses, isSubset) == FirstCovering(sets, clauses, isSubset)
  {
    if |sets| > 0 {
      ApplicableKeepsFirstCovering(sets[1..], clause, clauses, isSubset);
      if Touches(sets[0], clause, isSubset) {
        var a := Applicable(sets, clause, isSubset);
        assert a == [sets[0]] + Applicable(sets[1..], clause, isSubset);
        assert a[1..] == Applicable(sets[1..], clause, isSubset);
      } else {
        assert !CoversAll(sets[0], clauses, isSubset);
      }
    }
  }

  // ----- make_claim -----

  /** The attempt bypasses the bookkeeping: by argument, or by the course rule's own flag. */
  predicate Bypass(claimant: Claimant, allowClaimed: bool)
  {
    allowClaimed || (claimant.CourseRuleArg? && claimant.allowClaimed)
  }

  /** The clause a claim is recorded under; a course rule becomes `course == <its course>`. */
  function ClauseOf(claimant: Claimant): (r: Clause)
    requires claimant.ClauseArg? || claimant.CourseRuleArg?
    ensures claimant.ClauseArg? ==> r == claimant.clause
    ensures claimant.CourseRuleArg? ==> r.SingleClause? && r.key == "course" && r.operator == EqualTo &&
                                        r.expected == Str(claimant.course)
  {
    if claimant.ClauseArg? then claimant.clause else EqualsClause("course", claimant.course)
  }

  /**
   * Whether a further claim under `clause` is allowed given the prior claims:
   * always when there are none; otherwise only when the first multicountable
   * set covering every prior clause and the new one still has a member no
   * prior clause has used.
   */
  predicate Admits(prior: set<Claim>, clause: Clause, sets: seq<seq<Clause>>, isSubset: (Clause, Clause) -> bool)
  {
    prior == {} ||
    var used := ClauseValues(prior);
    match FirstCovering(sets, used + {clause}, isSubset)
    case None => false
    case Some(s) => HasFresh(s, used, isSubset)
  }

  /**
   * The search `make_claim` runs once there are prior claims: the applicable
   * sets, the first of them covering every prior clause and the new one, and
   * whether that set has a member left unused.
   */
  function CoveringSearch(prior: set<Claim>, clause: Clause, multicountable: seq<seq<Clause>>,
                          isSubset: (Clause, Clause) -> bool): (allowed: bool)
    requires prior != {}
    ensures allowed <==> Admits(prior, clause, multicountable, isSubset)
  {
    var used := ClauseValues(prior);
    var applicable := Applicable(multicountable, clause, isSubset);
    ApplicableKeepsFirstCovering(multicountable, clause, used + {clause}, isSubset);
    if |applicable| == 0 then
      false
    else
      match FirstCovering(applicable, used + {clause}, isSubset)
      case None => false
      case Some(chosen) =>
        var available := Unused(chosen, used, isSubset);
        if |available| == 0 then
          assert !HasFresh(chosen, used, isSubset) by {
            forall i | 0 <= i < |chosen| ensures !Fresh(chosen[i], used, isSubset) {
              assert chosen[i] in chosen;
            }
          }
          false
        else
          assert available[0] in chosen;
          true
  }

  /** `make_claim`: the attempt, and the claims map after it. */
  function MakeClaim(claims: ClaimMap, multicountable: seq<seq<Clause>>, isSubset: (Clause, Clause) -> bool,
                     course: CourseInstance, path: seq<string>, claimant: Claimant, allowClaimed: bool)
    : (r: Result<(ClaimAttempt, ClaimMap), PyError>)
    ensures r.Err? <==> claimant.NoneArg? || claimant.TupleArg?
    ensures r.Err? ==> r.error == TypeError
    ensures r.Ok? ==> r.value.0.claim == Claim(course.crsid, course.clbid, path, ClauseOf(claimant))
    ensures r.Ok? && Bypass(claimant, allowClaimed) ==>
              !r.value.0.failed && r.value.0.conflictWith == {} && r.value.1 == claims
    ensures r.Ok? && !Bypass(claimant, allowClaimed) ==>
              (r.value.0.failed <==> !Admits(Prior(claims, course.clbid), ClauseOf(claimant), multicountable, isSubset))
    ensures r.Ok? && r.value.0.failed ==>
              r.value.1 == claims && r.value.0.conflictWith == Prior(claims, course.clbid) != {}
    ensures r.Ok? && !r.value.0.failed && !Bypass(claimant, allowClaimed) ==>
              r.value.0.conflictWith == {} && r.value.1 == Record(claims, course.clbid, r.value.0.claim)
  {
    if claimant.NoneArg? || claimant.TupleArg? then Err(TypeError)
    else
      var clause := ClauseOf(claimant);
      var claim := Claim(course.crsid, course.clbid, path, clause);
      var succeed := ClaimAttempt(claim, {}, false);
      if Bypass(claimant, allowClaimed) then Ok((succeed, claims))
      else
        var prior := Prior(claims, course.clbid);
        if prior == {} then Ok((succeed, Record(claims, course.clbid, claim)))
        else if CoveringSearch(prior, clause, multicountable, isSubset) then
          Ok((succeed, Record(claims, course.clbid, claim)))
        else
          Ok((ClaimAttempt(claim, prior, true), claims))
  }

  // ----- what a run of attempts keeps -----

  /** Every claim is filed under its own clbid. */
  predicate WellKeyed(m: ClaimMap)
  {
    forall k :: k in m ==> forall c :: c in m[k] ==> c.clbid == k
  }

  /** No recorded claim was dropped. */
  ghost predicate Grows(m: ClaimMap, m': ClaimMap)
  {
    forall k :: Prior(m, k) <= Prior(m', k)
  }

  /** Each course is claimed at most once. */
  ghost predicate AtMostOnce(m: ClaimMap)
  {
    forall k :: |Prior(m, k)| <= 1
  }

  /** An attempt keeps every claim filed under its clbid, keeps all earlier claims, and adds at most its own. */
  lemma MakeClaimKeepsBooks(claims: ClaimMap, multicountable: seq<seq<Clause>>, isSubset: (Clause, Clause) -> bool,
                            course: CourseInstance, path: seq<string>, claimant: Claimant, allowClaimed: bool)
    requires WellKeyed(claims)
    requires MakeClaim(claims, multicountable, isSubset, course, path, claimant, allowClaimed).Ok?
    ensures var (a, m') := MakeClaim(claims, multicountable, isSubset, course, path, claimant, allowClaimed).value;
            WellKeyed(m') && Grows(claims, m') && forall k :: Prior(m', k) <= Prior(claims, k) + {a.claim}
  {
  }

  /** Without multicountable sets, a course is never counted twice. */
  lemma NoMulticountableClaimsOnce(claims: ClaimMap, isSubset: (Clause, Clause) -> bool,
                                   course: CourseInstance, path: seq<string>, claimant: Claimant, allowClaimed: bool)
    requires AtMostOnce(claims)
    requires MakeClaim(claims, [], isSubset, course, path, claimant, allowClaimed).Ok?
    ensures AtMostOnce(MakeClaim(claims, [], isSubset, course, path, claimant, allowClaimed).value.1)
  {
    var r := MakeClaim(claims, [], isSubset, course, path, claimant, allowClaimed);
    if !r.value.0.failed && !Bypass(claimant, allowClaimed) {
      forall k ensures |Prior(r.value.1, k)| <= 1 {
        if k == course.clbid {
          assert Prior(r.value.1, k) == {r.value.0.claim};
        }
      }
    }
  }

  /** One call of `make_claim` in a sequence of calls. */
  datatype Request = Request(course: CourseInstance, path: seq<string>, claimant: Claimant, allowClaimed: bool)

  /** Issuing the requests in order, threading the claims map; the first refused claimant stops the run. */
  function RunClaims(claims: ClaimMap, multicountable: seq<seq<Clause>>, isSubset: (Clause, Clause) -> bool,
                     requests: seq<Request>): (r: Result<(seq<ClaimAttempt>, ClaimMap), PyError>)
    ensures r.Ok? ==> |r.value.0| == |requests|
    ensures r.Err? ==> r.error == TypeError
    decreases |requests|
  {
    if |requests| == 0 then Ok(([], claims))
    else
      var q := requests[0];
      match MakeClaim(claims, multicountable, isSubset, q.course, q.path, q.claimant, q.allowClaimed)
      case Err(e) => Err(e)
      case Ok((a, m)) =>
        match RunClaims(m, multicountable, isSubset, requests[1..])
        case Err(e) => Err(e)
        case Ok((rest, m')) => Ok(([a] + rest, m'))
  }

  /** Over any run, claims stay filed under their clbid and are never withdrawn. */
  lemma {:induction false} RunKeepsBooks(claims: ClaimMap, multicountable: seq<seq<Clause>>, isSubset: (Clause, Clause) -> bool,
                                         requests: seq<Request>)
    requires WellKeyed(claims)
    requires RunClaims(claims, multicountable, isSubset, requests).Ok?
    ensures WellKeyed(RunClaims(claims, multicountable, isSubset, requests).value.1)
    ensures Grows(claims, RunClaims(claims, multicountable, isSubset, requests).value.1)
    decreases |requests|
  {
    if |requests| > 0 {
      var q := requests[0];
      var step := MakeClaim(claims, multicountable, isSubset, q.course, q.path, q.claimant, q.allowClaimed);
      MakeClaimKeepsBooks(claims, multicountable, isSubset, q.course, q.path, q.claimant, q.allowClaimed);
      RunKeepsBooks(step.value.1, multicountable, isSubset, requests[1..]);
    }
  }

  /** A run in which every attempt fails ends with the map it started from. */
  lemma {:induction false} FailedAttemptsLeaveMapAlone(claims: ClaimMap, multicountable: seq<seq<Clause>>,
                                                       isSubset: (Clause, Clause) -> bool, requests: seq<Request>)
    requires RunClaims(claims, multicountable, isSubset, requests).Ok?
    requires forall i :: 0 <= i < |RunClaims(claims, multicountable, isSubset, requests).value.0| ==>
                         RunClaims(claims, multicountable, isSubset, requests).value.0[i].failed
    ensures RunClaims(claims, multicountable, isSubset, requests).value.1 == claims
    decreases |requests|
  {
    if |requests| > 0 {
      var q := requests[0];
      var step := MakeClaim(claims, multicountable, isSubset, q.course, q.path, q.claimant, q.allowClaimed);
      var r := RunClaims(claims, multicountable, isSubset, requests);
      assert r.value.0[0] == step.value.0;
      var rest := RunClaims(step.value.1, multicountable, isSubset, requests[1..]);
      assert r.value.0 == [step.value.0] + rest.value.0;
      forall i | 0 <= i < |rest.value.0| ensures rest.value.0[i].failed {
        assert rest.value.0[i] == r.value.0[i + 1];
      }
      FailedAttemptsLeaveMapAlone(step.value.1, multicountable, isSubset, requests[1..]);
    }
  }

  // ----- the transcript lookups -----

  /** The last course of `t` whose `key` is `k`: the one a dict comprehension keeps. */
  function LastWith(t: seq<CourseInstance>, key: CourseInstance -> string, k: string): (r: Option<CourseInstance>)
    ensures r.None? <==> forall i :: 0 <= i < |t| ==> key(t[i]) != k
    ensures r.Some? ==> exists i :: 0 <= i < |t| && t[i] == r.value && key(t[i]) == k &&
                                    forall j :: i < j < |t| ==> key(t[j]) != k
  {
    if |t| == 0 then None
    else if key(t[|t| - 1]) == k then Some(t[|t| - 1])
    else LastWith(t[..|t| - 1], key, k)
  }

  function CourseName(c: CourseInstance): string { c.course }
  function Shorthand(c: CourseInstance): string { c.shorthand }
  function ClbidOf(c: CourseInstance): string { c.clbid }

  /** `{key(c): c for c in t}`. */
  function IndexBy(t: seq<CourseInstance>, key: CourseInstance -> string): map<string, CourseInstance>
  {
    if |t| == 0 then map[]
    else IndexBy(t[..|t| - 1], key)[key(t[|t| - 1]) := t[|t| - 1]]
  }

  lemma {:induction false} IndexByKeepsLast(t: seq<CourseInstance>, key: CourseInstance -> string, k: string)
    ensures k in IndexBy(t, key) <==> LastWith(t, key, k).Some?
    ensures k in IndexBy(t, key) ==> IndexBy(t, key)[k] == LastWith(t, key, k).value
  {
    if |t| > 0 {
      IndexByKeepsLast(t[..|t| - 1], key, k);
    }
  }

  function Lookup(m: map<string, CourseInstance>, k: string): Option<CourseInstance>
  {
    if k in m then Some(m[k]) else None
  }

  /**
   * `with_transcript`: a course is found by its full name or its shorthand,
   * the full name taking precedence and a later transcript entry replacing an
   * earlier one; a clbid finds the last entry with that clbid.
   */
  function WithTranscript(ctx: Context, t: seq<CourseInstance>): (r: Context)
    ensures r.transcript == t && r.multicountable == ctx.multicountable && r.claims == ctx.claims
    ensures forall k :: Lookup(r.courseLookup, k) ==
                        (if LastWith(t, CourseName, k).Some? then LastWith(t, CourseName, k)
                         else LastWith(t, Shorthand, k))
    ensures forall k :: Lookup(r.clbidLookup, k) == LastWith(t, ClbidOf, k)
  {
    var byShorthand := IndexBy(t, Shorthand);
    var byCourse := IndexBy(t, CourseName);
    var byClbid := IndexBy(t, ClbidOf);
    assert forall k :: Lookup(byShorthand, k) == LastWith(t, Shorthand, k) by {
      forall k ensures Lookup(byShorthand, k) == LastWith(t, Shorthand, k) {
        IndexByKeepsLast(t, Shorthand, k);
      }
    }
    assert forall k :: Lookup(byCourse, k) == LastWith(t, CourseName, k) by {
      forall k ensures Lookup(byCourse, k) == LastWith(t, CourseName, k) {
        IndexByKeepsLast(t, CourseName, k);
      }
    }
    assert forall k :: Lookup(byClbid, k) == LastWith(t, ClbidOf, k) by {
      forall k ensures Lookup(byClbid, k) == LastWith(t, ClbidOf, k) {
        IndexByKeepsLast(t, ClbidOf, k);
      }
    }
    ctx.(transcript := t, courseLookup := byShorthand + byCourse, clbidLookup := byClbid)
  }

  /** `forced_course_by_clbid`: the course with that clbid, or an exception when there is none. */
  function ForcedCourseByClbid(ctx: Context, clbid: string): (r: Result<CourseInstance, PyError>)
    ensures r.Err? <==> clbid !in ctx.clbidLookup
    ensures r.Err? ==> r.error == Exception
    ensures r.Ok? ==> r.value == ctx.clbidLookup[clbid]
  {
    if clbid in ctx.clbidLookup then Ok(ctx.clbidLookup[clbid]) else Err(Exception)
  }

  /** After loading a transcript, a clbid is found exactly when some entry carries it. */
  lemma ForcedCourseFromTranscript(ctx: Context, t: seq<CourseInstance>, clbid: string)
    ensures ForcedCourseByClbid(WithTranscript(ctx, t), clbid).Ok? <==> exists i :: 0 <= i < |t| && t[i].clbid == clbid
    ensures ForcedCourseByClbid(WithTranscript(ctx, t), clbid).Ok? ==>
              ForcedCourseByClbid(WithTranscript(ctx, t), clbid).value.clbid == clbid &&
              ForcedCourseByClbid(WithTranscript(ctx, t), clbid).value in t
  {
    var r := WithTranscript(ctx, t);
    assert Lookup(r.clbidLookup, clbid) == LastWith(t, ClbidOf, clbid);
  }

  /** `set_claims`: the context now holds a copy of `claims`. */
  function SetClaims(ctx: Context, claims: ClaimMap): (r: Context)
    ensures forall k :: Prior(r.claims, k) == Prior(claims, k)
    ensures r.transcript == ctx.transcript && r.multicountable == ctx.multicountable
  {
    ctx.(claims := claims)
  }

  /** `reset_claims`: no course is claimed any more. */
  function ResetClaims(ctx: Context): (r: Context)
    ensures forall k :: Prior(r.claims, k) == {}
    ensures r.transcript == ctx.transcript && r.multicountable == ctx.multicountable
  {
    ctx.(claims := map[])
  }

  /** After a reset, the first claim on any course succeeds and is the only claim recorded for it. */
  lemma ClaimAfterReset(ctx: Context, isSubset: (Clause, Clause) -> bool,
                        course: CourseInstance, path: seq<string>, claimant: Claimant, allowClaimed: bool)
    requires claimant.ClauseArg? || claimant.CourseRuleArg?
    requires !Bypass(claimant, allowClaimed)
    ensures var r := MakeClaim(ResetClaims(ctx).claims, ctx.multicountable, isSubset, course, path, claimant, allowClaimed);
            r.Ok? && !r.value.0.failed && Prior(r.value.1, course.clbid) == {r.value.0.claim}
  {
  }
}

=== FILE: clause_loading.dfy ===
/**
 * Loading clauses from an area specification: `$and`/`$or` trees, `$if`
 * clauses decided by solving a query, and single comparisons whose
 * expected value may be raised by `$ifs` conditions on the student.
 */
module ClauseLoading {

  import opened Wrappers
  import opened Documents
  import opened Clauses
  import opened Strings

  /** `KEY_LOOKUP`: the spellings of a clause key that are normalised. */
  function NormalizeKey(key: string): (r: string)
    ensures key == "subjects" ==> r == "subject"
    ensures key == "attribute" ==> r == "attributes"
    ensures key == "gereq" ==> r == "gereqs"
    ensures key !in {"subjects", "attribute", "gereq"} ==> r == key
  {
    if key == "subjects" then "subject"
    else if key == "attribute" then "attributes"
    else if key == "gereq" then "gereqs"
    else key
  }

  /** A normalised key is left alone by a second normalisation. */
  lemma NormalizeKeyIdempotent(key: string)
    ensures NormalizeKey(NormalizeKey(key)) == NormalizeKey(key)
  {
  }

  // ----- `$ifs`: conditional increments of the expected value -----

  /** What the `$ifs` conditions consult about the student. */
  datatype Facts = Facts(
    ctxPresent: bool,
    hasAreaCode: string -> bool,
    proficiencyPassed: string -> bool,
    parseDecimal: string -> Option<real>)

  const AreaCodeKey := "has-area-code"
  const ProficiencyKey := "passed-proficiency-exam"

  /** The function name of a condition: everything before its first `(`. */
  function ConditionKey(condition: string): string
  {
    Split(condition, "(")[0]
  }

  /** The argument of a condition: the second `(`-piece, right-stripped of `)` and then of whitespace. */
  function ConditionArgument(condition: string): (r: Result<string, PyError>)
    ensures r.Err? <==> |Split(condition, "(")| < 2
    ensures r.Err? ==> r.error == IndexError
    ensures r.Ok? ==> !Contains(r.value, "(")
  {
    var pieces := Split(condition, "(");
    if |pieces| < 2 then Err(IndexError)
    else
      SplitPiecesFree(condition, "(");
      var a := PyStrip(PyRStripChar(pieces[1], ')'));
      StripKeepsOut(pieces[1], '(');
      Ok(a)
  }

  /** Stripping only removes characters, so it cannot introduce a `c`. */
  lemma StripKeepsOut(s: string, c: char)
    requires !Contains(s, [c])
    ensures !Contains(PyStrip(PyRStripChar(s, ')')), [c])
  {
    var t := PyRStripChar(s, ')');
    TrimEndSlice(s, x => x == ')');
    var i, j := TrimSlice(t, IsPyWhitespace);
    var u := PyStrip(t);
    CharAbsent(s, c);
    assert forall k :: 0 <= k < |u| ==> u[k] == s[i + k];
    forall k: nat | k <= |u| ensures !OccursAt(u, [c], k) {
      if k + 1 <= |u| {
        assert u[k..k + 1] == [u[k]];
      }
    }
  }

  /** A string that does not contain `[c]` has no character `c`. */
  lemma CharAbsent(s: string, c: char)
    requires !Contains(s, [c])
    ensures forall m :: 0 <= m < |s| ==> s[m] != c
  {
    forall m | 0 <= m < |s| ensures s[m] != c {
      assert s[m..m + 1] == [s[m]];
      assert !OccursAt(s, [c], m);
    }
  }

  /** One condition of an `$ifs` key, such as `has-area-code(130)`. */
  function EvalCondition(condition: string, f: Facts): (r: Result<bool, PyError>)
    ensures r == Err(TypeError) <==> ConditionKey(condition) !in {AreaCodeKey, ProficiencyKey}
    ensures ConditionKey(condition) in {AreaCodeKey, ProficiencyKey} && !f.ctxPresent ==> r == Err(AssertionError)
    ensures r.Ok? ==> f.ctxPresent && ConditionArgument(condition).Ok?
    ensures r.Ok? && ConditionKey(condition) == AreaCodeKey ==> r.value == f.hasAreaCode(ConditionArgument(condition).value)
    ensures r.Ok? && ConditionKey(condition) == ProficiencyKey ==> r.value == f.proficiencyPassed(ConditionArgument(condition).value)
  {
    var key := ConditionKey(condition);
    if key == AreaCodeKey || key == ProficiencyKey then
      if !f.ctxPresent then Err(AssertionError)
      else
        match ConditionArgument(condition)
        case Err(e) => Err(e)
        case Ok(a) => Ok(if key == AreaCodeKey then f.hasAreaCode(a) else f.proficiencyPassed(a))
    else Err(TypeError)
  }

  /** Every condition is evaluated, in order; the first failure is raised, else all must hold. */
  function EvalConditions(conditions: seq<string>, f: Facts): (r: Result<bool, PyError>)
    ensures r.Ok? <==> forall i :: 0 <= i < |conditions| ==> EvalCondition(conditions[i], f).Ok?
    ensures r.Ok? ==> (r.value <==> forall i :: 0 <= i < |conditions| ==> EvalCondition(conditions[i], f) == Ok(true))
    ensures r.Err? ==> exists i :: 0 <= i < |conditions| && EvalCondition(conditions[i], f) == Err(r.error)
                                  && forall j :: 0 <= j < i ==> EvalCondition(conditions[j], f).Ok?
  {
    if |conditions| == 0 then Ok(true)
    else
      match EvalCondition(conditions[0], f)
      case Err(e) => Err(e)
      case Ok(b) =>
        var rest := EvalConditions(conditions[1..], f);
        ShiftConditions(conditions, f);
        match rest
        case Err(e) => Err(e)
        case Ok(c) => Ok(b && c)
  }

  /** The conditions after the first, seen from the whole sequence. */
  lemma ShiftConditions(conditions: seq<string>, f: Facts)
    requires |conditions| > 0
    ensures forall j :: 1 <= j < |conditions| ==> EvalCondition(conditions[j], f) == EvalCondition(conditions[1..][j - 1], f)
    ensures forall j :: 0 <= j < |conditions| - 1 ==> EvalCondition(conditions[1..][j], f) == EvalCondition(conditions[j + 1], f)
  {
  }

  /**
   * The action of an `$ifs` entry: `"+ <amount>"` adds the amount. Text
   * without a space cannot be unpacked into mode and amount, any other mode
   * raises `TypeError`, and an amount that is not a decimal raises
   * `InvalidOperation`.
   */
  function ActionAmount(action: Data, f: Facts): (r: Result<real, PyError>)
    ensures !action.Str? ==> r == Err(AttributeError)
    ensures r.Ok? <==> action.Str? && |action.s| >= 2 && action.s[..2] == "+ " && f.parseDecimal(action.s[2..]).Some?
    ensures r.Ok? ==> Some(r.value) == f.parseDecimal(action.s[2..])
    ensures action.Str? && ' ' !in action.s ==> r == Err(ValueError)
    ensures action.Str? && |SplitOnce(action.s, ' ')| == 2 && SplitOnce(action.s, ' ')[0] != "+" ==> r == Err(TypeError)
    ensures action.Str? && |action.s| >= 2 && action.s[..2] == "+ " && f.parseDecimal(action.s[2..]).None? ==>
              r == Err(InvalidOperation)
  {
    if !action.Str? then Err(AttributeError)
    else
      var s := action.s;
      var pieces := SplitOnce(s, ' ');
      PlusSpaceSplit(s);
      if |pieces| < 2 then Err(ValueError)
      else if pieces[0] != "+" then Err(TypeError)
      else
        match f.parseDecimal(pieces[1])
        case None => Err(InvalidOperation)
        case Some(v) => Ok(v)
  }

  /** Splitting at the first space separates a `+` mode exactly when the text starts with `"+ "`. */
  lemma PlusSpaceSplit(s: string)
    ensures (|SplitOnce(s, ' ')| == 2 && SplitOnce(s, ' ')[0] == "+") <==> (|s| >= 2 && s[..2] == "+ ")
    ensures |s| >= 2 && s[..2] == "+ " ==> SplitOnce(s, ' ')[1] == s[2..]
  {
    var pieces := SplitOnce(s, ' ');
    if |s| >= 2 && s[..2] == "+ " {
      assert s[0] == '+' && s[1] == ' ';
      assert ' ' in s;
      assert pieces[0] == s[..1];
      assert s[2..] == pieces[1];
    }
  }

  /** What one `$ifs` entry adds: its amount when all of its `' + '`-joined conditions hold, else nothing. */
  function EntryAmount(e: Entry, f: Facts): (r: Result<real, PyError>)
    ensures EvalConditions(Split(e.key, " + "), f) == Ok(false) ==> r == Ok(0.0)
    ensures EvalConditions(Split(e.key, " + "), f) == Ok(true) ==> r == ActionAmount(e.value, f)
    ensures EvalConditions(Split(e.key, " + "), f).Err? ==> r == Err(EvalConditions(Split(e.key, " + "), f).error)
  {
    match EvalConditions(Split(e.key, " + "), f)
    case Err(x) => Err(x)
    case Ok(false) => Ok(0.0)
    case Ok(true) => ActionAmount(e.value, f)
  }

  /** Python's `x + y` on two evaluated operands: the left one's error first. */
  function Plus(x: Result<real, PyError>, y: Result<real, PyError>): (r: Result<real, PyError>)
    ensures r.Ok? <==> x.Ok? && y.Ok?
  {
    if x.Err? then x else if y.Err? then y else Ok(x.value + y.value)
  }

  /** Adds up the entries left to right; the first entry that raises decides the error. */
  function DiffFrom(entries: seq<Entry>, f: Facts): (r: Result<real, PyError>)
    ensures r.Ok? <==> forall i :: 0 <= i < |entries| ==> EntryAmount(entries[i], f).Ok?
  {
    if |entries| == 0 then Ok(0.0)
    else
      assert forall j :: 1 <= j < |entries| ==> entries[j] == entries[1..][j - 1];
      Plus(EntryAmount(entries[0], f), DiffFrom(entries[1..], f))
  }

  /** `compute_single_clause_diff`: the sum the `$ifs` mapping adds to the expected value. */
  function ComputeSingleClauseDiff(conditionals: Data, f: Facts): (r: Result<real, PyError>)
    ensures !conditionals.Dict? ==> r == Err(AttributeError)
    ensures conditionals.Dict? ==> r == DiffFrom(conditionals.entries, f)
  {
    if conditionals.Dict? then DiffFrom(conditionals.entries, f) else Err(AttributeError)
  }

  /** One more entry at the end adds its own amount, or raises its own error. */
  lemma {:induction false} DiffFromAppend(entries: seq<Entry>, e: Entry, f: Facts)
    requires DiffFrom(entries, f).Ok?
    ensures DiffFrom(entries + [e], f) == Plus(DiffFrom(entries, f), EntryAmount(e, f))
    decreases |entries|
  {
    if |entries| == 0 {
      assert [] + [e] == [e];
      assert [e][1..] == [];
    } else {
      var tail := entries[1..];
      assert (entries + [e])[0] == entries[0];
      assert (entries + [e])[1..] == tail + [e];
      DiffFromAppend(tail, e, f);
      var a0, t, x := EntryAmount(entries[0], f), DiffFrom(tail, f), EntryAmount(e, f);
      assert DiffFrom(entries + [e], f) == Plus(a0, Plus(t, x));
      assert DiffFrom(entries, f) == Plus(a0, t);
      PlusAssociates(a0, t, x);
    }
  }

  lemma PlusAssociates(x: Result<real, PyError>, y: Result<real, PyError>, z: Result<real, PyError>)
    ensures Plus(x, Plus(y, z)) == Plus(Plus(x, y), z)
  {
  }

  /** When no entry's conditions hold, nothing is added. */
  lemma {:induction false} NothingApplies(entries: seq<Entry>, f: Facts)
    requires forall i :: 0 <= i < |entries| ==> EvalConditions(Split(entries[i].key, " + "), f) == Ok(false)
    ensures DiffFrom(entries, f) == Ok(0.0)
    decreases |entries|
  {
    if |entries| > 0 {
      assert forall j :: 1 <= j < |entries| ==> entries[j] == entries[1..][j - 1];
      NothingApplies(entries[1..], f);
    }
  }

  // ----- single clauses -----

  /** The operator keys of a clause body: keys starting with `$`, other than `$ifs`. */
  function OperatorKeys(entries: seq<Entry>): (r: seq<string>)
    ensures forall k :: k in r <==> (HasKey(entries, k) && |k| > 0 && k[0] == '$' && k != "$ifs")
  {
    if |entries| == 0 then []
    else
      var k := entries[0].key;
      var rest := OperatorKeys(entries[1..]);
      assert forall k :: HasKey(entries, k) <==> (k == entries[0].key || HasKey(entries[1..], k)) by {
        forall k | HasKey(entries, k) && k != entries[0].key ensures HasKey(entries[1..], k) {
          var i :| 0 <= i < |entries| && entries[i].key == k;
          assert entries[1..][i - 1].key == k;
        }
        forall k | HasKey(entries[1..], k) ensures HasKey(entries, k) {
          var i :| 0 <= i < |entries[1..]| && entries[1..][i].key == k;
          assert entries[i + 1].key == k;
        }
      }
      if |k| > 0 && k[0] == '$' && k != "$ifs" then [k] + rest else rest
  }

  /** What loading a clause needs that this model keeps abstract. */
  datatype ClauseEnv = ClauseEnv(
    facts: Facts,
    operatorOf: string -> Option<Operator>,
    getByName: Data -> Data,
    processValue: (string, Data) -> Result<Data, PyError>,
    solveIf: Data -> Result<Option<bool>, PyError>)

  /** Keys whose expected values are post-processed (grades, grade options, credits, gpa). */
  const ProcessedKeys: set<string> := {"grade", "grade_option", "credits", "gpa"}

  /** `process_clause_value`: the per-key processor, or the value unchanged. */
  function ProcessClauseValue(value: Data, key: string, env: ClauseEnv): (r: Result<Data, PyError>)
    ensures key !in ProcessedKeys ==> r == Ok(value)
  {
    if key in ProcessedKeys then env.processValue(key, value) else Ok(value)
  }

  /** `expected += diff`: numbers become decimals; anything else cannot be added to. */
  function AddDiff(expected: Data, diff: real): (r: Result<Data, PyError>)
    ensures r.Ok? <==> expected.Int? || expected.Bool? || expected.Decimal?
    ensures r.Ok? ==> r.value.Decimal?
    ensures expected.Int? ==> r == Ok(Decimal(expected.i as real + diff))
    ensures expected.Decimal? ==> r == Ok(Decimal(expected.d + diff))
    ensures r.Err? ==> r.error == TypeError
  {
    match expected
    case Int(i) => Ok(Decimal(i as real + diff))
    case Bool(b) => Ok(Decimal((if b then 1.0 else 0.0) + diff))
    case Decimal(d) => Ok(Decimal(d + diff))
    case _ => Err(TypeError)
  }

  /** The types an expected value may have once adjusted: bool, str, tuple, int or Decimal. */
  predicate AllowedType(d: Data)
  {
    d.Bool? || d.Str? || d.Tuple? || d.Int? || d.Decimal?
  }

  /** Names in the expected value are looked up among the constants, element by element for a tuple. */
  function ResolveNames(expected: Data, env: ClauseEnv): Data
  {
    match expected
    case Str(_) => env.getByName(expected)
    case Tuple(items) => Tuple(seq(|items|, i requires 0 <= i < |items| => env.getByName(items[i])))
    case _ => expected
  }

  /** The expected value is present: for `in`/`not in`, every element of it. */
  predicate NonePresent(expected: Data, op: Operator)
  {
    if op == In || op == NotIn then Iterate(expected).Ok? && forall v :: v in Iterate(expected).value ==> v != Null
    else expected != Null
  }

  /** The raw expected value: lists become tuples and floats become decimals. */
  function Normalize(d: Data): (r: Data)
    ensures !r.List? && !r.Float?
    ensures d.List? ==> r == Tuple(d.items)
    ensures d.Float? ==> r == Decimal(d.f)
    ensures !d.List? && !d.Float? ==> r == d
  {
    match d
    case List(items) => Tuple(items)
    case Float(x) => Decimal(x)
    case _ => d
  }

  /**
   * `load_single_clause`: the one operator key's value, normalised, raised
   * by the `$ifs` difference when that is nonzero, is the verbatim expected
   * value; names in it are then resolved and the key's processor applied.
   */
  function LoadSingleClause(key: string, value: Data, forbid: seq<Operator>, env: ClauseEnv): (r: Result<Clause, PyError>)
    ensures !value.Dict? ==> r == Err(AssertionError)
    ensures value.Dict? && |OperatorKeys(value.entries)| != 1 ==> r == Err(AssertionError)
    ensures value.Dict? && |OperatorKeys(value.entries)| == 1 && env.operatorOf(OperatorKeys(value.entries)[0]).None? ==>
              r == Err(ValueError)
    ensures value.Dict? && |OperatorKeys(value.entries)| == 1 && env.operatorOf(OperatorKeys(value.entries)[0]).Some? ==>
              (env.operatorOf(OperatorKeys(value.entries)[0]).value in forbid ==> r == Err(AssertionError))
    ensures r.Ok? ==> var c := r.value;
                      c.SingleClause? && c.key == NormalizeKey(key) && c.state == Pending
                      && c.operator !in forbid
                      && Some(c.operator) == env.operatorOf(OperatorKeys(value.entries)[0])
                      && NonePresent(c.expected, c.operator)
                      && AllowedType(c.expectedVerbatim)
                      && GetOr(value.entries, "at_most", Bool(false)) == Bool(c.atMost)
                      && c.caption == GetOr(value.entries, "label", Null)
                      && c.treatInProgressAsPass == GetOr(value.entries, "treat_in_progress_as_pass", Bool(false))
    ensures r.Ok? ==> ComputeSingleClauseDiff(GetOr(value.entries, "$ifs", Dict([])), env.facts).Ok?
    ensures r.Ok? ==> var diff := ComputeSingleClauseDiff(GetOr(value.entries, "$ifs", Dict([])), env.facts).value;
                      var raw := Normalize(Get(value.entries, OperatorKeys(value.entries)[0]).value);
                      (diff == 0.0 ==> r.value.expectedVerbatim == raw) &&
                      (diff != 0.0 ==> AddDiff(raw, diff) == Ok(r.value.expectedVerbatim))
    ensures r.Ok? ==> ProcessClauseValue(ResolveNames(r.value.expectedVerbatim, env), r.value.key, env) == Ok(r.value.expected)
    ensures value.Dict? && |OperatorKeys(value.entries)| == 1 && env.operatorOf(OperatorKeys(value.entries)[0]).Some? &&
            env.operatorOf(OperatorKeys(value.entries)[0]).value !in forbid ==>
              var op := env.operatorOf(OperatorKeys(value.entries)[0]).value;
              var diff := ComputeSingleClauseDiff(GetOr(value.entries, "$ifs", Dict([])), env.facts);
              && (diff.Err? ==> r == Err(diff.error))
              && (diff.Ok? ==>
                    var raw := Normalize(Get(value.entries, OperatorKeys(value.entries)[0]).value);
                    var adjusted := if diff.value != 0.0 then AddDiff(raw, diff.value) else Ok(raw);
                    && (adjusted.Err? ==> r == Err(TypeError))
                    && (adjusted.Ok? && !AllowedType(adjusted.value) ==> r == Err(AssertionError))
                    && (adjusted.Ok? && AllowedType(adjusted.value) ==>
                          var processed := ProcessClauseValue(ResolveNames(adjusted.value, env), NormalizeKey(key), env);
                          && (processed.Err? ==> r == Err(processed.error))
                          && (processed.Ok? ==>
                                (r.Ok? <==> && (op in {In, NotIn} ==> Iterate(processed.value).Ok?)
                                            && NonePresent(processed.value, op)
                                            && GetOr(value.entries, "at_most", Bool(false)).Bool?))))
  {
    if !value.Dict? then Err(AssertionError)
    else
      var entries := value.entries;
      var key := NormalizeKey(key);
      var ops := OperatorKeys(entries);
      if |ops| != 1 then Err(AssertionError)
      else
        assert ops[0] in ops;
        match env.operatorOf(ops[0])
        case None => Err(ValueError)
        case Some(op) =>
          if op in forbid then Err(AssertionError)
          else
            var raw := Normalize(Get(entries, ops[0]).value);
            match ComputeSingleClauseDiff(GetOr(entries, "$ifs", Dict([])), env.facts)
            case Err(x) => Err(x)
            case Ok(diff) =>
              var adjusted := if diff != 0.0 then AddDiff(raw, diff) else Ok(raw);
              if adjusted.Err? then Err(adjusted.error)
              else
                var verbatim := adjusted.value;
                if !AllowedType(verbatim) then Err(AssertionError)
                else
                  match ProcessClauseValue(ResolveNames(verbatim, env), key, env)
                  case Err(x) => Err(x)
                  case Ok(expected) =>
                    if op in {In, NotIn} && Iterate(expected).Err? then Err(TypeError)
                    else if !NonePresent(expected, op) then Err(AssertionError)
                    else
                      var atMost := GetOr(entries, "at_most", Bool(false));
                      if !atMost.Bool? then Err(AssertionError)
                      else Ok(SingleClause(key, expected, verbatim, op, atMost.b,
                                           GetOr(entries, "label", Null),
                                           GetOr(entries, "treat_in_progress_as_pass", Bool(false)),
                                           Pending))
  }

  /**
   * A written single clause `{op: n}` with an integer, for a key that is not
   * post-processed and without `$ifs`, loads to the pending clause that
   * carries back what was written: the normalised key, the operator, and n
   * as both the expected and the verbatim value.
   */
  lemma WrittenSingleClauseLoads(key: string, opKey: string, op: Operator, n: int, forbid: seq<Operator>, env: ClauseEnv)
    requires NormalizeKey(key) !in ProcessedKeys
    requires |opKey| > 0 && opKey[0] == '$' && opKey != "$ifs"
    requires env.operatorOf(opKey) == Some(op) && op !in forbid && op !in {In, NotIn}
    ensures LoadSingleClause(key, Dict([Entry(opKey, Int(n))]), forbid, env) ==
            Ok(SingleClause(NormalizeKey(key), Int(n), Int(n), op, false, Null, Bool(false), Pending))
  {
    WrittenEntryOperator(opKey, n);
    WrittenEntryDefaults(opKey, n, env.facts);
    WrittenIntProcesses(key, n, op, env);
    SingleClauseFromEntries(key, [Entry(opKey, Int(n))], opKey, op, n, forbid, env);
  }

  /** A plain integer under an unprocessed key resolves and processes to itself. */
  lemma WrittenIntProcesses(key: string, n: int, op: Operator, env: ClauseEnv)
    requires NormalizeKey(key) !in ProcessedKeys && op !in {In, NotIn}
    ensures Normalize(Int(n)) == Int(n) && AllowedType(Int(n)) && NonePresent(Int(n), op)
    ensures ProcessClauseValue(ResolveNames(Int(n), env), NormalizeKey(key), env) == Ok(Int(n))
  {
  }

  /** Any entries with one known operator key holding an integer, and no `$ifs`, `at_most`, `label` or in-progress flag, load. */
  lemma SingleClauseFromEntriesLoads(key: string, entries: seq<Entry>, opKey: string, op: Operator, n: int, forbid: seq<Operator>, env: ClauseEnv)
    requires OperatorKeys(entries) == [opKey] && Get(entries, opKey) == Some(Int(n))
    requires GetOr(entries, "at_most", Bool(false)) == Bool(false)
    requires ComputeSingleClauseDiff(GetOr(entries, "$ifs", Dict([])), env.facts) == Ok(0.0)
    requires Normalize(Int(n)) == Int(n) && AllowedType(Int(n)) && NonePresent(Int(n), op)
    requires ProcessClauseValue(ResolveNames(Int(n), env), NormalizeKey(key), env) == Ok(Int(n))
    requires env.operatorOf(opKey) == Some(op) && op !in forbid && op !in {In, NotIn}
    ensures LoadSingleClause(key, Dict(entries), forbid, env).Ok?
  {
  }

  /** Such entries load as exactly that comparison, with nothing else set. */
  lemma SingleClauseFromEntries(key: string, entries: seq<Entry>, opKey: string, op: Operator, n: int, forbid: seq<Operator>, env: ClauseEnv)
    requires OperatorKeys(entries) == [opKey] && Get(entries, opKey) == Some(Int(n))
    requires GetOr(entries, "at_most", Bool(false)) == Bool(false) && GetOr(entries, "label", Null) == Null
    requires GetOr(entries, "treat_in_progress_as_pass", Bool(false)) == Bool(false)
    requires ComputeSingleClauseDiff(GetOr(entries, "$ifs", Dict([])), env.facts) == Ok(0.0)
    requires Normalize(Int(n)) == Int(n) && AllowedType(Int(n)) && NonePresent(Int(n), op)
    requires ProcessClauseValue(ResolveNames(Int(n), env), NormalizeKey(key), env) == Ok(Int(n))
    requires env.operatorOf(opKey) == Some(op) && op !in forbid && op !in {In, NotIn}
    ensures LoadSingleClause(key, Dict(entries), forbid, env) ==
            Ok(SingleClause(NormalizeKey(key), Int(n), Int(n), op, false, Null, Bool(false), Pending))
  {
    SingleClauseFromEntriesLoads(key, entries, opKey, op, n, forbid, env);
    var c := LoadSingleClause(key, Dict(entries), forbid, env).value;
    assert c.expectedVerbatim == Int(n);
    assert c.expected == Int(n);
  }

  /** The mapping `{op: n}` has `op` as its one operator key, holding `n`. */
  lemma WrittenEntryOperator(opKey: string, n: int)
    requires |opKey| > 0 && opKey[0] == '$' && opKey != "$ifs"
    ensures OperatorKeys([Entry(opKey, Int(n))]) == [opKey]
    ensures Get([Entry(opKey, Int(n))], opKey) == Some(Int(n))
  {
    assert OperatorKeys([Entry(opKey, Int(n))][1..]) == [];
  }

  /** Looking up any other key in a one-entry mapping gives the default. */
  lemma OtherKeyDefaults(e: Entry, k: string, default: Data)
    requires e.key != k
    ensures GetOr([e], k, default) == default
  {
    assert Get([e][1..], k) == None;
  }

  /** The mapping `{op: n}` has no `$ifs`, `at_most`, `label` or in-progress flag, so its `$ifs` diff is 0. */
  lemma WrittenEntryDefaults(opKey: string, n: int, f: Facts)
    requires |opKey| > 0 && opKey[0] == '$' && opKey != "$ifs"
    ensures GetOr([Entry(opKey, Int(n))], "at_most", Bool(false)) == Bool(false)
    ensures GetOr([Entry(opKey, Int(n))], "label", Null) == Null
    ensures GetOr([Entry(opKey, Int(n))], "treat_in_progress_as_pass", Bool(false)) == Bool(false)
    ensures ComputeSingleClauseDiff(GetOr([Entry(opKey, Int(n))], "$ifs", Dict([])), f) == Ok(0.0)
  {
    var e := Entry(opKey, Int(n));
    assert "at_most"[0] != '$' && "label"[0] != '$' && "treat_in_progress_as_pass"[0] != '$';
    OtherKeyDefaults(e, "at_most", Bool(false));
    OtherKeyDefaults(e, "label", Null);
    OtherKeyDefaults(e, "treat_in_progress_as_pass", Bool(false));
    OtherKeyDefaults(e, "$ifs", Dict([]));
    assert DiffFrom([], f) == Ok(0.0);
  }

  /** The same clause written under its key loads through `load_clause`, with or without boolean clauses allowed. */
  lemma WrittenClauseLoads(key: string, opKey: string, op: Operator, n: int, allowBoolean: bool, forbid: seq<Operator>,
                           env: ClauseEnv)
    requires key !in {"$and", "$or", "$if"} && NormalizeKey(key) !in ProcessedKeys
    requires |opKey| > 0 && opKey[0] == '$' && opKey != "$ifs"
    requires env.operatorOf(opKey) == Some(op) && op !in forbid && op !in {In, NotIn}
    ensures LoadClause(Dict([Entry(key, Dict([Entry(opKey, Int(n))]))]), allowBoolean, forbid, env) ==
            Ok(Some(SingleClause(NormalizeKey(key), Int(n), Int(n), op, false, Null, Bool(false), Pending)))
  {
    WrittenSingleClauseLoads(key, opKey, op, n, forbid, env);
    var outer := [Entry(key, Dict([Entry(opKey, Int(n))]))];
    assert outer[0].key == key;
  }

  // ----- clause trees -----

  /** A one-entry mapping has one of the keys `load_clause` dispatches on exactly when its entry does. */
  lemma OperatorEntry(entries: seq<Entry>)
    ensures |entries| == 1 ==> (HasKey(entries, "$and") <==> entries[0].key == "$and")
    ensures |entries| == 1 ==> (HasKey(entries, "$or") <==> entries[0].key == "$or")
    ensures |entries| == 1 ==> (HasKey(entries, "$if") <==> entries[0].key == "$if")
  {
  }

  /** In a one-entry mapping, a key it has is the key of its entry. */
  lemma OnlyEntry(entries: seq<Entry>, k: string)
    requires |entries| == 1
    ensures HasKey(entries, k) <==> entries[0].key == k
    ensures HasKey(entries, k) ==> Get(entries, k) == Some(entries[0].value)
  {
  }

  /** No single clause in the tree uses a forbidden operator. */
  predicate Permitted(c: Clause, forbid: seq<Operator>)
  {
    match c
    case SingleClause(_, _, _, op, _, _, _, _) => op !in forbid
    case AndClause(children) => forall i :: 0 <= i < |children| ==> Permitted(children[i], forbid)
    case OrClause(children) => forall i :: 0 <= i < |children| ==> Permitted(children[i], forbid)
  }

  /** What one loaded result contributes to the children: its clause, if it has one. */
  function ClauseOf(x: Result<Option<Clause>, PyError>): seq<Clause>
  {
    if x.Ok? && x.value.Some? then [x.value.value] else []
  }

  /** The clauses among some loaded results, in order; a reference definition that grows from the end. */
  function Kept(rs: seq<Result<Option<Clause>, PyError>>): seq<Clause>
  {
    if |rs| == 0 then [] else Kept(rs[..|rs| - 1]) + ClauseOf(rs[|rs| - 1])
  }

  /** The reference definition read from the front. */
  lemma {:induction false} KeptCons(x: Result<Option<Clause>, PyError>, t: seq<Result<Option<Clause>, PyError>>)
    ensures Kept([x] + t) == ClauseOf(x) + Kept(t)
    decreases |t|
  {
    if |t| == 0 {
      assert ([x] + t)[..0] == [];
      assert [x] + t == [x];
    } else {
      var init := t[..|t| - 1];
      assert ([x] + t)[..|[x] + t| - 1] == [x] + init;
      assert ([x] + t)[|[x] + t| - 1] == t[|t| - 1];
      KeptCons(x, init);
    }
  }

  /** Every kept clause comes from some result. */
  lemma {:induction false} KeptFromResults(rs: seq<Result<Option<Clause>, PyError>>)
    ensures forall j :: 0 <= j < |Kept(rs)| ==> exists i :: 0 <= i < |rs| && rs[i] == Ok(Some(Kept(rs)[j]))
    decreases |rs|
  {
    if |rs| > 0 {
      var init := rs[..|rs| - 1];
      var last := rs[|rs| - 1];
      KeptFromResults(init);
      var ki := Kept(init);
      var k := Kept(rs);
      assert k == ki + ClauseOf(last);
      forall j | 0 <= j < |k| ensures exists i :: 0 <= i < |rs| && rs[i] == Ok(Some(k[j])) {
        if j < |ki| {
          var i :| 0 <= i < |init| && init[i] == Ok(Some(ki[j]));
          assert rs[i] == init[i];
        } else {
          assert k[j] == ClauseOf(last)[j - |ki|];
          assert rs[|rs| - 1] == Ok(Some(k[j]));
        }
      }
    } else {
      assert Kept(rs) == [];
    }
  }

  /** Nothing is kept exactly when every result is `None` or failed. */
  lemma {:induction false} KeptEmpty(rs: seq<Result<Option<Clause>, PyError>>)
    ensures |Kept(rs)| == 0 <==> forall i :: 0 <= i < |rs| ==> ClauseOf(rs[i]) == []
    decreases |rs|
  {
    if |rs| > 0 {
      var init := rs[..|rs| - 1];
      KeptEmpty(init);
      assert forall i :: 0 <= i < |init| ==> init[i] == rs[i];
      assert |Kept(rs)| == |Kept(init)| + |ClauseOf(rs[|rs| - 1])|;
    } else {
      assert Kept(rs) == [];
    }
  }

  /** `load_clauses`: the loaded children in order, `None`s dropped; the first failure is the one raised. */
  function KeepLoaded(rs: seq<Result<Option<Clause>, PyError>>): (r: Result<seq<Clause>, PyError>)
    ensures r.Ok? <==> forall i :: 0 <= i < |rs| ==> rs[i].Ok?
    ensures r.Ok? ==> r.value == Kept(rs)
    ensures r.Err? ==> exists i :: 0 <= i < |rs| && rs[i] == Err(r.error) && forall j :: 0 <= j < i ==> rs[j].Ok?
  {
    if |rs| == 0 then Ok([])
    else
      assert forall j :: 1 <= j < |rs| ==> rs[j] == rs[1..][j - 1];
      assert rs == [rs[0]] + rs[1..];
      KeptCons(rs[0], rs[1..]);
      match rs[0]
      case Err(x) => Err(x)
      case Ok(first) =>
        match KeepLoaded(rs[1..])
        case Err(x) => Err(x)
        case Ok(rest) =>
          if first.Some? then
            var r := [first.value] + rest;
            assert forall j :: 1 <= j < |r| ==> r[j] == rest[j - 1];
            Ok(r)
          else Ok(rest)
  }

  /**
   * `load_clause`. Returns `None` only through an `$if` whose chosen branch
   * is absent. With `allowBoolean` false only single clauses come back, and
   * no clause that comes back uses a forbidden operator.
   */
  function LoadClause(data: Data, allowBoolean: bool, forbid: seq<Operator>, env: ClauseEnv): (r: Result<Option<Clause>, PyError>)
    decreases data, 2
    ensures !data.Dict? ==> r == Err(Exception)
    ensures data.Dict? && !allowBoolean && (HasKey(data.entries, "$and") || HasKey(data.entries, "$or")) ==> r == Err(ValueError)
    ensures data.Dict? && (HasKey(data.entries, "$and") || HasKey(data.entries, "$or")) ==>
              (|data.entries| != 1 ==> r.Err?) &&
              (r.Ok? ==> r.value.Some? &&
                         (if HasKey(data.entries, "$and") then r.value.value.AndClause? else r.value.value.OrClause?) &&
                         |r.value.value.children| >= 1)
    ensures data.Dict? && !HasKey(data.entries, "$and") && !HasKey(data.entries, "$or") && HasKey(data.entries, "$if") ==>
              !env.facts.ctxPresent ==> r == Err(AssertionError)
    ensures data.Dict? && !HasKey(data.entries, "$and") && !HasKey(data.entries, "$or") && !HasKey(data.entries, "$if") ==>
              (|data.entries| != 1 ==> r == Err(AssertionError)) &&
              (r.Ok? ==> r.value.Some? && r.value.value.SingleClause?)
    ensures data.Dict? && allowBoolean && |data.entries| == 1 && data.entries[0].key in {"$and", "$or"} ==>
              var children := LoadChildren(data.entries[0].value, allowBoolean, forbid, env);
              (children.Err? ==> r == Err(children.error)) &&
              (children.Ok? && |children.value| == 0 ==> r == Err(AssertionError)) &&
              (children.Ok? && |children.value| >= 1 ==>
                 r == Ok(Some(if data.entries[0].key == "$and" then AndClause(children.value) else OrClause(children.value))))
    ensures data.Dict? && !HasKey(data.entries, "$and") && !HasKey(data.entries, "$or") && HasKey(data.entries, "$if") &&
            env.facts.ctxPresent ==>
              var solution := env.solveIf(Get(data.entries, "$if").value);
              && (solution.Err? ==> r == Err(solution.error))
              && (solution.Ok? && !HasKey(data.entries, "$then") ==> r == Err(KeyError))
              && (solution.Ok? && HasKey(data.entries, "$then") ==>
                    var yes := LoadClause(Get(data.entries, "$then").value, allowBoolean, forbid, env);
                    var no := if Truthy(GetOr(data.entries, "$else", Null))
                              then LoadClause(GetOr(data.entries, "$else", Null), allowBoolean, forbid, env) else Ok(None);
                    && (yes.Err? ==> r == Err(yes.error))
                    && (yes.Ok? && no.Err? ==> r == Err(no.error))
                    && (yes.Ok? && no.Ok? ==> r == if solution.value == Some(true) then yes else no))
    ensures data.Dict? && |data.entries| == 1 && data.entries[0].key !in {"$and", "$or", "$if"} ==>
              var single := LoadSingleClause(data.entries[0].key, data.entries[0].value, forbid, env);
              (single.Err? ==> r == Err(single.error)) && (single.Ok? ==> r == Ok(Some(single.value)))
    ensures r.Ok? && r.value.Some? && !allowBoolean ==> r.value.value.SingleClause?
    ensures r.Ok? && r.value.Some? ==> Permitted(r.value.value, forbid)
  {
    if !data.Dict? then Err(Exception)
    else
      var entries := data.entries;
      OperatorEntry(entries);
      var isAnd := HasKey(entries, "$and");
      if !allowBoolean && (isAnd || HasKey(entries, "$or")) then Err(ValueError)
      else if isAnd || HasKey(entries, "$or") then
        var k := if isAnd then "$and" else "$or";
        if |entries| != 1 then Err(AssertionError)
        else
          OnlyEntry(entries, k);
          match LoadChildren(entries[0].value, allowBoolean, forbid, env)
          case Err(x) => Err(x)
          case Ok(children) =>
            if |children| < 1 then Err(AssertionError)
            else if isAnd then Ok(Some(AndClause(children)))
            else Ok(Some(OrClause(children)))
      else if HasKey(entries, "$if") then
        if !env.facts.ctxPresent then Err(AssertionError)
        else
          match env.solveIf(Get(entries, "$if").value)
          case Err(x) => Err(x)
          case Ok(solution) =>
            if !HasKey(entries, "$then") then Err(KeyError)
            else
              GetIsSmaller(entries, "$then");
              match LoadClause(Get(entries, "$then").value, allowBoolean, forbid, env)
              case Err(x) => Err(x)
              case Ok(whenYes) =>
                var elseClause := GetOr(entries, "$else", Null);
                GetIsSmaller(entries, "$else");
                var whenNo := if Truthy(elseClause) then LoadClause(elseClause, allowBoolean, forbid, env) else Ok(None);
                match whenNo
                case Err(x) => Err(x)
                case Ok(no) => if solution == Some(true) then Ok(whenYes) else Ok(no)
      else if |entries| != 1 then Err(AssertionError)
      else
        match LoadSingleClause(entries[0].key, entries[0].value, forbid, env)
        case Err(x) => Err(x)
        case Ok(c) => Ok(Some(c))
  }

  /**
   * Iterating the value of `$and`/`$or` and loading each element. A list's
   * elements are loaded; a string or mapping yields strings, which are not
   * clauses; any other value cannot be iterated.
   */
  function LoadChildren(v: Data, allowBoolean: bool, forbid: seq<Operator>, env: ClauseEnv): (r: Result<seq<Clause>, PyError>)
    decreases v, 1
    ensures Iterate(v).Err? ==> r == Err(TypeError)
    ensures v.List? || v.Tuple? ==>
              r == KeepLoaded(seq(|v.items|, i requires 0 <= i < |v.items| => LoadClause(v.items[i], allowBoolean, forbid, env)))
    ensures r.Ok? ==> forall j :: 0 <= j < |r.value| ==> Permitted(r.value[j], forbid)
    ensures r.Ok? && !allowBoolean ==> forall j :: 0 <= j < |r.value| ==> r.value[j].SingleClause?
  {
    match v
    case List(items) => LoadItems(items, v, allowBoolean, forbid, env)
    case Tuple(items) => LoadItems(items, v, allowBoolean, forbid, env)
    case Str(s) => if |s| == 0 then Ok([]) else Err(Exception)
    case Dict(entries) => if |entries| == 0 then Ok([]) else Err(Exception)
    case _ => Err(TypeError)
  }

  function LoadItems(items: seq<Data>, v: Data, allowBoolean: bool, forbid: seq<Operator>, env: ClauseEnv): (r: Result<seq<Clause>, PyError>)
    requires (v.List? || v.Tuple?) && v.items == items
    decreases v, 0
    ensures r.Ok? ==> forall j :: 0 <= j < |r.value| ==> Permitted(r.value[j], forbid)
    ensures r.Ok? && !allowBoolean ==> forall j :: 0 <= j < |r.value| ==> r.value[j].SingleClause?
  {
    var rs := seq(|items|, i requires 0 <= i < |items| => LoadClause(items[i], allowBoolean, forbid, env));
    KeptFromResults(rs);
    KeepLoaded(rs)
  }
}

=== FILE: clauses.dfy ===
/**
 * The auditor's shared vocabulary: comparison operators, result statuses,
 * and the clause tree that limits which courses a rule may match.
 */
module Clauses {

  import opened Documents

  /** The comparison operators of the specification language. */
  datatype Operator =
    | LessThan
    | LessThanOrEqualTo
    | GreaterThan
    | GreaterThanOrEqualTo
    | EqualTo
    | NotEqualTo
    | In
    | NotIn

  /** The status of an audited rule, clause or assertion. */
  datatype ResultStatus =
    | Done
    | Waived
    | NeedsMoreItems
    | FailedInvariant
    | Empty
    | Pending
    | PendingCurrent
    | PendingRegistered
    | PendingApproval

  /** A loaded clause: a single comparison, or an and/or of clauses. */
  datatype Clause =
    | SingleClause(key: string, expected: Data, expectedVerbatim: Data, operator: Operator, atMost: bool,
                   caption: Data, treatInProgressAsPass: Data, state: ResultStatus)
    | AndClause(children: seq<Clause>)
    | OrClause(children: seq<Clause>)

  /** A single clause as the claim bookkeeping builds it: `key == expected`, with default options. */
  function EqualsClause(key: string, expected: string): (r: Clause)
    ensures r.SingleClause? && r.key == key && r.operator == EqualTo
    ensures r.expected == Str(expected) && r.expectedVerbatim == Str(expected)
    ensures !r.atMost && r.state == Pending
  {
    SingleClause(key, Str(expected), Str(expected), EqualTo, false, Null, Bool(false), Pending)
  }
}

=== FILE: course_rules.dfy ===
/**
 * Course rules: a rule naming one course, and when a clause says the same
 * thing as the rule.
 */
module CourseRules {

  import opened Wrappers
  import opened Documents
  import opened Clauses
  import Strings

  /** The fields of a course rule that the auditor copies into a solution. */
  datatype CourseRule = CourseRule(
    course: string,
    clbid: Option<string>,
    crsid: Option<string>,
    hidden: bool,
    grade: Option<real>,
    allowClaimed: bool,
    path: seq<string>,
    ap: Option<string>,
    institution: Option<string>,
    name: Option<string>,
    inserted: bool,
    gradeOption: Option<string>,
    optional: bool,
    year: Option<int>,
    term: Option<string>,
    section: Option<string>,
    subType: Option<string>)

  /** The rule kind a course rule reports. */
  const CourseRuleType: string := "course"

  /** Python's `x in container` for a string `x`; containers that are not iterable raise. */
  function StrIn(x: string, container: Data): (r: Result<bool, PyError>)
    ensures r.Err? <==> !(container.Str? || container.List? || container.Tuple? || container.Dict?)
    ensures r.Err? ==> r.error == TypeError
    ensures (container.List? || container.Tuple?) ==> r == Ok(Str(x) in container.items)
    ensures container.Dict? ==> r == Ok(HasKey(container.entries, x))
    ensures container.Str? ==> r == Ok(Strings.Contains(container.s, x))
  {
    match container
    case Str(s) => Ok(Strings.Contains(s, x))
    case List(items) => Ok(Str(x) in items)
    case Tuple(items) => Ok(Str(x) in items)
    case Dict(entries) => Ok(HasKey(entries, x))
    case _ => Err(TypeError)
  }

  /**
   * `is_equivalent_to_clause`: only a clause on the `course` key can be;
   * with `==` its expected value must be exactly this course's name, with
   * `in` the name must be among the expected values, and any other operator
   * never is.
   */
  function IsEquivalentToClause(rule: CourseRule, clause: Clause): (r: Result<bool, PyError>)
    requires clause.SingleClause?
    ensures clause.key != "course" ==> r == Ok(false)
    ensures clause.key == "course" && clause.operator == EqualTo ==> r == Ok(clause.expected == Str(rule.course))
    ensures clause.key == "course" && clause.operator == In ==> r == StrIn(rule.course, clause.expected)
    ensures clause.operator !in {EqualTo, In} ==> r == Ok(false)
    ensures r.Ok? && r.value ==> clause.key == "course" && clause.operator in {EqualTo, In}
  {
    if clause.key != "course" then Ok(false)
    else if clause.operator == EqualTo then
      if !clause.expected.Str? then Ok(false) else Ok(rule.course == clause.expected.s)
    else if clause.operator == In then StrIn(rule.course, clause.expected)
    else Ok(false)
  }

  /**
   * A course rule is equivalent to the clause a claim made by a rule for
   * course `other` is recorded under exactly when both name the same course.
   */
  lemma CourseClauseEquivalent(rule: CourseRule, other: string)
    ensures IsEquivalentToClause(rule, EqualsClause("course", other)) == Ok(rule.course == other)
  {
  }

  /** Listing a course's name in an `in` clause makes the rule for it equivalent. */
  lemma ListedCourseEquivalent(rule: CourseRule, names: seq<string>, i: nat)
    requires i < |names| && names[i] == rule.course
    ensures IsEquivalentToClause(rule, SingleClause("course", Tuple(seq(|names|, k requires 0 <= k < |names| => Str(names[k]))),
                                                    Null, In, false, Null, Bool(false), Pending)) == Ok(true)
  {
    var items := seq(|names|, k requires 0 <= k < |names| => Str(names[k]));
    assert items[i] == Str(rule.course);
  }
}

=== FILE: course_solution.dfy ===
/**
 * A course rule's solution: the rule together with the transcript course
 * that may satisfy it, and the audit step that tries to claim that course.
 * The context that answers `has_claim` and `make_claim` here is passed in
 * as its state type and two functions.
 */
module CourseSolutions {

  import opened Wrappers
  import opened Documents
  import opened Clauses
  import opened Claims
  import opened CourseRules

  datatype CourseSolution = CourseSolution(
    rule: CourseRule,
    overridden: bool,
    forced: bool,
    fromClaimed: bool,
    matchedCourse: Option<CourseInstance>)

  datatype CourseResult = CourseResult(solution: CourseSolution, claimAttempt: Option<ClaimAttempt>, overridden: bool)

  /**
   * `from_rule`: every rule field is carried over except that a solution is
   * inserted when the rule is or the caller says so; forcing, overriding and
   * the matched course come from the caller. `from_claimed` keeps the
   * solution's own default, given here as `fromClaimedDefault`.
   */
  function FromRule(rule: CourseRule, course: Option<CourseInstance>, wasInserted: bool, wasForced: bool,
                    overridden: bool, fromClaimedDefault: bool): (s: CourseSolution)
    ensures s.rule.inserted == (rule.inserted || wasInserted)
    ensures s.rule == rule.(inserted := s.rule.inserted)
    ensures s.forced == wasForced && s.overridden == overridden && s.matchedCourse == course
    ensures s.fromClaimed == fromClaimedDefault
  {
    CourseSolution(rule.(inserted := rule.inserted || wasInserted), overridden, wasForced, fromClaimedDefault, course)
  }

  /**
   * `audit`: an overridden solution, a solution without a course, and a
   * claimed-only solution whose course nobody claimed all return without a
   * claim; otherwise exactly one claim is made, bypassing the bookkeeping
   * when the solution is forced or the rule allows claimed courses. On the
   * claimed-only path a failed claim is an assertion failure.
   */
  function Audit<S>(sol: CourseSolution, state: S, hasClaim: (S, string) -> bool,
                    makeClaim: (S, CourseInstance, seq<string>, bool) -> (ClaimAttempt, S)): (r: Result<(CourseResult, S), PyError>)
    ensures sol.overridden ==> r == Ok((CourseResult(sol, None, true), state))
    ensures !sol.overridden && sol.matchedCourse.None? ==> r == Ok((CourseResult(sol, None, false), state))
    ensures !sol.overridden && sol.matchedCourse.Some? && sol.fromClaimed && !hasClaim(state, sol.matchedCourse.value.clbid) ==>
              r == Ok((CourseResult(sol, None, false), state))
    ensures r.Err? ==> r.error == AssertionError && sol.fromClaimed
    ensures r.Ok? && r.value.0.claimAttempt.Some? ==>
              sol.matchedCourse.Some? && !sol.overridden && !r.value.0.overridden &&
              (r.value.0.claimAttempt.value, r.value.1) ==
                makeClaim(state, sol.matchedCourse.value, sol.rule.path, sol.forced || sol.rule.allowClaimed)
    ensures r.Ok? && sol.fromClaimed && r.value.0.claimAttempt.Some? ==> !r.value.0.claimAttempt.value.failed
    ensures r.Ok? ==> r.value.0.solution == sol
    ensures r.Ok? && r.value.0.claimAttempt.None? ==> r.value.1 == state
    ensures !sol.overridden && sol.matchedCourse.Some? && !(sol.fromClaimed && !hasClaim(state, sol.matchedCourse.value.clbid)) ==>
              var m := makeClaim(state, sol.matchedCourse.value, sol.rule.path, sol.forced || sol.rule.allowClaimed);
              (r.Err? <==> sol.fromClaimed && m.0.failed) &&
              (r.Ok? ==> r.value == (CourseResult(sol, Some(m.0), false), m.1))
  {
    if sol.overridden then Ok((CourseResult(sol, None, sol.overridden), state))
    else if sol.matchedCourse.None? then Ok((CourseResult(sol, None, false), state))
    else if sol.fromClaimed && !hasClaim(state, sol.matchedCourse.value.clbid) then Ok((CourseResult(sol, None, false), state))
    else
      var (claim, state') := makeClaim(state, sol.matchedCourse.value, sol.rule.path, sol.forced || sol.rule.allowClaimed);
      if sol.fromClaimed && claim.failed then Err(AssertionError)
      else Ok((CourseResult(sol, Some(claim), false), state'))
  }

  /** A claim under `course == <the rule's course>`, made against a claims map. */
  function ClaimAsCourseRule(claims: ClaimMap, multicountable: seq<seq<Clause>>, isSubset: (Clause, Clause) -> bool,
                             ruleCourse: string, course: CourseInstance, path: seq<string>, allowClaimed: bool)
    : (r: (ClaimAttempt, ClaimMap))
    ensures r.0.claim.value == EqualsClause("course", ruleCourse)
    ensures allowClaimed ==> !r.0.failed && r.1 == claims
    ensures r.0.failed ==> r.1 == claims
  {
    var claimant := CourseRuleArg(ruleCourse, false);
    var attempt := MakeClaim(claims, multicountable, isSubset, course, path, claimant, allowClaimed);
    attempt.value
  }

  /**
   * Audited against the claim bookkeeping, a forced solution never conflicts
   * and leaves the claims as they were; an unforced one that does not allow
   * claimed courses, whose course has no claims yet, records its claim.
   */
  lemma AuditAgainstClaims(sol: CourseSolution, claims: ClaimMap, multicountable: seq<seq<Clause>>,
                           isSubset: (Clause, Clause) -> bool)
    requires !sol.overridden && sol.matchedCourse.Some? && !sol.fromClaimed
    ensures var r := Audit(sol, claims, (m: ClaimMap, k: string) => Prior(m, k) != {},
                           (m, c, p, a) => ClaimAsCourseRule(m, multicountable, isSubset, sol.rule.course, c, p, a));
            r.Ok? && r.value.0.claimAttempt.Some? &&
            (sol.forced ==> !r.value.0.claimAttempt.value.failed && r.value.1 == claims) &&
            (!sol.forced && !sol.rule.allowClaimed && Prior(claims, sol.matchedCourse.value.clbid) == {} ==>
               !r.value.0.claimAttempt.value.failed &&
               r.value.0.claimAttempt.value.claim in Prior(r.value.1, sol.matchedCourse.value.clbid))
  {
  }

  /**
   * On the claimed-only path, audited against the claim bookkeeping: a course
   * nobody claimed is skipped; a claimed one is claimed again without
   * conflict when forced or when the rule allows claimed courses; and
   * without multicountable sets an unforced second claim is an assertion
   * failure.
   */
  lemma ClaimedOnlyAgainstClaims(sol: CourseSolution, claims: ClaimMap, multicountable: seq<seq<Clause>>,
                                 isSubset: (Clause, Clause) -> bool)
    requires !sol.overridden && sol.matchedCourse.Some? && sol.fromClaimed
    ensures var r := Audit(sol, claims, (m: ClaimMap, k: string) => Prior(m, k) != {},
                           (m, c, p, a) => ClaimAsCourseRule(m, multicountable, isSubset, sol.rule.course, c, p, a));
            var clbid := sol.matchedCourse.value.clbid;
            (Prior(claims, clbid) == {} ==> r == Ok((CourseResult(sol, None, false), claims))) &&
            (Prior(claims, clbid) != {} && (sol.forced || sol.rule.allowClaimed) ==>
               r.Ok? && r.value.0.claimAttempt.Some? && !r.value.0.claimAttempt.value.failed && r.value.1 == claims) &&
            (Prior(claims, clbid) != {} && !sol.forced && !sol.rule.allowClaimed && multicountable == [] ==>
               r == Err(AssertionError))
  {
    var course := sol.matchedCourse.value;
    if Prior(claims, course.clbid) != {} && !sol.forced && !sol.rule.allowClaimed && multicountable == [] {
      var m := ClaimAsCourseRule(claims, [], isSubset, sol.rule.course, course, sol.rule.path, false);
      assert FirstCovering([], ClauseValues(Prior(claims, course.clbid)) + {EqualsClause("course", sol.rule.course)}, isSubset).None?;
      assert m.0.failed;
    }
  }
}

=== FILE: csv_records.dfy ===
/**
 * The tabular export of course and conditional rules: each rule flattens to
 * a list of (header, body) pairs, and a waived ancestor or a waived rule
 * marks its unresolved courses as waived.
 */
module CsvRecords {

  import opened Wrappers
  import opened Formatting

  /** A formatted course rule: the claims on it and the course it names. */
  datatype CourseRule = CourseRule(claims: seq<string>, status: RuleStatus, course: string)

  /**
   * A formatted rule, as far as the export walks it. Rules whose records are
   * not part of this model carry their own record and requirement functions.
   */
  datatype Rule =
    | CourseNode(rule: CourseRule)
    | ConditionalNode(status: RuleStatus, whenTrue: Rule, whenFalse: Option<Rule>)
    | OtherNode(record: bool -> seq<(string, string)>, requirements: seq<string>)

  /** The course on a course rule: the first claim's course, when the transcript has it. */
  function ClaimedCourse(rule: CourseRule, lookup: ClassLookup): (r: Option<StudentCourse>)
    ensures |rule.claims| == 0 ==> r.None?
    ensures |rule.claims| > 0 ==> r == lookup(rule.claims[0])
  {
    if |rule.claims| > 0 then lookup(rule.claims[0]) else None
  }

  /** `CourseRule::get_record`: one pair, headed by the course. */
  function CourseRecord(rule: CourseRule, lookup: ClassLookup, waived: bool): (r: seq<(string, string)>)
    ensures |r| == 1 && r[0].0 == rule.course
    ensures ClaimedCourse(rule, lookup).Some? ==> r[0].1 == ClaimedCourse(rule, lookup).value.semiVerbose
    ensures ClaimedCourse(rule, lookup).None? ==>
              r[0].1 == (if waived || IsWaived(rule.status) then "<waived>"
                         else if rule.status == Empty then " "
                         else DebugName(rule.status))
  {
    var waived := waived || IsWaived(rule.status);
    var body := match ClaimedCourse(rule, lookup)
                case Some(c) => c.semiVerbose
                case None => if waived then "<waived>" else if rule.status == Empty then " " else DebugName(rule.status);
    [(rule.course, body)]
  }

  /** Only the first claim decides the body: later claims never show. */
  lemma OnlyFirstClaimCounts(rule: CourseRule, extra: seq<string>, lookup: ClassLookup, waived: bool)
    requires |rule.claims| > 0
    ensures CourseRecord(rule.(claims := rule.claims + extra), lookup, waived) == CourseRecord(rule, lookup, waived)
  {
    assert (rule.claims + extra)[0] == rule.claims[0];
  }

  /** A waived rule reads the same whatever it inherits. */
  lemma {:induction false} OwnWaiverSuffices(r: Rule, lookup: ClassLookup)
    requires !r.OtherNode?
    requires IsWaived(if r.CourseNode? then r.rule.status else r.status)
    ensures Record(r, lookup, false) == Record(r, lookup, true)
  {
  }

  /** `get_record` over the rule tree. */
  function Record(r: Rule, lookup: ClassLookup, waived: bool): (out: seq<(string, string)>)
    ensures r.CourseNode? ==> out == CourseRecord(r.rule, lookup, waived)
    ensures r.ConditionalNode? ==> |out| >= 1 && out[0] == ("cond", "?")
    ensures r.ConditionalNode? ==>
              var w := waived || IsWaived(r.status);
              out == [("cond", "?")] + Record(r.whenTrue, lookup, w) +
                     (if r.whenFalse.Some? then Record(r.whenFalse.value, lookup, w) else [])
  {
    match r
    case CourseNode(rule) => CourseRecord(rule, lookup, waived)
    case ConditionalNode(status, whenTrue, whenFalse) =>
      var waived := waived || IsWaived(status);
      var ifFalse := match whenFalse
                     case Some(b) => Record(b, lookup, waived)
                     case None => [];
      [("cond", "?")] + Record(whenTrue, lookup, waived) + ifFalse
    case OtherNode(record, _) => record(waived)
  }

  /** `get_requirements` over the rule tree: a course rule has none. */
  function Requirements(r: Rule): (out: seq<string>)
    ensures r.CourseNode? ==> out == []
  {
    match r
    case CourseNode(_) => []
    case ConditionalNode(_, whenTrue, whenFalse) =>
      Requirements(whenTrue) + (match whenFalse case Some(b) => Requirements(b) case None => [])
    case OtherNode(_, reqs) => reqs
  }

  /** The rule tree has no nodes outside this model. */
  predicate Closed(r: Rule)
  {
    match r
    case CourseNode(_) => true
    case ConditionalNode(_, t, f) => Closed(t) && (f.Some? ==> Closed(f.value))
    case OtherNode(_, _) => false
  }

  /** The headers of a tree's records: `cond` for each conditional, the course for each course rule, in order. */
  function Outline(r: Rule): seq<string>
    requires Closed(r)
  {
    match r
    case CourseNode(rule) => [rule.course]
    case ConditionalNode(_, t, f) => ["cond"] + Outline(t) + (if f.Some? then Outline(f.value) else [])
  }

  function Headers(pairs: seq<(string, string)>): (r: seq<string>)
    ensures |r| == |pairs| && forall i :: 0 <= i < |pairs| ==> r[i] == pairs[i].0
  {
    seq(|pairs|, i requires 0 <= i < |pairs| => pairs[i].0)
  }

  /**
   * Both branches of every conditional are exported, whatever its
   * condition, and the headers depend on neither the student nor waivers.
   */
  lemma {:induction false} HeadersFollowOutline(r: Rule, lookup: ClassLookup, waived: bool)
    requires Closed(r)
    ensures Headers(Record(r, lookup, waived)) == Outline(r)
    decreases r
  {
    match r
    case CourseNode(_) =>
    case ConditionalNode(status, t, f) =>
      var w := waived || IsWaived(status);
      HeadersFollowOutline(t, lookup, w);
      var ifFalse := if f.Some? then Record(f.value, lookup, w) else [];
      if f.Some? {
        HeadersFollowOutline(f.value, lookup, w);
      }
      var head: seq<(string, string)> := [("cond", "?")];
      assert Record(r, lookup, waived) == head + Record(t, lookup, w) + ifFalse;
      HeadersConcat(head, Record(t, lookup, w));
      HeadersConcat(head + Record(t, lookup, w), ifFalse);
      assert Headers(head) == ["cond"];
      assert Headers(ifFalse) == (if f.Some? then Outline(f.value) else []);
  }

  lemma HeadersConcat(a: seq<(string, string)>, b: seq<(string, string)>)
    ensures Headers(a + b) == Headers(a) + Headers(b)
  {
  }

  /** No course rule in the tree has a course the transcript resolves. */
  predicate Unresolved(r: Rule, lookup: ClassLookup)
  {
    match r
    case CourseNode(rule) => ClaimedCourse(rule, lookup).None?
    case ConditionalNode(_, t, f) => Unresolved(t, lookup) && (f.Some? ==> Unresolved(f.value, lookup))
    case OtherNode(_, _) => false
  }

  /** Under a waiver, every unresolved course of the tree is exported as `<waived>`. */
  lemma {:induction false} WaiverReachesEveryCourse(r: Rule, lookup: ClassLookup)
    requires Unresolved(r, lookup)
    ensures forall i :: 0 <= i < |Record(r, lookup, true)| ==>
              Record(r, lookup, true)[i] == ("cond", "?") || Record(r, lookup, true)[i].1 == "<waived>"
    decreases r
  {
    match r
    case CourseNode(_) =>
    case ConditionalNode(_, t, f) =>
      WaiverReachesEveryCourse(t, lookup);
      if f.Some? {
        WaiverReachesEveryCourse(f.value, lookup);
      }
  }

  /** No rule anywhere in the tree is waived. */
  predicate NoWaiver(r: Rule)
  {
    match r
    case CourseNode(rule) => !IsWaived(rule.status)
    case ConditionalNode(status, t, f) => !IsWaived(status) && NoWaiver(t) && (f.Some? ==> NoWaiver(f.value))
    case OtherNode(_, _) => true
  }

  /** The rules of a tree in export order: `None` for each conditional, the course rule for each course. */
  function Pieces(r: Rule): seq<Option<CourseRule>>
    requires Closed(r)
  {
    match r
    case CourseNode(rule) => [Some(rule)]
    case ConditionalNode(_, t, f) => [None] + Pieces(t) + (if f.Some? then Pieces(f.value) else [])
  }

  /** The pair a single piece exports on its own. */
  function PieceRecord(p: Option<CourseRule>, lookup: ClassLookup, waived: bool): (string, string)
  {
    match p
    case None => ("cond", "?")
    case Some(c) => CourseRecord(c, lookup, waived)[0]
  }

  /** The pairs `pairs` are, position by position, the records of `pieces`. */
  predicate RecordsOf(pairs: seq<(string, string)>, pieces: seq<Option<CourseRule>>, lookup: ClassLookup, waived: bool)
  {
    |pairs| == |pieces| && forall i :: 0 <= i < |pieces| ==> pairs[i] == PieceRecord(pieces[i], lookup, waived)
  }

  lemma RecordsOfConcat(a: seq<(string, string)>, pa: seq<Option<CourseRule>>,
                        b: seq<(string, string)>, pb: seq<Option<CourseRule>>, lookup: ClassLookup, waived: bool)
    requires RecordsOf(a, pa, lookup, waived) && RecordsOf(b, pb, lookup, waived)
    ensures RecordsOf(a + b, pa + pb, lookup, waived)
  {
    forall i | 0 <= i < |pa + pb|
      ensures (a + b)[i] == PieceRecord((pa + pb)[i], lookup, waived)
    {
      if i < |pa| {
        assert (a + b)[i] == a[i] && (pa + pb)[i] == pa[i];
      } else {
        assert (a + b)[i] == b[i - |a|] && (pa + pb)[i] == pb[i - |pa|];
      }
    }
  }

  /**
   * With no waiver anywhere in the tree, the export is, in order, `("cond", "?")`
   * for each conditional and each course rule's own record under the inherited
   * flag: both branches of every conditional, true branch first, with nothing
   * marked waived that the caller did not mark.
   */
  lemma {:induction false} UnwaivedRecordFollowsPieces(r: Rule, lookup: ClassLookup, waived: bool)
    requires Closed(r) && NoWaiver(r)
    ensures RecordsOf(Record(r, lookup, waived), Pieces(r), lookup, waived)
    decreases r
  {
    match r
    case CourseNode(_) =>
    case ConditionalNode(status, t, f) =>
      UnwaivedRecordFollowsPieces(t, lookup, waived);
      var head: seq<(string, string)> := [("cond", "?")];
      var none: seq<Option<CourseRule>> := [None];
      assert RecordsOf(head, none, lookup, waived);
      RecordsOfConcat(head, none, Record(t, lookup, waived), Pieces(t), lookup, waived);
      if f.Some? {
        UnwaivedRecordFollowsPieces(f.value, lookup, waived);
        RecordsOfConcat(head + Record(t, lookup, waived), none + Pieces(t),
                        Record(f.value, lookup, waived), Pieces(f.value), lookup, waived);
      } else {
        assert Record(r, lookup, waived) == head + Record(t, lookup, waived);
        assert Pieces(r) == none + Pieces(t);
      }
  }

  /** Unwaived and not inherited, an unresolved course rule inside any such tree shows its status, never `<waived>`. */
  lemma UnwaivedCourseShowsStatus(r: Rule, lookup: ClassLookup, i: nat)
    requires Closed(r) && NoWaiver(r) && i < |Pieces(r)| && Pieces(r)[i].Some?
    requires ClaimedCourse(Pieces(r)[i].value, lookup).None?
    ensures var c := Pieces(r)[i].value;
            && |Record(r, lookup, false)| == |Pieces(r)|
            && Record(r, lookup, false)[i] == (c.course, if c.status == Empty then " " else DebugName(c.status))
  {
    UnwaivedRecordFollowsPieces(r, lookup, false);
    PiecesUnwaived(r);
  }

  lemma {:induction false} PiecesUnwaived(r: Rule)
    requires Closed(r) && NoWaiver(r)
    ensures forall i :: 0 <= i < |Pieces(r)| && Pieces(r)[i].Some? ==> !IsWaived(Pieces(r)[i].value.status)
    decreases r
  {
    match r
    case CourseNode(_) =>
    case ConditionalNode(_, t, f) =>
      PiecesUnwaived(t);
      if f.Some? {
        PiecesUnwaived(f.value);
      }
  }

  /** The requirements of a conditional: those of the true branch, then those of the false branch. */
  lemma ConditionalRequirements(status: RuleStatus, t: Rule, f: Rule)
    ensures Requirements(ConditionalNode(status, t, Some(f))) == Requirements(t) + Requirements(f)
    ensures Requirements(ConditionalNode(status, t, None)) == Requirements(t)
  {
  }

  /** A tree of course and conditional rules has no requirements. */
  lemma {:induction false} ClosedTreeHasNoRequirements(r: Rule)
    requires Closed(r)
    ensures Requirements(r) == []
    decreases r
  {
    match r
    case CourseNode(_) =>
    case ConditionalNode(_, t, f) =>
      ClosedTreeHasNoRequirements(t);
      if f.Some? {
        ClosedTreeHasNoRequirements(f.value);
      }
  }
}

=== FILE: documents.dfy ===
/**
 * Loaded area-specification documents (parsed YAML) as the auditor's
 * loaders see them, and the Python exceptions the loaders raise.
 */
module Documents {

  import opened Wrappers

  /** A document node. A mapping keeps its entries in insertion order. */
  datatype Data =
    | Null
    | Bool(b: bool)
    | Int(i: int)
    | Float(f: real)
    | Decimal(d: real)
    | Str(s: string)
    | List(items: seq<Data>)
    | Tuple(items: seq<Data>)
    | Dict(entries: seq<Entry>)

  datatype Entry = Entry(key: string, value: Data)

  /** The exception classes the loaders and the claim bookkeeping raise. */
  datatype PyError =
    | TypeError
    | ValueError
    | AssertionError
    | KeyError
    | IndexError
    | AttributeError
    | InvalidOperation
    | Exception

  /** Python truthiness of a document node. */
  predicate Truthy(d: Data)
  {
    match d
    case Null => false
    case Bool(b) => b
    case Int(i) => i != 0
    case Float(f) => f != 0.0
    case Decimal(x) => x != 0.0
    case Str(s) => |s| > 0
    case List(items) => |items| > 0
    case Tuple(items) => |items| > 0
    case Dict(entries) => |entries| > 0
  }

  function Keys(entries: seq<Entry>): (r: seq<string>)
    ensures |r| == |entries|
    ensures forall i :: 0 <= i < |r| ==> r[i] == entries[i].key
  {
    if |entries| == 0 then [] else [entries[0].key] + Keys(entries[1..])
  }

  predicate HasKey(entries: seq<Entry>, k: string)
  {
    exists i :: 0 <= i < |entries| && entries[i].key == k
  }

  /** Subscripting a mapping: the entry stored under `k`, if any. */
  function Get(entries: seq<Entry>, k: string): (r: Option<Data>)
    ensures r.Some? <==> HasKey(entries, k)
    ensures r.Some? ==> exists i :: 0 <= i < |entries| && entries[i] == Entry(k, r.value)
  {
    if |entries| == 0 then None
    else if entries[0].key == k then Some(entries[0].value)
    else Get(entries[1..], k)
  }

  /** A value found in a mapping is part of it, so recursion into it terminates. */
  lemma GetIsSmaller(entries: seq<Entry>, k: string)
    ensures Get(entries, k).Some? ==> Get(entries, k).value < Dict(entries)
  {
    if Get(entries, k).Some? {
      var i :| 0 <= i < |entries| && entries[i] == Entry(k, Get(entries, k).value);
      assert entries[i] < Dict(entries);
    }
  }

  /** `dict.get(k, default)`. */
  function GetOr(entries: seq<Entry>, k: string, default: Data): (r: Data)
    ensures !HasKey(entries, k) ==> r == default
    ensures HasKey(entries, k) ==> Some(r) == Get(entries, k)
  {
    match Get(entries, k)
    case Some(v) => v
    case None => default
  }

  /** Iterating a node: a string yields its characters, a mapping its keys; scalars are not iterable. */
  function Iterate(d: Data): (r: Result<seq<Data>, PyError>)
    ensures r.Err? <==> !(d.Str? || d.List? || d.Tuple? || d.Dict?)
    ensures r.Err? ==> r.error == TypeError
    ensures d.List? || d.Tuple? ==> r == Ok(d.items)
    ensures d.Str? ==> r.Ok? && |r.value| == |d.s| && forall i :: 0 <= i < |d.s| ==> r.value[i] == Str([d.s[i]])
    ensures d.Dict? ==> r.Ok? && |r.value| == |d.entries| && forall i :: 0 <= i < |d.entries| ==> r.value[i] == Str(d.entries[i].key)
  {
    match d
    case Str(s) => Ok(seq(|s|, i requires 0 <= i < |s| => Str([s[i]])))
    case List(items) => Ok(items)
    case Tuple(items) => Ok(items)
    case Dict(entries) => Ok(seq(|entries|, i requires 0 <= i < |entries| => Str(entries[i].key)))
    case _ => Err(TypeError)
  }
}

=== FILE: formatting.dfy ===
/**
 * What the report formatter knows of a rule's status and of the student's
 * courses, as far as the tabular records need it.
 */
module Formatting {

  import opened Wrappers

  /**
   * A formatted rule's status. Only waiving and emptiness matter to the
   * records; any other status is printed by its variant name.
   */
  datatype RuleStatus = Waived | Empty | OtherStatus(debugName: string)

  predicate IsWaived(s: RuleStatus) { s.Waived? }

  /** `format!("{:?}", status)`: the variant's name. */
  function DebugName(s: RuleStatus): (r: string)
    ensures s.Waived? ==> r == "Waived"
    ensures s.Empty? ==> r == "Empty"
    ensures s.OtherStatus? ==> r == s.debugName
  {
    match s
    case Waived => "Waived"
    case Empty => "Empty"
    case OtherStatus(n) => n
  }

  /** A course of the student's transcript, with its one-line description. */
  datatype StudentCourse = StudentCourse(clbid: string, semiVerbose: string)

  /** `student.get_class_by_clbid`. */
  type ClassLookup = string -> Option<StudentCourse>
}

=== FILE: predicates.dfy ===
/**
 * Predicate expressions: the `$if` conditions of an area specification.
 * They are loaded from a mapping, and predicates over static facts of the
 * student (courses taken, declared areas, proficiency exams) are decided
 * while loading. The student's facts are an oracle parameter.
 */
module Predicates {

  import opened Wrappers
  import opened Documents

  datatype PredicateFunction =
    | HasIpCourse
    | HasCompletedCourse
    | HasCourse
    | PassedProficiencyExam
    | HasDeclaredAreaCode
    | RequirementIsSatisfied

  function FunctionName(f: PredicateFunction): string
  {
    match f
    case HasIpCourse => "has-ip-course"
    case HasCompletedCourse => "has-completed-course"
    case HasCourse => "has-course"
    case PassedProficiencyExam => "passed-proficiency-exam"
    case HasDeclaredAreaCode => "has-declared-area-code"
    case RequirementIsSatisfied => "requirement-is-satisfied"
  }

  /** `PredicateExpressionFunction(name)`: the function a name stands for, if any. */
  function FunctionNamed(name: string): (r: Option<PredicateFunction>)
    ensures r.Some? <==> name in {"has-ip-course", "has-completed-course", "has-course", "passed-proficiency-exam",
                                  "has-declared-area-code", "requirement-is-satisfied"}
    ensures r.Some? ==> FunctionName(r.value) == name
  {
    if name == "has-ip-course" then Some(HasIpCourse)
    else if name == "has-completed-course" then Some(HasCompletedCourse)
    else if name == "has-course" then Some(HasCourse)
    else if name == "passed-proficiency-exam" then Some(PassedProficiencyExam)
    else if name == "has-declared-area-code" then Some(HasDeclaredAreaCode)
    else if name == "requirement-is-satisfied" then Some(RequirementIsSatisfied)
    else None
  }

  lemma FunctionNameRoundTrip(f: PredicateFunction)
    ensures FunctionNamed(FunctionName(f)) == Some(f)
  {
  }

  /** The functions decided while loading: all but `requirement-is-satisfied`. */
  predicate IsStatic(f: PredicateFunction)
  {
    f in {HasDeclaredAreaCode, PassedProficiencyExam, HasCourse, HasCompletedCourse, HasIpCourse}
  }

  /** The student facts the static functions consult. */
  datatype Oracle = Oracle(
    hasDeclaredAreaCode: string -> bool,
    hasCourse: string -> bool,
    hasIpCourse: string -> bool,
    hasCompletedCourse: string -> bool,
    passedExam: string -> bool)

  /** `evaluate_predicate_function`: asks the oracle; a function that is not static raises. */
  function EvaluatePredicateFunction(f: PredicateFunction, argument: string, o: Oracle): (r: Result<bool, PyError>)
    ensures r.Err? <==> !IsStatic(f)
    ensures r.Err? ==> r.error == TypeError
    ensures f == HasCourse ==> r == Ok(o.hasCourse(argument))
    ensures f == HasDeclaredAreaCode ==> r == Ok(o.hasDeclaredAreaCode(argument))
    ensures f == PassedProficiencyExam ==> r == Ok(o.passedExam(argument))
    ensures f == HasIpCourse ==> r == Ok(o.hasIpCourse(argument))
    ensures f == HasCompletedCourse ==> r == Ok(o.hasCompletedCourse(argument))
  {
    match f
    case HasDeclaredAreaCode => Ok(o.hasDeclaredAreaCode(argument))
    case HasCourse => Ok(o.hasCourse(argument))
    case HasIpCourse => Ok(o.hasIpCourse(argument))
    case HasCompletedCourse => Ok(o.hasCompletedCourse(argument))
    case PassedProficiencyExam => Ok(o.passedExam(argument))
    case RequirementIsSatisfied => Err(TypeError)
  }

  /** A loaded predicate expression; `result` is what is known about it so far. */
  datatype Expr =
    | AndExpr(exprs: seq<Expr>, result: Option<bool>)
    | OrExpr(exprs: seq<Expr>, result: Option<bool>)
    | NotExpr(expr: Expr, result: Option<bool>)
    | Single(fn: PredicateFunction, argument: string, result: Option<bool>)

  /** Python truthiness of an optional boolean. */
  predicate Holds(r: Option<bool>) { r == Some(true) }

  /** Collecting loaded children in order; the first failure is the one raised. */
  function FirstError(rs: seq<Result<Expr, PyError>>): (r: Result<seq<Expr>, PyError>)
    ensures r.Ok? <==> forall i :: 0 <= i < |rs| ==> rs[i].Ok?
    ensures r.Ok? ==> |r.value| == |rs| && forall i :: 0 <= i < |rs| ==> rs[i] == Ok(r.value[i])
    ensures r.Err? ==> exists i :: 0 <= i < |rs| && rs[i] == Err(r.error) && forall j :: 0 <= j < i ==> rs[j].Ok?
  {
    if |rs| == 0 then Ok([])
    else if rs[0].Err? then Err(rs[0].error)
    else
      match FirstError(rs[1..])
      case Ok(es) => Ok([rs[0].value] + es)
      case Err(e) =>
        assert forall j :: 1 <= j < |rs| ==> rs[j] == rs[1..][j - 1];
        Err(e)
  }

  /** `PredicateExpression.can_load`: exactly one key, and it names a function. */
  predicate CanLoadSingle(entries: seq<Entry>)
  {
    |entries| == 1 && FunctionNamed(entries[0].key).Some?
  }

  /** Every child's loaded result holds. */
  predicate AllHold(es: seq<Expr>) { forall i :: 0 <= i < |es| ==> Holds(es[i].result) }

  /** Some child's loaded result holds. */
  predicate AnyHolds(es: seq<Expr>) { exists i :: 0 <= i < |es| && Holds(es[i].result) }

  /**
   * `load_predicate_expression`: `$and`, then `$or`, then `$not`, then a
   * single function call; anything else raises. A value that is not a
   * mapping fails on the first mapping operation it meets. The children of
   * `$and`/`$or` are the loaded list elements in order, the first failure
   * raised; the child of `$not` is the loaded value.
   */
  function Load(data: Data, o: Oracle): (r: Result<Expr, PyError>)
    decreases data, 1
    ensures !data.Dict? ==> r == Err(if data.Str? || data.List? || data.Tuple? then AttributeError else TypeError)
    ensures data.Dict? && HasKey(data.entries, "$and") ==>
              (r.Ok? ==> r.value.AndExpr? && r.value.result == Some(AllHold(r.value.exprs))) &&
              (|data.entries| != 1 ==> r == Err(AssertionError))
    ensures data.Dict? && !HasKey(data.entries, "$and") && HasKey(data.entries, "$or") ==>
              (r.Ok? ==> r.value.OrExpr? && r.value.result == Some(AnyHolds(r.value.exprs))) &&
              (|data.entries| != 1 ==> r == Err(AssertionError))
    ensures data.Dict? && |data.entries| == 1 && data.entries[0].key in {"$and", "$or"} ==>
              var v := data.entries[0].value;
              (!v.List? ==> r == Err(AssertionError)) &&
              (v.List? ==>
                 (r.Ok? <==> forall i :: 0 <= i < |v.items| ==> Load(v.items[i], o).Ok?) &&
                 (r.Ok? ==> |r.value.exprs| == |v.items| && forall i :: 0 <= i < |v.items| ==> Load(v.items[i], o) == Ok(r.value.exprs[i])) &&
                 (r.Err? ==> exists i :: 0 <= i < |v.items| && Load(v.items[i], o) == r &&
                                         forall j :: 0 <= j < i ==> Load(v.items[j], o).Ok?))
    ensures data.Dict? && !HasKey(data.entries, "$and") && !HasKey(data.entries, "$or") && HasKey(data.entries, "$not") ==>
              (r.Ok? ==> r.value.NotExpr? && r.value.result == r.value.expr.result) &&
              (|data.entries| != 1 ==> r == Err(AssertionError))
    ensures data.Dict? && |data.entries| == 1 && data.entries[0].key == "$not" ==>
              (Load(data.entries[0].value, o).Err? ==> r == Load(data.entries[0].value, o)) &&
              (Load(data.entries[0].value, o).Ok? ==> r == Ok(NotExpr(Load(data.entries[0].value, o).value, Load(data.entries[0].value, o).value.result)))
    ensures data.Dict? && !HasKey(data.entries, "$and") && !HasKey(data.entries, "$or") && !HasKey(data.entries, "$not") ==>
              (!CanLoadSingle(data.entries) ==> r == Err(TypeError)) &&
              (CanLoadSingle(data.entries) ==>
                 (r.Ok? <==> data.entries[0].value.Str?) &&
                 (r.Ok? ==> r.value == Single(FunctionNamed(data.entries[0].key).value, data.entries[0].value.s,
                                              if IsStatic(FunctionNamed(data.entries[0].key).value)
                                              then Some(EvaluatePredicateFunction(FunctionNamed(data.entries[0].key).value,
                                                                                  data.entries[0].value.s, o).value)
                                              else None)))
  {
    match data
    case Dict(entries) =>
      if HasKey(entries, "$and") || HasKey(entries, "$or") then
        var k := if HasKey(entries, "$and") then "$and" else "$or";
        if |entries| != 1 then Err(AssertionError)
        else
          OnlyEntry(entries, k);
          var v := entries[0].value;
          if !v.List? then Err(AssertionError)
          else
            match LoadList(v.items, v, o)
            case Err(e) => Err(e)
            case Ok(es) =>
              if k == "$and" then Ok(AndExpr(es, Some(AllHold(es)))) else Ok(OrExpr(es, Some(AnyHolds(es))))
      else if HasKey(entries, "$not") then
        if |entries| != 1 then Err(AssertionError)
        else
          OnlyEntry(entries, "$not");
          match Load(entries[0].value, o)
          case Err(e) => Err(e)
          case Ok(child) => Ok(NotExpr(child, child.result))
      else if CanLoadSingle(entries) then
        var f := FunctionNamed(entries[0].key).value;
        var argument := entries[0].value;
        if !argument.Str? then Err(AssertionError)
        else if IsStatic(f) then Ok(Single(f, argument.s, Some(EvaluatePredicateFunction(f, argument.s, o).value)))
        else Ok(Single(f, argument.s, None))
      else Err(TypeError)
    case Str(_) => Err(AttributeError)
    case List(_) => Err(AttributeError)
    case Tuple(_) => Err(AttributeError)
    case _ => Err(TypeError)
  }

  /** Loading the elements of a `$and`/`$or` list in order; the first failure is the one raised. */
  function LoadList(items: seq<Data>, v: Data, o: Oracle): (r: Result<seq<Expr>, PyError>)
    requires v.List? && v.items == items
    decreases v, 0
    ensures r.Ok? <==> forall i :: 0 <= i < |items| ==> Load(items[i], o).Ok?
    ensures r.Ok? ==> |r.value| == |items| && forall i :: 0 <= i < |items| ==> Load(items[i], o) == Ok(r.value[i])
    ensures r.Err? ==> exists i :: 0 <= i < |items| && Load(items[i], o) == Err(r.error) &&
                                   forall j :: 0 <= j < i ==> Load(items[j], o).Ok?
  {
    var rs := seq(|items|, i requires 0 <= i < |items| => Load(items[i], o));
    assert forall i :: 0 <= i < |items| ==> rs[i] == Load(items[i], o);
    FirstError(rs)
  }

  /** In a one-entry mapping, a key it has is the key of its entry. */
  lemma OnlyEntry(entries: seq<Entry>, k: string)
    requires |entries| == 1 && HasKey(entries, k)
    ensures entries[0].key == k && Get(entries, k) == Some(entries[0].value)
  {
  }

  // ----- checking an expression again -----

  /** The expression mentions only static functions. */
  predicate AllStatic(e: Expr)
  {
    match e
    case AndExpr(es, _) => forall i :: 0 <= i < |es| ==> AllStatic(es[i])
    case OrExpr(es, _) => forall i :: 0 <= i < |es| ==> AllStatic(es[i])
    case NotExpr(c, _) => AllStatic(c)
    case Single(f, _, _) => IsStatic(f)
  }

  /**
   * `check` as the code does it: the compound forms test the truthiness of
   * the object each child's `evaluate` returns, which is always true. So
   * `$and` holds once every child evaluates, `$or` holds as soon as a first
   * child evaluates, and `$not` never holds.
   */
  function CheckAsWritten(e: Expr, o: Oracle): (r: Result<bool, PyError>)
    decreases e, 1
  {
    match e
    case Single(f, a, _) => EvaluatePredicateFunction(f, a, o)
    case AndExpr(es, _) => (match EvaluateAllAsWritten(es, o, 0) case Err(x) => Err(x) case Ok(_) => Ok(true))
    case OrExpr(es, _) =>
      if |es| == 0 then Ok(false)
      else (match CheckAsWritten(es[0], o) case Err(x) => Err(x) case Ok(_) => Ok(true))
    case NotExpr(c, _) => (match CheckAsWritten(c, o) case Err(x) => Err(x) case Ok(_) => Ok(false))
  }

  function EvaluateAllAsWritten(es: seq<Expr>, o: Oracle, i: nat): Result<bool, PyError>
    requires i <= |es|
    decreases es, 0, |es| - i
  {
    if i == |es| then Ok(true)
    else
      match CheckAsWritten(es[i], o)
      case Err(x) => Err(x)
      case Ok(_) => EvaluateAllAsWritten(es, o, i + 1)
  }

  /** As written, a `$not` never holds, and a `$and` never fails to hold. */
  lemma CheckAsWrittenConstant(e: Expr, o: Oracle)
    ensures e.NotExpr? ==> CheckAsWritten(e, o) != Ok(true)
    ensures e.AndExpr? ==> CheckAsWritten(e, o) != Ok(false)
  {
  }

  /** `check` as evidently intended: combine the children's own results. */
  function Check(e: Expr, o: Oracle): (r: Result<bool, PyError>)
    decreases e, 1
  {
    match e
    case Single(f, a, _) => EvaluatePredicateFunction(f, a, o)
    case AndExpr(es, _) => CheckAll(es, o, 0)
    case OrExpr(es, _) => CheckAny(es, o, 0)
    case NotExpr(c, _) => (match Check(c, o) case Err(x) => Err(x) case Ok(b) => Ok(!b))
  }

  /** `all(...)` over the children from `i` on, stopping at the first that does not hold. */
  function CheckAll(es: seq<Expr>, o: Oracle, i: nat): Result<bool, PyError>
    requires i <= |es|
    decreases es, 0, |es| - i
  {
    if i == |es| then Ok(true)
    else
      match Check(es[i], o)
      case Err(x) => Err(x)
      case Ok(false) => Ok(false)
      case Ok(true) => CheckAll(es, o, i + 1)
  }

  /** `any(...)` over the children from `i` on, stopping at the first that holds. */
  function CheckAny(es: seq<Expr>, o: Oracle, i: nat): Result<bool, PyError>
    requires i <= |es|
    decreases es, 0, |es| - i
  {
    if i == |es| then Ok(false)
    else
      match Check(es[i], o)
      case Err(x) => Err(x)
      case Ok(true) => Ok(true)
      case Ok(false) => CheckAny(es, o, i + 1)
  }

  /** Over static children, the conjunction holds exactly when every child holds. */
  lemma {:induction false} CheckAllMeansEvery(es: seq<Expr>, o: Oracle, i: nat)
    requires i <= |es|
    requires forall j :: i <= j < |es| ==> Check(es[j], o).Ok?
    ensures CheckAll(es, o, i) == Ok(forall j :: i <= j < |es| ==> Check(es[j], o) == Ok(true))
    decreases |es| - i
  {
    if i < |es| {
      CheckAllMeansEvery(es, o, i + 1);
    }
  }

  /** Over static children, the disjunction holds exactly when some child holds. */
  lemma {:induction false} CheckAnyMeansSome(es: seq<Expr>, o: Oracle, i: nat)
    requires i <= |es|
    requires forall j :: i <= j < |es| ==> Check(es[j], o).Ok?
    ensures CheckAny(es, o, i) == Ok(exists j :: i <= j < |es| && Check(es[j], o) == Ok(true))
    decreases |es| - i
  {
    if i < |es| {
      CheckAnyMeansSome(es, o, i + 1);
    }
  }

  /** An expression over static functions always checks without raising. */
  lemma {:induction false} StaticChecks(e: Expr, o: Oracle)
    requires AllStatic(e)
    ensures Check(e, o).Ok?
    decreases e
  {
    match e
    case Single(_, _, _) =>
    case NotExpr(c, _) => StaticChecks(c, o);
    case AndExpr(es, _) =>
      forall j | 0 <= j < |es| ensures Check(es[j], o).Ok? { StaticChecks(es[j], o); }
      CheckAllMeansEvery(es, o, 0);
    case OrExpr(es, _) =>
      forall j | 0 <= j < |es| ensures Check(es[j], o).Ok? { StaticChecks(es[j], o); }
      CheckAnyMeansSome(es, o, 0);
  }

  /**
   * The two readings part ways on the simplest negation: `$not` of a course
   * the student has not taken holds as intended, but not as written.
   */
  lemma NotOfMissingCourse(name: string, o: Oracle)
    requires !o.hasCourse(name)
    ensures Check(NotExpr(Single(HasCourse, name, Some(false)), Some(false)), o) == Ok(true)
    ensures CheckAsWritten(NotExpr(Single(HasCourse, name, Some(false)), Some(false)), o) == Ok(false)
  {
  }

  /** `evaluate` as evidently intended: the same expression, its result now the intended check. */
  function Evaluate(e: Expr, o: Oracle): (r: Result<Expr, PyError>)
    ensures r.Ok? <==> Check(e, o).Ok?
    ensures r.Ok? ==> r.value.result == Some(Check(e, o).value)
    ensures r.Ok? ==> match e
                      case AndExpr(es, _) => r.value == AndExpr(es, r.value.result)
                      case OrExpr(es, _) => r.value == OrExpr(es, r.value.result)
                      case NotExpr(c, _) => r.value == NotExpr(c, r.value.result)
                      case Single(f, a, _) => r.value == Single(f, a, r.value.result)
  {
    match Check(e, o)
    case Err(x) => Err(x)
    case Ok(b) => Ok(e.(result := Some(b)))
  }

  /**
   * `evaluate` as the code does it: the same expression with its result set
   * by the as-written check. So an evaluated `$not` is always false and an
   * evaluated `$and` always true; only a single function call is evaluated
   * as intended.
   */
  function EvaluateAsWritten(e: Expr, o: Oracle): (r: Result<Expr, PyError>)
    ensures r.Ok? <==> CheckAsWritten(e, o).Ok?
    ensures r.Ok? ==> r.value.result.Some? && r.value == e.(result := r.value.result)
    ensures r.Ok? && e.NotExpr? ==> r.value.result == Some(false)
    ensures r.Ok? && e.AndExpr? ==> r.value.result == Some(true)
    ensures e.Single? ==> r == Evaluate(e, o)
  {
    match CheckAsWritten(e, o)
    case Err(x) => Err(x)
    case Ok(b) => Ok(e.(result := Some(b)))
  }

  /** No `$not` anywhere in the expression. */
  predicate NoNegation(e: Expr)
  {
    match e
    case AndExpr(es, _) => forall i :: 0 <= i < |es| ==> NoNegation(es[i])
    case OrExpr(es, _) => forall i :: 0 <= i < |es| ==> NoNegation(es[i])
    case NotExpr(_, _) => false
    case Single(_, _, _) => true
  }

  /**
   * The result decided while loading is the one a later check gives, for
   * static expressions without negation. (A loaded `$not` copies its child's
   * result instead of negating it.)
   */
  lemma {:induction false} LoadedResultIsChecked(data: Data, o: Oracle)
    requires Load(data, o).Ok?
    requires AllStatic(Load(data, o).value) && NoNegation(Load(data, o).value)
    ensures Check(Load(data, o).value, o).Ok?
    ensures Load(data, o).value.result == Some(Check(Load(data, o).value, o).value)
    decreases data
  {
    var e := Load(data, o).value;
    StaticChecks(e, o);
    var entries := data.entries;
    if HasKey(entries, "$and") || HasKey(entries, "$or") {
      var k := if HasKey(entries, "$and") then "$and" else "$or";
      GetIsSmaller(entries, k);
      var items := Get(entries, k).value.items;
      var rs := seq(|items|, i requires 0 <= i < |items| => Load(items[i], o));
      var es := e.exprs;
      assert FirstError(rs) == Ok(es);
      forall j | 0 <= j < |es| ensures Check(es[j], o).Ok? && es[j].result == Some(Check(es[j], o).value) {
        assert rs[j] == Ok(es[j]);
        assert items[j] < Get(entries, k).value;
        StaticChecks(es[j], o);
        LoadedResultIsChecked(items[j], o);
      }
      if k == "$and" {
        CheckAllMeansEvery(es, o, 0);
      } else {
        CheckAnyMeansSome(es, o, 0);
      }
    }
  }
}

=== FILE: queries.dfy ===
/**
 * The shared part of query rules: a query's rank and maximum rank, whether
 * it is in progress, and the shape of its serialised form. Assertions and
 * matched courses are seen only through what the query asks of them.
 */
module Queries {

  import opened Claims

  /** What a query asks of one of its assertions. */
  datatype AssertionView = AssertionView(maxRank: real, inProgress: bool)

  datatype QueryRule = QueryRule(
    assertions: seq<AssertionView>,
    allowClaimed: bool,
    attemptClaims: bool,
    path: seq<string>,
    inserted: seq<string>,
    loadPotentials: bool)

  /** The base query's rank. */
  const BaseRank: real := 0.0

  /** Python's `sum` of the assertions' maximum ranks. */
  function SumMaxRank(assertions: seq<AssertionView>): real
  {
    if |assertions| == 0 then 0.0 else SumMaxRank(assertions[..|assertions| - 1]) + assertions[|assertions| - 1].maxRank
  }

  /** `max_rank`: the assertions' maximum ranks added up; zero without assertions. */
  function MaxRank(q: QueryRule): (r: real)
    ensures |q.assertions| == 0 ==> r == 0.0
    ensures (forall i :: 0 <= i < |q.assertions| ==> q.assertions[i].maxRank == 1.0) ==> r == |q.assertions| as real
  {
    AllOnesSum(q.assertions);
    SumMaxRank(q.assertions)
  }

  lemma {:induction false} AllOnesSum(assertions: seq<AssertionView>)
    ensures (forall i :: 0 <= i < |assertions| ==> assertions[i].maxRank == 1.0) ==> SumMaxRank(assertions) == |assertions| as real
  {
    if |assertions| > 0 {
      AllOnesSum(assertions[..|assertions| - 1]);
    }
  }

  /** The maximum ranks add up across a split of the assertions. */
  lemma {:induction false} SumMaxRankAppend(a: seq<AssertionView>, b: seq<AssertionView>)
    ensures SumMaxRank(a + b) == SumMaxRank(a) + SumMaxRank(b)
    decreases |b|
  {
    if |b| > 0 {
      assert (a + b)[..|a + b| - 1] == a + b[..|b| - 1];
      SumMaxRankAppend(a, b[..|b| - 1]);
    } else {
      assert a + b == a;
    }
  }

  /**
   * `in_progress`: the rank lies strictly between zero and the maximum, or a
   * matched course or an assertion is in progress. `rank` is whatever the
   * concrete query reports; `matched` says of each matched course whether
   * it is in progress.
   */
  function InProgress(q: QueryRule, rank: real, matched: seq<bool>): (b: bool)
    ensures b <==> (0.0 < rank < MaxRank(q)) || (exists i :: 0 <= i < |matched| && matched[i]) ||
                   (exists i :: 0 <= i < |q.assertions| && q.assertions[i].inProgress)
  {
    if 0.0 < rank < MaxRank(q) then true
    else if exists i :: 0 <= i < |matched| && matched[i] then true
    else exists i :: 0 <= i < |q.assertions| && q.assertions[i].inProgress
  }

  /** With the base query's rank of zero, only in-progress courses or assertions make a query in progress. */
  lemma BaseQueryInProgress(q: QueryRule, matched: seq<bool>)
    ensures InProgress(q, BaseRank, matched) <==>
              (exists i :: 0 <= i < |matched| && matched[i]) || (exists i :: 0 <= i < |q.assertions| && q.assertions[i].inProgress)
  {
  }

  /** Maximum ranks that are never negative add up to a total that is not negative. */
  lemma {:induction false} SumMaxRankNonNegative(assertions: seq<AssertionView>)
    requires forall i :: 0 <= i < |assertions| ==> assertions[i].maxRank >= 0.0
    ensures SumMaxRank(assertions) >= 0.0
    decreases |assertions|
  {
    if |assertions| > 0 {
      SumMaxRankNonNegative(assertions[..|assertions| - 1]);
    }
  }

  /**
   * A query in progress stays in progress when more courses are matched and
   * more assertions are added, as long as no added assertion has a negative
   * maximum rank.
   */
  lemma InProgressMonotone(q: QueryRule, rank: real, matched: seq<bool>, more: seq<bool>, extra: seq<AssertionView>)
    requires forall i :: 0 <= i < |extra| ==> extra[i].maxRank >= 0.0
    requires InProgress(q, rank, matched)
    ensures InProgress(q.(assertions := q.assertions + extra), rank, matched + more)
  {
    var q' := q.(assertions := q.assertions + extra);
    SumMaxRankAppend(q.assertions, extra);
    SumMaxRankNonNegative(extra);
    assert MaxRank(q') >= MaxRank(q);
    if exists i :: 0 <= i < |matched| && matched[i] {
      var i :| 0 <= i < |matched| && matched[i];
      assert (matched + more)[i];
    }
    if exists i :: 0 <= i < |q.assertions| && q.assertions[i].inProgress {
      var i :| 0 <= i < |q.assertions| && q.assertions[i].inProgress;
      assert q'.assertions[i].inProgress;
    }
  }

  /** The query-specific fields of `to_dict`. */
  datatype QueryDict = QueryDict(
    loadPotentials: bool,
    assertions: seq<AssertionView>,
    claims: seq<ClaimAttempt>,
    failures: seq<ClaimAttempt>,
    inserted: seq<string>)

  /** `only_failed_claims` of the base query: none. The formatter's QueryRows.QueryRequirements is a different list that is also empty. */
  function OnlyFailedClaims(q: QueryRule): (r: seq<ClaimAttempt>)
    ensures r == []
  {
    []
  }

  /** `to_dict`: the assertions in order, the claims given, no failures, and the inserted clbids in order. */
  function ToDict(q: QueryRule, claims: seq<ClaimAttempt>): (d: QueryDict)
    ensures d.assertions == q.assertions && d.inserted == q.inserted && d.claims == claims
    ensures d.failures == []
    ensures d.loadPotentials == q.loadPotentials
  {
    QueryDict(q.loadPotentials, q.assertions, claims, OnlyFailedClaims(q), q.inserted)
  }
}

=== FILE: query_rows.dfy ===
/**
 * The tabular export of query rules: the row comes from the first
 * assertion that counts courses or credits from below, and the claimed
 * courses are the ordered, de-duplicated union of the claims and of the
 * courses the assertions name.
 */
module QueryRows {

  import opened Wrappers
  import opened Formatting

  /** What the export asks of an assertion; its own row is the `row` parameter of `GetRow`. */
  datatype AssertionView = AssertionView(isCourseOrCredit: bool, isAtLeast: bool, size: nat, clbids: seq<string>)

  datatype QueryRule = QueryRule(status: RuleStatus, claims: seq<string>, assertions: seq<AssertionView>)

  predicate Qualifies(a: AssertionView) { a.isCourseOrCredit && a.isAtLeast }

  /** The position of the first qualifying assertion, if any. */
  function FirstQualifying(assertions: seq<AssertionView>): (r: Option<nat>)
    ensures r.None? <==> forall i :: 0 <= i < |assertions| ==> !Qualifies(assertions[i])
    ensures r.Some? ==> r.value < |assertions| && Qualifies(assertions[r.value])
                        && forall i :: 0 <= i < r.value ==> !Qualifies(assertions[i])
  {
    if |assertions| == 0 then None
    else if Qualifies(assertions[0]) then Some(0)
    else
      match FirstQualifying(assertions[1..])
      case None => None
      case Some(i) => Some(i + 1)
  }

  /** `QueryRule::get_row`: the first qualifying assertion's row, under the inherited-or-own waiver. */
  function GetRow<R>(q: QueryRule, row: (AssertionView, bool) -> seq<R>, waived: bool): (r: seq<R>)
    ensures FirstQualifying(q.assertions).None? ==> r == []
    ensures FirstQualifying(q.assertions).Some? ==>
              r == row(q.assertions[FirstQualifying(q.assertions).value], waived || IsWaived(q.status))
  {
    match FirstQualifying(q.assertions)
    case None => []
    case Some(i) => row(q.assertions[i], waived || IsWaived(q.status))
  }

  /** Assertions after the first qualifying one never reach the row. */
  lemma {:induction false} LaterAssertionsIgnored(assertions: seq<AssertionView>, more: seq<AssertionView>)
    requires FirstQualifying(assertions).Some?
    ensures FirstQualifying(assertions + more) == FirstQualifying(assertions)
    decreases |assertions|
  {
    if !Qualifies(assertions[0]) {
      assert (assertions + more)[1..] == assertions[1..] + more;
      LaterAssertionsIgnored(assertions[1..], more);
    }
  }

  /** `QueryRule::get_requirements` of the formatter: a query lists no requirements. Queries.OnlyFailedClaims is the auditor's separate, likewise empty, list. */
  function QueryRequirements(q: QueryRule): (r: seq<string>)
    ensures r == []
  {
    []
  }

  /** `get_largest_count`: the largest assertion size, or 0 without assertions. */
  function LargestCount(assertions: seq<AssertionView>): (r: nat)
    ensures forall i :: 0 <= i < |assertions| ==> assertions[i].size <= r
    ensures |assertions| == 0 ==> r == 0
    ensures |assertions| > 0 ==> exists i :: 0 <= i < |assertions| && assertions[i].size == r
  {
    if |assertions| == 0 then 0
    else
      var rest := LargestCount(assertions[1..]);
      assert forall i :: 1 <= i < |assertions| ==> assertions[i] == assertions[1..][i - 1];
      if |assertions| > 1 && rest > assertions[0].size then rest else assertions[0].size
  }

  // ----- ordered sets of class-lab ids -----

  /** Lexicographic order on strings, by code point: the order of Rust's `String`. */
  predicate Below(a: string, b: string)
  {
    if |a| == 0 then |b| > 0
    else if |b| == 0 then false
    else if a[0] == b[0] then Below(a[1..], b[1..])
    else a[0] < b[0]
  }

  lemma {:induction false} BelowIrreflexive(a: string)
    ensures !Below(a, a)
    decreases |a|
  {
    if |a| > 0 {
      BelowIrreflexive(a[1..]);
    }
  }

  lemma {:induction false} BelowTransitive(a: string, b: string, c: string)
    requires Below(a, b) && Below(b, c)
    ensures Below(a, c)
    decreases |a|
  {
    if |a| > 0 && |b| > 0 && |c| > 0 && a[0] == b[0] && b[0] == c[0] {
      BelowTransitive(a[1..], b[1..], c[1..]);
    }
  }

  lemma {:induction false} BelowTotal(a: string, b: string)
    requires a != b
    ensures Below(a, b) || Below(b, a)
    decreases |a|
  {
    if |a| > 0 && |b| > 0 && a[0] == b[0] {
      assert a == [a[0]] + a[1..] && b == [b[0]] + b[1..];
      BelowTotal(a[1..], b[1..]);
    }
  }

  predicate StrictlySorted(xs: seq<string>)
  {
    forall i, j :: 0 <= i < j < |xs| ==> Below(xs[i], xs[j])
  }

  /** `BTreeSet::insert`, seen through the set's ordered iteration. */
  function Insert(xs: seq<string>, x: string): (r: seq<string>)
    requires StrictlySorted(xs)
    ensures StrictlySorted(r)
    ensures forall y :: y in r <==> y in xs || y == x
    decreases |xs|
  {
    if |xs| == 0 then [x]
    else if x == xs[0] then xs
    else if Below(x, xs[0]) then
      forall j | 0 < j < |xs| ensures Below(x, xs[j]) { BelowTransitive(x, xs[0], xs[j]); }
      [x] + xs
    else
      BelowTotal(x, xs[0]);
      var rest := Insert(xs[1..], x);
      assert forall y :: y in xs <==> y == xs[0] || y in xs[1..];
      var r := [xs[0]] + rest;
      assert forall j :: 0 < j < |r| ==> r[j] in rest;
      r
  }

  /** `BTreeSet::extend`: every element inserted in turn. */
  function InsertAll(xs: seq<string>, ys: seq<string>): (r: seq<string>)
    requires StrictlySorted(xs)
    ensures StrictlySorted(r)
    ensures forall y :: y in r <==> y in xs || y in ys
    decreases |ys|
  {
    if |ys| == 0 then xs
    else
      var r := InsertAll(Insert(xs, ys[0]), ys[1..]);
      assert forall y :: y in ys <==> y == ys[0] || y in ys[1..];
      r
  }

  /** All clbids the assertions name, in assertion order. */
  function AssertionClbids(assertions: seq<AssertionView>): (r: seq<string>)
    ensures forall y :: y in r <==> exists i :: 0 <= i < |assertions| && y in assertions[i].clbids
  {
    if |assertions| == 0 then []
    else
      var rest := AssertionClbids(assertions[1..]);
      assert forall i :: 1 <= i < |assertions| ==> assertions[i] == assertions[1..][i - 1];
      assertions[0].clbids + rest
  }

  /** The ordered, de-duplicated clbids of the claims and of the assertions. */
  function KnownClbids(q: QueryRule): (r: seq<string>)
    ensures StrictlySorted(r)
    ensures forall y :: y in r <==> y in q.claims || exists i :: 0 <= i < |q.assertions| && y in q.assertions[i].clbids
  {
    InsertAll(InsertAll([], q.claims), AssertionClbids(q.assertions))
  }

  /** A strictly sorted list repeats nothing. */
  lemma SortedHasNoDuplicates(xs: seq<string>)
    requires StrictlySorted(xs)
    ensures forall i, j :: 0 <= i < j < |xs| ==> xs[i] != xs[j]
  {
    forall i, j | 0 <= i < j < |xs| ensures xs[i] != xs[j] {
      BelowIrreflexive(xs[i]);
    }
  }

  /**
   * `get_claimed_courses`: the transcript's course for each known clbid, in
   * order. A clbid the transcript lacks makes the export panic: `None` here.
   */
  function ClaimedCourses(q: QueryRule, lookup: ClassLookup): (r: Option<seq<StudentCourse>>)
    ensures r.None? <==> exists i :: 0 <= i < |KnownClbids(q)| && lookup(KnownClbids(q)[i]).None?
    ensures r.Some? ==> |r.value| == |KnownClbids(q)|
                        && forall i :: 0 <= i < |r.value| ==> lookup(KnownClbids(q)[i]) == Some(r.value[i])
  {
    LookupAll(KnownClbids(q), lookup)
  }

  function LookupAll(ids: seq<string>, lookup: ClassLookup): (r: Option<seq<StudentCourse>>)
    ensures r.None? <==> exists i :: 0 <= i < |ids| && lookup(ids[i]).None?
    ensures r.Some? ==> |r.value| == |ids| && forall i :: 0 <= i < |ids| ==> lookup(ids[i]) == Some(r.value[i])
  {
    if |ids| == 0 then Some([])
    else
      assert forall i :: 1 <= i < |ids| ==> ids[i] == ids[1..][i - 1];
      match lookup(ids[0])
      case None => None
      case Some(c) =>
        match LookupAll(ids[1..], lookup)
        case None => None
        case Some(cs) => Some([c] + cs)
  }
}

=== FILE: requirements.dfy ===
/**
 * Requirement rules: a named wrapper around one child rule, which a human
 * may have to audit. The child is seen only through what the wrapper asks
 * of it; the base class's own answers, whether the requirement is waived,
 * and which statuses count as passing are parameters.
 */
module Requirements {

  import opened Wrappers
  import opened Clauses
  import opened Claims

  /** What a requirement asks of its child result. */
  datatype Child = Child(
    status: ResultStatus,
    rank: real,
    maxRank: real,
    alwaysDisjoint: bool,
    neverDisjoint: bool,
    claims: seq<ClaimAttempt>,
    claimsForGpa: seq<ClaimAttempt>)

  datatype RequirementRule = RequirementRule(
    name: string,
    message: Option<string>,
    result: Option<Child>,
    isAudited: bool,
    isContract: bool,
    inGpa: bool,
    disjoint: Option<bool>)

  /** `status`: the base status without a result, `PendingApproval` while audited, else the child's. */
  function Status(r: RequirementRule, baseStatus: ResultStatus): (s: ResultStatus)
    ensures r.result.None? ==> s == baseStatus
    ensures r.result.Some? && r.isAudited ==> s == PendingApproval
    ensures r.result.Some? && !r.isAudited ==> s == r.result.value.status
  {
    if r.result.None? then baseStatus
    else if r.isAudited then PendingApproval
    else r.result.value.status
  }

  /**
   * `rank`: an audited, waived requirement ranks (1, 1); one without a
   * result (0, 1); otherwise the child's pair, with both halves raised by
   * one when the requirement's status is a passing one.
   */
  function Rank(r: RequirementRule, baseStatus: ResultStatus, waived: bool, passing: set<ResultStatus>): (p: (real, real))
    ensures r.isAudited && waived ==> p == (1.0, 1.0)
    ensures !(r.isAudited && waived) && r.result.None? ==> p == (0.0, 1.0)
    ensures !(r.isAudited && waived) && r.result.Some? ==>
              var boost := if Status(r, baseStatus) in passing then 1.0 else 0.0;
              p == (r.result.value.rank + boost, r.result.value.maxRank + boost)
  {
    if r.isAudited && waived then (1.0, 1.0)
    else if r.result.None? then (0.0, 1.0)
    else
      var child := r.result.value;
      if Status(r, baseStatus) in passing then (child.rank + 1.0, child.maxRank + 1.0)
      else (child.rank, child.maxRank)
  }

  /** A requirement never ranks above its maximum when its child does not. */
  lemma RankWithinMax(r: RequirementRule, baseStatus: ResultStatus, waived: bool, passing: set<ResultStatus>)
    requires r.result.Some? ==> r.result.value.rank <= r.result.value.maxRank
    ensures Rank(r, baseStatus, waived, passing).0 <= Rank(r, baseStatus, waived, passing).1
  {
  }

  /**
   * For a requirement that is not audited, the boost follows the child's
   * status exactly: a passing child adds one to both halves, any other
   * leaves the pair as it is.
   */
  lemma RankBoost(r: RequirementRule, baseStatus: ResultStatus, waived: bool, passing: set<ResultStatus>)
    requires r.result.Some? && !r.isAudited
    ensures var (rank, max) := Rank(r, baseStatus, waived, passing);
            (r.result.value.status in passing <==> rank - r.result.value.rank == 1.0) &&
            max - rank == r.result.value.maxRank - r.result.value.rank
  {
  }

  /** `is_always_disjoint`: an explicit `disjoint: true` decides it, otherwise the child or the base does. */
  function IsAlwaysDisjoint(r: RequirementRule, baseAnswer: bool): (b: bool)
    ensures r.disjoint == Some(true) ==> b
    ensures r.disjoint != Some(true) && r.result.None? ==> b == baseAnswer
    ensures r.disjoint != Some(true) && r.result.Some? ==> b == r.result.value.alwaysDisjoint
  {
    if r.disjoint == Some(true) then true
    else if r.result.None? then baseAnswer
    else r.result.value.alwaysDisjoint
  }

  /** `is_never_disjoint`: an explicit `disjoint: false` decides it, otherwise the child or the base does. */
  function IsNeverDisjoint(r: RequirementRule, baseAnswer: bool): (b: bool)
    ensures r.disjoint == Some(false) ==> b
    ensures r.disjoint != Some(false) && r.result.None? ==> b == baseAnswer
    ensures r.disjoint != Some(false) && r.result.Some? ==> b == r.result.value.neverDisjoint
  {
    if r.disjoint == Some(false) then true
    else if r.result.None? then baseAnswer
    else r.result.value.neverDisjoint
  }

  /** An explicit flag settles the matching question whatever the child or the base says. */
  lemma ExplicitDisjointDecides(r: RequirementRule, baseAlways: bool, baseNever: bool)
    requires r.disjoint.Some?
    ensures r.disjoint.value ==> IsAlwaysDisjoint(r, baseAlways)
    ensures !r.disjoint.value ==> IsNeverDisjoint(r, baseNever)
    ensures r.disjoint.value ==> IsNeverDisjoint(r, baseNever) == IsNeverDisjoint(r.(disjoint := None), baseNever)
    ensures !r.disjoint.value ==> IsAlwaysDisjoint(r, baseAlways) == IsAlwaysDisjoint(r.(disjoint := None), baseAlways)
  {
  }

  /** `claims`: nothing while audited or without a result, otherwise the child's claims. */
  function RequirementClaims(r: RequirementRule): (c: seq<ClaimAttempt>)
    ensures r.isAudited || r.result.None? ==> c == []
    ensures !r.isAudited && r.result.Some? ==> c == r.result.value.claims
  {
    if r.isAudited || r.result.None? then [] else r.result.value.claims
  }

  /** `claims_for_gpa`: the child's GPA claims only for a requirement in the GPA, with a result, not under audit. */
  function ClaimsForGpa(r: RequirementRule): (c: seq<ClaimAttempt>)
    ensures c != [] ==> r.inGpa && r.result.Some? && !r.isAudited
    ensures r.inGpa && r.result.Some? && !r.isAudited ==> c == r.result.value.claimsForGpa
  {
    if r.inGpa && r.result.Some? && !r.isAudited then r.result.value.claimsForGpa else []
  }

  /** Anything a requirement contributes to the GPA, it would also report as a claim when the child's GPA claims are among its claims. */
  lemma GpaClaimsAreClaims(r: RequirementRule)
    requires r.result.Some? ==> forall c :: c in r.result.value.claimsForGpa ==> c in r.result.value.claims
    ensures forall c :: c in ClaimsForGpa(r) ==> c in RequirementClaims(r)
  {
  }
}

=== FILE: rule_loading.dfy ===
/**
 * Choosing the loader for a rule of an area specification: count rules when
 * emphases are given, otherwise the first kind of rule that recognises the
 * document. The loaders themselves are parameters.
 */
module RuleLoading {

  import opened Wrappers
  import opened Documents

  /** The members of the `Rule` union; `Requirement` is listed there but has no branch here. */
  datatype RuleKind = CourseKind | QueryKind | CountKind | ReferenceKind | RequirementKind

  /** The order in which the kinds are tried when there are no emphases. */
  const LoadOrder: seq<RuleKind> := [CourseKind, QueryKind, CountKind, ReferenceKind]

  /** The first kind in `kinds` whose `can_load` accepts the document. */
  function FirstAccepting(kinds: seq<RuleKind>, data: Data, canLoad: (RuleKind, Data) -> bool): (r: Option<nat>)
    ensures r.None? <==> forall i :: 0 <= i < |kinds| ==> !canLoad(kinds[i], data)
    ensures r.Some? ==> r.value < |kinds| && canLoad(kinds[r.value], data)
                        && forall i :: 0 <= i < r.value ==> !canLoad(kinds[i], data)
  {
    if |kinds| == 0 then None
    else if canLoad(kinds[0], data) then Some(0)
    else
      match FirstAccepting(kinds[1..], data, canLoad)
      case None => None
      case Some(i) => Some(i + 1)
  }

  /** `load_rule`'s choice of loader. */
  function ChooseLoader(data: Data, emphases: seq<Data>, canLoad: (RuleKind, Data) -> bool): (r: Result<RuleKind, PyError>)
    ensures |emphases| > 0 ==> r == (if canLoad(CountKind, data) then Ok(CountKind) else Err(AssertionError))
    ensures |emphases| == 0 ==>
              (r.Err? <==> forall k :: k in LoadOrder ==> !canLoad(k, data)) &&
              (r.Err? ==> r.error == ValueError)
    ensures r.Ok? ==> r.value in LoadOrder && canLoad(r.value, data)
    ensures |emphases| == 0 && r.Ok? ==>
              forall i :: 0 <= i < |LoadOrder| && LoadOrder[i] == r.value ==>
                forall j :: 0 <= j < i ==> !canLoad(LoadOrder[j], data)
  {
    if |emphases| > 0 then
      if canLoad(CountKind, data) then Ok(CountKind) else Err(AssertionError)
    else
      match FirstAccepting(LoadOrder, data, canLoad)
      case None => Err(ValueError)
      case Some(i) => Ok(LoadOrder[i])
  }

  /**
   * `load_rule`: the chosen loader's result. The emphases reach the count
   * loader; every other loader is chosen only without emphases, so it sees
   * none, as the source's calls without them do.
   */
  function LoadRule<T>(data: Data, emphases: seq<Data>, canLoad: (RuleKind, Data) -> bool,
                       load: (RuleKind, Data, seq<Data>) -> Result<T, PyError>): (r: Result<T, PyError>)
    ensures ChooseLoader(data, emphases, canLoad).Err? ==> r == Err(ChooseLoader(data, emphases, canLoad).error)
    ensures ChooseLoader(data, emphases, canLoad).Ok? ==> r == load(ChooseLoader(data, emphases, canLoad).value, data, emphases)
    ensures |emphases| > 0 && canLoad(CountKind, data) ==> r == load(CountKind, data, emphases)
    ensures r.Ok? && ChooseLoader(data, emphases, canLoad).value != CountKind ==>
              r == load(ChooseLoader(data, emphases, canLoad).value, data, [])
  {
    match ChooseLoader(data, emphases, canLoad)
    case Err(e) => Err(e)
    case Ok(k) => load(k, data, emphases)
  }

  /** A requirement is never what `load_rule` chooses. */
  lemma NeverRequirement(data: Data, emphases: seq<Data>, canLoad: (RuleKind, Data) -> bool)
    ensures ChooseLoader(data, emphases, canLoad) != Ok(RequirementKind)
  {
  }

  /** Without emphases, a document several kinds accept is loaded as the earliest of them. */
  lemma EarliestKindWins(data: Data, canLoad: (RuleKind, Data) -> bool)
    ensures canLoad(CourseKind, data) ==> ChooseLoader(data, [], canLoad) == Ok(CourseKind)
    ensures !canLoad(CourseKind, data) && canLoad(QueryKind, data) ==> ChooseLoader(data, [], canLoad) == Ok(QueryKind)
    ensures !canLoad(CourseKind, data) && !canLoad(QueryKind, data) && canLoad(CountKind, data) ==>
              ChooseLoader(data, [], canLoad) == Ok(CountKind)
  {
    var r := ChooseLoader(data, [], canLoad);
    if r.Ok? {
      assert LoadOrder[0] == CourseKind && LoadOrder[1] == QueryKind && LoadOrder[2] == CountKind;
    } else {
      assert CourseKind in LoadOrder && QueryKind in LoadOrder && CountKind in LoadOrder;
    }
  }
}

=== FILE: rule_results.dfy ===
/**
 * The result of evaluating a rule in the Rust auditor: its status, the
 * course pairings it reserves, and a detail tree. The reservation type is
 * kept abstract; `R` stands for it.
 */
module RuleResults {

  import opened Wrappers

  datatype RuleStatus = Pass | Fail | Skipped | Pending

  datatype RuleResult<R> = RuleResult(detail: RuleResultDetails<R>, reservations: R, status: RuleStatus)

  datatype RuleResultDetails<R> =
    | CourseDetail
    | RequirementDetail
    | CountOf(results: seq<Option<RuleResult<R>>>)
    | Both(left: RuleResult<R>, right: RuleResult<R>)
    | Either(first: Option<RuleResult<R>>, second: Option<RuleResult<R>>)
    | Given
    | Do

  /** `RuleResult::fail`: a failed result with the given detail and no reservations. */
  function FailWith<R>(detail: RuleResultDetails<R>, noReservations: R): (r: RuleResult<R>)
    ensures r.status == Fail && r.detail == detail && r.reservations == noReservations
    ensures IsFail(r) && !IsPass(r)
  {
    RuleResult(detail, noReservations, Fail)
  }

  /** `is_pass`. */
  predicate IsPass<R>(r: RuleResult<R>)
  {
    match r.status
    case Pass => true
    case _ => false
  }

  /** `is_fail`. */
  predicate IsFail<R>(r: RuleResult<R>)
  {
    match r.status
    case Fail => true
    case _ => false
  }

  /** Passing and failing are exclusive, and a skipped or pending result is neither. */
  lemma PassFailExclusive<R>(r: RuleResult<R>)
    ensures !(IsPass(r) && IsFail(r))
    ensures IsPass(r) <==> r.status == Pass
    ensures IsFail(r) <==> r.status == Fail
    ensures r.status in {Skipped, Pending} ==> !IsPass(r) && !IsFail(r)
  {
  }
}

=== FILE: strings.dfy ===
/**
 * Character classes and the small string operations that the Rust and
 * Python code rely on: whitespace, trimming, splitting on a separator, and
 * decimal digits.
 */
module Strings {

  import opened Wrappers

  /** Rust's `char::is_whitespace`: the Unicode White_Space property. */
  predicate IsRustWhitespace(c: char)
  {
    || ('\t' <= c <= '\r')
    || c == ' '
    || c == '\U{85}'
    || c == '\U{A0}'
    || c == '\U{1680}'
    || ('\U{2000}' <= c <= '\U{200A}')
    || c == '\U{2028}'
    || c == '\U{2029}'
    || c == '\U{202F}'
    || c == '\U{205F}'
    || c == '\U{3000}'
  }

  /** Python's `str.isspace`, used by `str.strip`: White_Space plus the four separators U+001C..U+001F. */
  predicate IsPyWhitespace(c: char)
  {
    IsRustWhitespace(c) || ('\U{1C}' <= c <= '\U{1F}')
  }

  predicate AllSatisfy(s: string, p: char -> bool)
  {
    forall i :: 0 <= i < |s| ==> p(s[i])
  }

  predicate NoneSatisfy(s: string, p: char -> bool)
  {
    forall i :: 0 <= i < |s| ==> !p(s[i])
  }

  /** Drops the leading characters that satisfy `p`. */
  function TrimStartBy(s: string, p: char -> bool): string
  {
    if |s| > 0 && p(s[0]) then TrimStartBy(s[1..], p) else s
  }

  /** Drops the trailing characters that satisfy `p`. */
  function TrimEndBy(s: string, p: char -> bool): string
  {
    if |s| > 0 && p(s[|s| - 1]) then TrimEndBy(s[..|s| - 1], p) else s
  }

  /** Drops leading and trailing characters that satisfy `p`. */
  function TrimBy(s: string, p: char -> bool): string
  {
    TrimEndBy(TrimStartBy(s, p), p)
  }

  lemma {:induction false} TrimStartSlice(s: string, p: char -> bool)
    ensures var r := TrimStartBy(s, p);
            && |r| <= |s| && r == s[|s| - |r|..]
            && (r == [] || !p(r[0]))
            && AllSatisfy(s[..|s| - |r|], p)
  {
    if |s| > 0 && p(s[0]) {
      TrimStartSlice(s[1..], p);
      var r := TrimStartBy(s[1..], p);
      assert s[1..][..|s| - 1 - |r|] == s[1..|s| - |r|];
    }
  }

  lemma {:induction false} TrimEndSlice(s: string, p: char -> bool)
    ensures var r := TrimEndBy(s, p);
            && |r| <= |s| && r == s[..|r|]
            && (r == [] || !p(r[|r| - 1]))
            && AllSatisfy(s[|r|..], p)
  {
    if |s| > 0 && p(s[|s| - 1]) {
      var init := s[..|s| - 1];
      TrimEndSlice(init, p);
      var r := TrimEndBy(init, p);
      assert TrimEndBy(s, p) == r;
      assert init[..|r|] == s[..|r|];
      assert s[|r|..] == init[|r|..] + [s[|s| - 1]];
    } else {
      assert TrimEndBy(s, p) == s;
      assert s[|s|..] == [];
    }
  }

  /** What `TrimBy` removed is a prefix and a suffix of `p`-characters, and what it kept starts and ends outside `p`. */
  lemma TrimSlice(s: string, p: char -> bool) returns (i: nat, j: nat)
    ensures i <= j <= |s| && TrimBy(s, p) == s[i..j]
    ensures AllSatisfy(s[..i], p) && AllSatisfy(s[j..], p)
    ensures TrimBy(s, p) == [] || (!p(s[i]) && !p(s[j - 1]))
  {
    TrimStartSlice(s, p);
    var a := TrimStartBy(s, p);
    TrimEndSlice(a, p);
    var r := TrimEndBy(a, p);
    i := |s| - |a|;
    j := i + |r|;
    assert r == s[i..j];
    assert s[j..] == a[|r|..];
  }

  /** Rust's `str::trim`. */
  function RustTrim(s: string): string
  {
    TrimBy(s, IsRustWhitespace)
  }

  /** Python's `str.strip()` with no argument. */
  function PyStrip(s: string): string
  {
    TrimBy(s, IsPyWhitespace)
  }

  /** Python's `str.rstrip(c)` for one character `c`. */
  function PyRStripChar(s: string, c: char): string
  {
    TrimEndBy(s, x => x == c)
  }

  lemma TrimOfCleanWord(s: string, p: char -> bool)
    requires s == [] || (!p(s[0]) && !p(s[|s| - 1]))
    ensures TrimBy(s, p) == s
  {
    if |s| > 0 {
      assert TrimStartBy(s, p) == s;
    }
  }

  // ----- searching and splitting ---------------------------------------

  predicate OccursAt(s: string, sep: string, i: nat)
  {
    i + |sep| <= |s| && s[i..i + |sep|] == sep
  }

  predicate Contains(s: string, sep: string)
  {
    exists i: nat | i <= |s| :: OccursAt(s, sep, i)
  }

  /** The index of the leftmost occurrence of `sep` in `s`, if any. */
  function FindFrom(s: string, sep: string, from: nat): (r: Option<nat>)
    requires from <= |s|
    ensures r.None? ==> forall i: nat :: from <= i ==> !OccursAt(s, sep, i)
    ensures r.Some? ==> from <= r.value && OccursAt(s, sep, r.value)
                        && forall i: nat :: from <= i < r.value ==> !OccursAt(s, sep, i)
    decreases |s| - from
  {
    if from + |sep| > |s| then None
    else if s[from..from + |sep|] == sep then Some(from)
    else FindFrom(s, sep, from + 1)
  }

  /** Python's `s.split(sep)` for a non-empty separator. */
  function Split(s: string, sep: string): (r: seq<string>)
    requires |sep| > 0
    ensures |r| >= 1
    decreases |s|
  {
    match FindFrom(s, sep, 0)
    case None => [s]
    case Some(i) => [s[..i]] + Split(s[i + |sep|..], sep)
  }

  /** `sep.join(parts)`: the reference against which `Split` is checked. */
  function Join(parts: seq<string>, sep: string): string
  {
    if |parts| == 0 then []
    else if |parts| == 1 then parts[0]
    else parts[0] + sep + Join(parts[1..], sep)
  }

  /** Splitting and joining again gives the original string back. */
  lemma {:induction false} SplitJoin(s: string, sep: string)
    requires |sep| > 0
    ensures Join(Split(s, sep), sep) == s
    decreases |s|
  {
    match FindFrom(s, sep, 0)
    case None =>
    case Some(i) =>
      var rest := s[i + |sep|..];
      SplitJoin(rest, sep);
      var tail := Split(rest, sep);
      SplitFound(s, sep, i);
      JoinCons(s[..i], tail, sep);
      SliceThree(s, i, i + |sep|);
  }

  lemma SliceThree(s: string, a: nat, b: nat)
    requires a <= b <= |s|
    ensures s == s[..a] + s[a..b] + s[b..]
  {
    assert s[..b] == s[..a] + s[a..b];
    assert s == s[..b] + s[b..];
  }

  lemma SplitFound(s: string, sep: string, i: nat)
    requires |sep| > 0 && FindFrom(s, sep, 0) == Some(i)
    ensures Split(s, sep) == [s[..i]] + Split(s[i + |sep|..], sep)
  {
  }

  lemma JoinCons(head: string, tail: seq<string>, sep: string)
    requires |tail| >= 1
    ensures Join([head] + tail, sep) == head + sep + Join(tail, sep)
  {
    assert ([head] + tail)[0] == head;
    assert ([head] + tail)[1..] == tail;
  }

  /** No piece that `Split` returns contains the separator. */
  lemma {:induction false} SplitPiecesFree(s: string, sep: string)
    requires |sep| > 0
    ensures forall k :: 0 <= k < |Split(s, sep)| ==> !Contains(Split(s, sep)[k], sep)
    decreases |s|
  {
    match FindFrom(s, sep, 0)
    case None =>
      assert Split(s, sep) == [s];
      assert !Contains(s, sep);
    case Some(i) =>
      var rest := s[i + |sep|..];
      SplitPiecesFree(rest, sep);
      var tail := Split(rest, sep);
      assert Split(s, sep) == [s[..i]] + tail;
      PrefixBeforeFirstIsFree(s, sep, i);
      forall k | 0 <= k < |Split(s, sep)|
        ensures !Contains(Split(s, sep)[k], sep)
      {
        if k > 0 {
          assert Split(s, sep)[k] == tail[k - 1];
        }
      }
  }

  lemma PrefixBeforeFirstIsFree(s: string, sep: string, i: nat)
    requires i <= |s| && |sep| > 0
    requires forall j: nat :: j < i ==> !OccursAt(s, sep, j)
    ensures !Contains(s[..i], sep)
  {
    forall j: nat | j <= i && OccursAt(s[..i], sep, j)
      ensures false
    {
      assert s[..i][j..j + |sep|] == s[j..j + |sep|];
      assert OccursAt(s, sep, j);
    }
  }

  /** Python's `s.split(c, maxsplit=1)` for a one-character separator. */
  function SplitOnce(s: string, c: char): (r: seq<string>)
    ensures |r| == 1 ==> r[0] == s && c !in s
    ensures |r| == 2 ==> s == r[0] + [c] + r[1] && c !in r[0]
    ensures |r| == 1 || |r| == 2
  {
    if c !in s then [s]
    else
      var i := IndexOf(s, c);
      assert s == s[..i] + [c] + s[i + 1..];
      [s[..i], s[i + 1..]]
  }

  /** The position of the first `c` in `s`. */
  function IndexOf(s: string, c: char): (i: nat)
    requires c in s
    ensures i < |s| && s[i] == c && c !in s[..i]
  {
    if s[0] == c then 0 else
      var k := IndexOf(s[1..], c);
      assert s[1..][..k] == s[1..k + 1];
      k + 1
  }

  // ----- decimal digits -------------------------------------------------

  predicate IsDigit(c: char)
  {
    '0' <= c <= '9'
  }

  function DigitValue(c: char): nat
    requires IsDigit(c)
  {
    (c as int - '0' as int) as nat
  }

  function DigitChar(d: nat): (c: char)
    requires d < 10
    ensures IsDigit(c) && DigitValue(c) == d
  {
    ('0' as int + d) as char
  }

  predicate AllDigits(s: string)
  {
    forall i :: 0 <= i < |s| ==> IsDigit(s[i])
  }

  /** The number that a string of decimal digits denotes. */
  function DigitsValue(s: string): nat
    requires AllDigits(s)
  {
    if |s| == 0 then 0 else DigitsValue(s[..|s| - 1]) * 10 + DigitValue(s[|s| - 1])
  }

  /** The canonical decimal spelling of a natural number, as Rust's `Display` for integers writes it. */
  function NatToString(n: nat): (s: string)
    ensures |s| >= 1 && AllDigits(s)
    ensures n > 0 ==> s[0] != '0'
  {
    if n < 10 then [DigitChar(n)]
    else NatToString(n / 10) + [DigitChar(n % 10)]
  }

  /** Reading back the spelling of `n` gives `n`. */
  lemma {:induction false} NatToStringRoundTrip(n: nat)
    ensures DigitsValue(NatToString(n)) == n
  {
    if n >= 10 {
      NatToStringRoundTrip(n / 10);
      var s := NatToString(n);
      assert s[..|s| - 1] == NatToString(n / 10);
    }
  }
}

=== FILE: wrappers.dfy ===
/** Option and Result, the failure-carrying shapes used throughout the model. */
module Wrappers {

  datatype Option<+T> = None | Some(value: T)

  /** A computation that either produced a value or stopped with an error. */
  datatype Result<+T, +E> = Ok(value: T) | Err(error: E)
}
